=== FILE: README.md ===
# node-wisdom route logic, modelled in Dafny

The repository is an Express/PostgreSQL back end for a catalogue of
artisans: admin accounts log in, manage artisans, their skills, gallery
pictures, awards and products, upload images, and export the visit and
audit logs as CSV. The handlers hold small decision rules. This project
states those rules as pure Dafny functions over an abstract state and
proves what they promise:

- Tables are maps from serial id to row, with the sequence's next value.
- The audit and visit logs are append-only sequences of records.
- The upload directories are a set of paths.
- bcrypt, JWT signing and verification, `toLocaleString('th-TH')` and the
  password hash are function parameters. So are the failures of the
  statements whose outcome the modelled rules depend on; the statements
  modelled without a failure are named under "## Left out".

Modules follow the source files:

| module | models |
|---|---|
| `Js` | JavaScript values, truthiness, `\|\|`, `??`, `String(v)`, `parseInt`, and the string methods the handlers call |
| `Paths` | Node's `path.basename` and `path.extname`, and the `pathname` of a WHATWG `URL` |
| `Http` | requests, cookies and the token payload |
| `Store` | tables, inserts, updates, deletes, and the `BEGIN`/`COMMIT`/`ROLLBACK`/`release` protocol of a pooled client |
| `Csv` | `convertToCSV` in app/routes/log.js as written and with every field separated by `,`, plus a reader for section 2 of RFC 4180 |
| `Logs` | the rest of app/routes/log.js |
| `Session` | app/middleware/authMiddleware.js |
| `Auth` | app/routes/auth.js |
| `Uploads` | the multer filters, stored names and destinations, and both `deleteFile` helpers |
| `Queries` | the SQL builders with optional filters, as a sequence of text pieces and `$k` placeholders |
| `Admin` | the artisan, user and artisan-delete handlers of app/routes/admin.js |
| `Artisans` | app/routes/artisan.js |
| `Gallery` | app/routes/gallery.js |
| `Award` | app/routes/award.js |
| `Product` | app/routes/product.js |
| `Activity` | the relative-time `CASE` of app/routes/activity.js |

## Model

| member | source | states |
|---|---|---|
| Csv.ConvertToCsv | app/routes/log.js:89-112 | The corrected serialiser, with every field separated by one `,`. No records give the empty string, and only they do. Otherwise the text starts with the first record's keys joined by `,` and a CRLF. |
| Csv.ConvertToCsvAsWritten | app/routes/log.js:89-112 | `convertToCSV` as written. No records give the empty string, and only they do. Otherwise the text starts with the first record's keys joined by `,` and a CRLF. |
| Csv.QuotedIffSpecial | app/routes/log.js:101-106 | A string value has every `"` doubled. It is wrapped in quotes exactly when the doubled text holds `"`, `,` or a line feed. |
| Csv.FieldRoundTrip | app/routes/log.js:101-106 | A value without a carriage return reads back unchanged under RFC 4180, whether it was quoted or not. |
| Csv.LineRoundTrip | app/routes/log.js:98-108 | A row of such values reads back as the same list of values, one field per value, followed by what comes after its CRLF. |
| Csv.RowsRoundTrip | app/routes/log.js:96-109 | Every data row reads back, in order, as its record's values. |
| Csv.HeaderRoundTrip | app/routes/log.js:94 | The header line reads back as the first record's keys when no key needs quoting. |
| Csv.ConvertToCsvRoundTrip | app/routes/log.js:89-112 | The whole export reads back under RFC 4180 as the header followed by every record's values. This needs bare keys, no empty record and no carriage return in a value. |
| Csv.LoneCarriageReturnBreaksReading | app/routes/log.js:103-104 | A value with a carriage return and no `"`, `,` or line feed is left unquoted, and the document no longer reads back. |
| Csv.CarriageReturnStopsRecord | app/routes/log.js:109 | A row cannot end at a carriage return that is not followed by a line feed. |
| Csv.AsWrittenAgreesWhenFirstCellNonEmpty | app/routes/log.js:97-108 | The line loop as written agrees with joining by `,` on every row whose first cell is not empty. |
| Csv.RowsAsWrittenAgree | app/routes/log.js:96-110 | When every record has a first value that is written as a non-empty cell, all the data rows as written are the rows joined by `,`. |
| Csv.AsWrittenAgreesOnDocument | app/routes/log.js:89-112 | Under the same condition, `convertToCSV` as written produces exactly the document of the corrected serialiser, so every round-trip proved for the corrected one holds for the code. |
| Csv.LeadingEmptyCellDropped | app/routes/log.js:98-100 | As written, a line whose first cell is empty and whose second is not comes out as the cells from the second on, joined by `,`: the first separator is lost. |
| Csv.HeaderAndLineRoundTrip | app/routes/log.js:94-109 | A header of bare keys followed by one line of safe values reads back as those keys and those values. |
| Csv.LeadingEmptyFieldDropsSeparator | app/routes/log.js:98-100 | As written, a record whose first value is `''` and whose second is a string `x` free of `,`, `"`, CR and LF becomes the row `x` under the header `a,b`, for any keys `a` and `b`. |
| Csv.LeadingEmptyFieldKeptByJoin | app/routes/log.js:98-108 | Joining every field by `,` writes the same record as the row `,x`. |
| Csv.DroppedSeparatorReadsShort | app/routes/log.js:98-100 | When the keys and `x` need no quoting, the row written as `x` reads back as the single field `x` under a two-field header. |
| Logs.ClientIp | app/routes/log.js:7-9 | The client address is the text of `x-forwarded-for` up to its first comma when that is non-empty, else the socket address. |
| Logs.Referrer | app/routes/log.js:20 | The stored referrer is the `referer` header when it is truthy, else null. |
| Logs.LogVisit | app/routes/log.js:12-34 | A visit whose insert succeeds appends exactly one record and answers 204, keeping the earlier records. The record holds the client address, user agent, path and language as sent, the given method or `GET` when it is falsy, and the referer or null. A failed insert answers 500 and appends nothing. |
| Logs.ActionType | app/routes/log.js:48 | A falsy action is stored as `UNKNOWN` and a string action is upper-cased. A truthy non-string makes `toUpperCase` throw. |
| Logs.ActionTypeIsUpperCase | app/routes/log.js:48 | Every stored action type is already upper-case. |
| Logs.LogAdminAction | app/routes/log.js:36-65 | The answer is 500 exactly when the action type throws or the insert fails, and then nothing is appended. On 204 one record is appended holding the client address, user agent, path, stored action type, request method, message, referer or null, and the creation time. |
| Logs.FlattenVisit | app/routes/log.js:123-135 | A flattened visit has the seven visit columns in order. `visit_time` is the formatted time when the row has one, else `''`. Every other column is the log value of the same name when truthy, else `''`, and a missing `log_data` counts as `{}`. |
| Logs.Cell | app/routes/log.js:128-133 | A log column is the stored value when it is truthy, else the empty string. |
| Logs.TimeCell | app/routes/log.js:127 | A time column is the formatted time when the time is truthy, else the empty string. |
| Logs.AuditTime | app/routes/log.js:161 | The audit time is the log's `created_at` when truthy, else the row's `created_at`. |
| Logs.FlattenAudit | app/routes/log.js:158-174 | A flattened audit record has the seven audit columns in order. `timestamp` is the formatted audit time when there is one, else `''`. Every other column is the log value of the same name when truthy, else `''`. |
| Logs.ExportVisitLogs | app/routes/log.js:117-150 | The visit export is the byte-order mark followed by `convertToCSV` as written. It is the bare mark exactly when there are no visits. |
| Logs.ExportAuditLogs | app/routes/log.js:152-188 | The audit export is the byte-order mark followed by `convertToCSV` as written. It is the bare mark exactly when there are no records. |
| Logs.ColumnsAreBare | app/routes/log.js:126-134 | No column name of either export needs quoting. |
| Logs.SevenColumnRoundTrip | app/routes/log.js:94-110 | Records that share seven bare keys, written with every field separated by `,`, read back as that header and as rows of exactly seven fields. The exports reach it through Csv.AsWrittenAgreesOnDocument. |
| Logs.ExportVisitRoundTrip | app/routes/log.js:117-150 | When every visit has a time that formats to non-empty text, the export as written reads back, after the mark, as the visit header and one seven-field row per stored visit. |
| Logs.ExportAuditRoundTrip | app/routes/log.js:152-188 | When every record has an audit time that formats to non-empty text, the export as written reads back, after the mark, as the audit header and one seven-field row per stored record. |
| Logs.MissingLogDataExportsEmptyFields | app/routes/log.js:159-172 | A missing or null `log_data` exports every log column as an empty field. |
| Logs.UntimedAuditRowText | app/routes/log.js:96-110 | As written, an audit record with action type `a` and no time at all exports the line `a,,,,,`, six cells under a seven-column header. |
| Logs.UntimedAuditRowReadsShort | app/routes/log.js:158-176 | That export reads back as the audit header and a row of six fields, the action type first, so every column after the first is shifted left. |
| Logs.LoggedVisitExports | app/routes/log.js:12-34 | A visit that was logged and then exported shows the client address it was logged with, the path when it was a string, and the method, `GET` when none was given. |
| Logs.LoggedActionExports | app/routes/log.js:36-65 | An admin action that was logged and then exported shows the time it was logged, its stored action type, the request method and the client address. |
| Session.TokenOf | app/middleware/authMiddleware.js:9-10 | The token is the `token` cookie when it is non-empty, else the second word of the `Authorization` header. |
| Session.CookieWins | app/middleware/authMiddleware.js:9-10 | A non-empty cookie is used whatever `Authorization` header comes with it. |
| Session.BearerHeaderYieldsToken | app/middleware/authMiddleware.js:9-10 | Without a cookie, `Authorization: Bearer t` yields `t`. |
| Session.Authenticate | app/middleware/authMiddleware.js:6-25 | `next` runs at most once, and exactly when a token is present and verifies. Then `req.user` is the decoded payload. No token gives 401. A token that fails to verify clears `token` and gives 403. |
| Session.ClearCookies | app/middleware/authMiddleware.js:19 | Cleared cookies are gone from the browser's jar, and every other cookie is kept unchanged. |
| Session.RejectedCookieIsNotResent | app/middleware/authMiddleware.js:16-20 | After a 403, the browser's next request without a header carries no token and gets 401. |
| Auth.Login | app/routes/auth.js:96-173 | The checks run in order: missing input (400, no lookup), unknown user (400, one `AUTH_FAILED` record), `is_active === 0` (403, no comparison, no record), a password or stored hash that is not a string, which `bcrypt.compare` rejects (500 from the `catch`, no record), wrong password (400, one `LOGIN_FAILED` record without a password). Each failure record is exactly the one the handler builds, appended after the earlier records. A token, cookie and user come only when every check passes, and then the user is the account's five public fields. |
| Auth.PublicUser | app/routes/auth.js:156-165 | The user a login returns has exactly `user_id`, `username`, `fname`, `lname` and `role`, each as stored, and never the password hash. |
| Auth.LoginAuditIsAppendOnly | app/routes/auth.js:104-140 | A login attempt adds at most one audit record and keeps every earlier one. It adds one exactly when its steps include the write. No added record has a `password` field, and each carries a text `errorMessage`. |
| Auth.LoginChecksInOrder | app/routes/auth.js:99-147 | A password comparison only follows a lookup. A token is issued only after both and writes no audit record. A suspended account is refused before any comparison. A rejected comparison answers 500 and writes no record. |
| Auth.LoginThenAuthenticate | app/routes/auth.js:143-158 | When signing and verifying are inverse, the cookie a login sets authenticates the next request. The user it yields is `{user_id, username, fname + " " + lname, role}`. |
| Auth.RoleLabel | app/routes/auth.js:50-55 | `super_admin` reads `แอดมิน` and `editor` reads `ผู้แก้ไข`. Any other role is returned as it is. |
| Auth.RoleLabelIdempotent | app/routes/auth.js:50-55 | Labelling a label again changes nothing. |
| Auth.RoleLabelChangesOnlyKnownRoles | app/routes/auth.js:50-55 | A role is renamed exactly when it is one of the two known roles. |
| Auth.Me | app/routes/auth.js:35-63 | `/me` answers 404 exactly when no user has the token's id. Otherwise it answers the first such user's `user_id`, `fname`, `lname`, `profile_img` and `role` unchanged and nothing else, plus `role_name` set to the label of the role. No password is ever returned. |
| Auth.ProfilePath | app/routes/auth.js:73-80 | The stored picture is `uploads/profile/<file>` for an upload, else the body's `profile_img` when truthy, else null. |
| Auth.ProfilePathNamesUpload | app/routes/auth.js:73-80 | The stored path of an uploaded picture has the uploaded file's name as its basename. |
| Auth.RegisterRow | app/routes/auth.js:82-87 | The registered row holds the hash of the password, the chosen picture path, and the other five fields as given, with `undefined` sent as null. |
| Auth.Logout | app/routes/auth.js:175-189 | Logout clears `token` and then `access_token`, each with the options it was set with. |
| Auth.LogoutEndsSession | app/routes/auth.js:175-189 | After logout, a browser that sends no `Authorization` header is turned away with 401. |
| Uploads.GalleryAcceptsAdminUploads | app/routes/gallery.js:26-31 | Every file the admin filter accepts, the gallery filter accepts too. |
| Uploads.SubstringMatchAcceptsLongerExtension | app/routes/admin.js:32-42 | The filter is a substring test, so a file `<stem>.jpgx` sent as `image/jpeg` passes, for any stem free of dots and slashes. |
| Uploads.StoredNameKeepsExtension | app/routes/admin.js:23-26 | A stored name `<prefix><time>-<random><ext>` keeps the uploaded file's extension. |
| Uploads.AcceptedUploadKeepsImageExtension | app/routes/admin.js:23-42 | A stored file still carries an extension the filter accepts. |
| Uploads.Destination | app/routes/admin.js:10-16 | multer's destination is `uploads/gallery` exactly when the `isGallery` sent before the file is `true` or `'true'`, or the route path contains `gallery`. Otherwise it is `uploads`. |
| Uploads.RelativePath | app/routes/admin.js:89-93 | The reported path depends only on the flag of the complete body: `/uploads/gallery/<file>` or `/uploads/<file>`. |
| Uploads.RelativePathNamesDestination | app/routes/admin.js:10-16 | On `/upload`, the reported relative path names the directory the file was written to exactly when the flag multer saw and the flag of the complete body agree. |
| Uploads.LateFlagMisreportsDirectory | app/routes/admin.js:83-101 | When `isGallery: 'true'` comes after the file part, the file is written to `uploads/<file>` but reported as `/uploads/gallery/<file>`. |
| Uploads.Upload | app/routes/admin.js:32-107 | No file gives 400 and no write. A file the admin filter refuses gives 500 from the error middleware and is not written, and only such a file does. An accepted file gives 200 with its name, its relative path and `protocol://host` followed by that path, and it is written to the destination multer chose. |
| Uploads.Probe | app/routes/admin.js:63-79 | At most one file goes. It is `uploads/<name>` if present, else `uploads/gallery/<name>`. Otherwise nothing is removed. Nothing is removed either for a name whose first probe is a directory: empty, `.`, `..`, or one of the subdirectories `gallery`, `profile` and `award`. |
| Uploads.AdminTarget | app/routes/admin.js:47-60 | A falsy or non-string reference names nothing. A URL names the basename of its pathname, and any other string names its own basename, a single path segment. |
| Uploads.GalleryTarget | app/routes/gallery.js:36-50 | The gallery helper parses a reference as a URL only when it contains `://`. Then it names the basename of the pathname, or nothing when parsing fails. Otherwise it names the basename of the string. |
| Uploads.DeleteFile | app/routes/admin.js:46-80 | The admin `deleteFile` never throws and removes at most one file. Without a name it changes nothing, and with one it removes exactly what probing the two directories for that name removes. |
| Uploads.GalleryDeleteFile | app/routes/gallery.js:36-57 | The gallery `deleteFile` removes exactly what probing for its own name removes, and changes nothing without a name. |
| Uploads.ProbeTwice | app/routes/admin.js:63-79 | A second probe for the same name changes nothing unless the name exists in both directories. |
| Uploads.DeleteFileTwice | app/routes/admin.js:46-80 | Deleting the same reference twice removes no more than once, unless its name is in both directories. |
| Uploads.DeleteFileTwiceReachesGallery | app/routes/admin.js:63-79 | For a name present in both directories, the first call removes the `uploads` copy and a second call removes the gallery copy. |
| Uploads.RelativePathShape | app/routes/admin.js:90-93 | For a name of characters the URL parser keeps as they are, the relative path is `/uploads/<file>` or `/uploads/gallery/<file>` with no query or fragment, so a URL built on it keeps the path. |
| Uploads.UploadedUrlDeletesUpload | app/routes/admin.js:83-107 | For an accepted file whose stored name the URL parser keeps as it is, handing the full URL `/upload` returned back to `deleteFile` removes exactly the file multer wrote, whichever directory the reply names, as long as a gallery upload is not shadowed by a same-named file in `uploads`. |
| Uploads.HelpersAgreeOnPaths | app/routes/gallery.js:36-57 | On a plain path with no `:`, the two helpers remove the same file. |
| Uploads.HelpersAgreeOnUrls | app/routes/gallery.js:36-57 | On a `scheme://host/path` URL, the two helpers remove the same file. |
| Paths.UrlPathnameOfAbsolute | app/routes/admin.js:53-56 | The URL pathname of `scheme://host/path` is `/path`. |
| Paths.RootedPathIsNotUrl | app/routes/admin.js:57-59 | A path starting with `/` is not a URL, so `deleteFile` takes its basename directly. |
| Paths.ExtnameOfStoredName | app/routes/admin.js:23-26 | A dot-free stem followed by an extension keeps that extension. |
| Queries.ListingQuery | app/routes/artisan.js:7-41 | The listing always filters on the published status. It then adds the search (one `%search%` shared by fname and lname), the category and the province, in that order, skipping a choice that is empty or `ทั้งหมด`. Every placeholder `$1..$n` is bound, no other is used, and `n` is the parameter count. |
| Queries.AddSearch | app/routes/artisan.js:22-28 | Adding the search keeps placeholders and parameters in lock-step. Both name columns compare against the one new parameter. |
| Queries.AddEquals | app/routes/artisan.js:30-41 | Adding a category or province filter keeps the lock-step and adds one comparison against the new parameter. |
| Queries.AddCondition | app/routes/artisan.js:18-41 | A condition using only the next placeholder, with one parameter pushed, keeps the lock-step. It leaves every earlier comparison's bound value unchanged. |
| Queries.SearchQuery | app/routes/admin.js:114-124 | A search-only query binds one `%search%` to every listed column when the term is truthy. Without a term it binds nothing, and the order clause always ends it. |
| Queries.ProductSearchFilters | app/routes/product.js:20-32 | The product search compares all four columns with `%search%` for a term, and compares nothing without one. |
| Store.Insert | app/routes/product.js:65-78 | An insert stores the row under a fresh id and keeps every other row. |
| Store.Update | app/routes/admin.js:389-421 | An update changes only the named columns of one row, and reports whether that row exists. |
| Store.DeleteRow | app/routes/artisan.js:157-178 | A failed statement answers 500 and changes nothing. Otherwise the answer is 404 exactly when no row has the id, else 200, and afterwards only that row is gone and the sequence is kept. |
| Store.DeleteRowTwice | app/routes/product.js:94-101 | Deleting the same id again answers 404 and changes nothing. |
| Store.Transaction | app/routes/admin.js:223-317 | A transaction begins, runs its statements, then commits or rolls back. The client is released once, as the last event. |
| Store.DeleteUndoesInsert | app/routes/product.js:90-109 | Deleting the row an insert added gives the table back. |
| Store.FindFirst | app/routes/admin.js:254-260 | The lookup finds the first row whose column equals the value, and finds nothing exactly when no row matches. |
| Store.DeleteWhere | app/routes/admin.js:138-144 | A filtered delete counts the removed rows. Every kept row was there and does not match, and every non-matching row is kept. |
| Store.DeleteWhereKeepsMultiplicity | app/routes/admin.js:138-139 | A matching row is removed in every copy, and a non-matching row keeps its number of copies. |
| Store.DeleteCountsMatches | app/routes/admin.js:142-144 | The delete reports zero rows exactly when no row matched. |
| Admin.ResolveCategory | app/routes/admin.js:250-264 | A truthy `category_id` is used without a lookup. Else a truthy name resolves to the first matching category or fails with `ไม่พบหมวดหมู่: <name>`, and a lookup that fails passes its error on. With neither, it fails. |
| Admin.ResolvedByNameExists | app/routes/admin.js:254-262 | A category resolved by name is the id of a category with that name. |
| Admin.NewArtisanRow | app/routes/admin.js:269-300 | The inserted artisan has the ten columns of the statement. The status defaults to `ฉบับร่าง` and a falsy picture is stored as null. |
| Admin.AddArtisan | app/routes/admin.js:223-317 | The answer is 201 or 500. On 201 the artisan is inserted under a fresh id and the transaction commits. An unresolved category, a failed category lookup or a failed insert rolls back, leaves the table unchanged and answers 500 with the error's message. The client is released on every path. |
| Admin.AddArtisanReleasesClient | app/routes/admin.js:302-316 | The client is released once. The transaction commits exactly when the table changed. |
| Admin.SuppliedCategoryIdIsTrusted | app/routes/admin.js:250-252 | A supplied `category_id` is stored without any lookup, whether or not a category has it. |
| Admin.UpdatedColumns | app/routes/admin.js:383-419 | The update writes nine fields from the body, the picture as decided with `undefined` sent as null, and the update time. |
| Admin.UpdateArtisanAsWritten | app/routes/admin.js:346-432 | As written: 400 exactly for a missing required field and 404 exactly for an unknown id, both changing nothing. Otherwise 500 exactly when the update is rejected, and then the table is unchanged. Keeping the picture deletes nothing. Replacing it with a new one deletes the old reference once, and clearing it deletes the old reference twice, both before the update runs. On 200 the artisan's row is edited as `Admin.EditedRow` describes: the nine fields and the picture from the body, `updated_at` from the clock, every other column and every other row kept. |
| Admin.UpdateArtisan | app/routes/admin.js:362-387 | Corrected update: 400 exactly when fname, lname or category_id is missing, and 404 exactly when the id is unknown. A failure changes nothing and removes no file. A success edits the artisan's row as `Admin.EditedRow` describes, and removes at most one file, only when the old picture is replaced. |
| Admin.UpdateEditsRow | app/routes/admin.js:389-421 | The `UPDATE` stores each of the nine edited fields and the picture as the body gives them, `undefined` as null, sets `updated_at` to the clock, keeps every other column of the row, and leaves every other row and the id sequence alone. |
| Admin.UpdateAgreesWhenUnshadowed | app/routes/admin.js:376-387 | The code as written and the corrected update agree whenever the old name is not in both directories. |
| Admin.ClearingPictureDeletesGalleryFile | app/routes/admin.js:376-387 | As written, clearing a picture whose name is also in `uploads/gallery` deletes both files. The corrected update deletes only the artisan's picture. |
| Admin.FailedUpdateStillDeletesPicture | app/routes/admin.js:376-431 | As written, an update that then fails has already deleted the picture the row still names. The corrected update keeps it. |
| Admin.DeleteUser | app/routes/admin.js:133-153 | A failed statement answers 500. Otherwise 404 exactly when no user has the id. Anything but 200 changes nothing. On 200 no user has the id, every kept user was there, and every other user is kept. |
| Admin.DeleteUserTwice | app/routes/admin.js:138-144 | A second delete of the same user answers 404 and changes nothing. |
| Admin.DeleteArtisan | app/routes/admin.js:195-221 | A foreign-key violation (`23503`) answers 400 and any other failure answers 500, both leaving the table unchanged. Otherwise 404 means no artisan had the id, and 200 means it was removed. |
| Admin.DeleteArtisanTwice | app/routes/admin.js:195-207 | Deleting an artisan removes its row. Deleting it again answers 404 and leaves the table as the first delete left it. |
| Artisans.PersonRow | app/routes/artisan.js:99-112 | The artisan row has the five person fields as given, with `undefined` sent as null, and `is_active = 1`. |
| Artisans.SkillCategory | app/routes/artisan.js:116-122 | A category name resolves to the first matching category id, or to NULL when none matches or no name is given. |
| Artisans.SkillRow | app/routes/artisan.js:125-137 | The skill row links the new artisan and the category. Its detail and story default to `-` and its picture to `default.jpg`. |
| Artisans.Add | app/routes/artisan.js:91-154 | Both rows are stored with commit and 201 exactly when neither insert fails and the category lookup between them succeeds. Otherwise the transaction rolls back with 500 and both tables are unchanged. A failed lookup comes after the artisan insert and before the skill insert. The client is released last on every path. |
| Artisans.AddIsAllOrNothing | app/routes/artisan.js:91-154 | Both tables change together or neither does. |
| Artisans.UnknownCategoryStoresNull | app/routes/artisan.js:116-137 | An unknown category name is not an error: the skill is stored with a NULL category. |
| Artisans.TotalDraftsCounts | app/routes/artisan.js:180-204 | The reported `total_drafts` is the number of draft rows, and 0 when the SQL sum is null. |
| Gallery.GalleryLogEntry | app/routes/gallery.js:60-87 | A gallery log record holds exactly nine members: the action, the message, the request method, the `user-agent` header and the clock's time. Its address is the whole forwarded header or the socket address, and its path is `originalUrl` or `url`. Its `user_id` is null without a user. Its referrer is the referer header when truthy, else the origin header when truthy, else `Direct Access`. |
| Gallery.SaveLog | app/routes/gallery.js:60-87 | `saveLog` never throws. When the insert succeeds the log grows by one record, the earlier records are kept, and the new record is the gallery entry for the action. When it fails the log is unchanged. |
| Gallery.PictureRow | app/routes/gallery.js:125-130 | A new picture stores its full URL, the given name, the caption or null, the artisan and the user. |
| Gallery.Add | app/routes/gallery.js:106-145 | No file gives 400 and no insert. A file without a name is deleted and gives 400. A failed insert deletes the file and gives 500. Otherwise the row is stored with 201. Each path writes its log record. |
| Gallery.RefusedUploadIsRemoved | app/routes/gallery.js:117-123 | A picture refused for a missing name leaves no file behind. |
| Gallery.AddIgnoresLogFailure | app/routes/gallery.js:60-87 | Whether the log insert succeeds changes neither the answer, the table nor the files. |
| Gallery.MergedColumns | app/routes/gallery.js:164-176 | An update writes the new image URL only for a new file. A falsy name keeps the old one, and the caption falls back only on null or undefined. |
| Gallery.Update | app/routes/gallery.js:148-188 | 404 exactly for an unknown id after a successful lookup, and then the new upload is deleted. A failed lookup answers 500, deletes the new upload and logs the error. Without a new file no file changes. With one, the old picture is deleted before the update, and a failed update then deletes the new upload too. Any failure leaves the table unchanged. |
| Gallery.ReplacingRemovesOldPicture | app/routes/gallery.js:164-171 | Replacing a picture removes exactly the old picture's file. |
| Gallery.FailedUpdateLosesPicture | app/routes/gallery.js:164-187 | When the `UPDATE` fails after a new upload, the row still names the old picture, yet both the old picture and the new upload are gone. |
| Gallery.CaptionCoalescesNameOrs | app/routes/gallery.js:173-176 | An empty caption overwrites the old one and a missing caption keeps it. An empty name keeps the old name. |
| Gallery.Delete | app/routes/gallery.js:191-217 | 404 exactly for an unknown id after a successful lookup, with no change and a `FAIL` record. A failed lookup answers 500 with an `ERROR` record and changes nothing. Otherwise the picture's file is deleted first, then the row. |
| Gallery.FailedDeleteLosesPicture | app/routes/gallery.js:204-215 | A row delete that fails has already removed the picture's file, while the row keeps naming it. |
| Award.FileUrl | app/routes/award.js:41 | An upload is stored as `/uploads/award/<file>`, and no upload as null. |
| Award.JoinRootOfFileUrl | app/routes/award.js:132-137 | Joining a stored `file_url` to the project root gives the path multer wrote the file to. |
| Award.AwardRow | app/routes/award.js:37-58 | A new award stores the artisan, the title, the date and the file URL, with an absent title or date sent as null. |
| Award.Add | app/routes/award.js:37-58 | 201 with the row under a fresh id exactly when the insert succeeds, else 500 and no change. The stored row is Award.AwardRow, so an absent title or date is null. |
| Award.EditColumns | app/routes/award.js:65-84 | With a file, the title, the date and `file_url` change. Without one, only the title and date change, and the body's `file_url` is ignored. An absent title or date is set to null. |
| Award.Edit | app/routes/award.js:60-96 | The edit answers 200 or 500 and never adds or removes a row. A failure changes nothing. On success the edited award takes the body's title and date (null when absent), and the new file's URL when there is an upload, else keeps its `file_url`. Its other columns and every other award are kept. |
| Award.EditWithoutFileKeepsFileUrl | app/routes/award.js:77-84 | Without an upload, the stored `file_url` is untouched whatever the body carries. |
| Award.Delete | app/routes/award.js:126-149 | The answer is 500 exactly when the lookup fails, a truthy `file_url` is not a string or joins to a directory, or the delete fails. Otherwise it is 200, even when no row exists, and only that row is gone. The file `<root>/<file_url>` is removed exactly when the lookup succeeded and the row names one, even when the delete then fails. |
| Award.DirectoryUrlKeepsAward | app/routes/award.js:132-137 | A `file_url` of `/uploads/award` joins to a directory, so the unlink throws: the answer is 500 and neither the award nor any file goes. |
| Award.FailedDeleteLosesFile | app/routes/award.js:130-147 | A delete that fails after the lookup answers 500 with the row still naming its file, which is already gone. |
| Award.DeleteUndoesAdd | app/routes/award.js:37-58 | Deleting an award that was added with an upload removes both the row and the file. |
| Product.ProductRow | app/routes/product.js:65-78 | A product keeps its three required fields as given. The description defaults to `''` and the picture to `default_product.jpg`, and there are no other columns. |
| Product.Add | app/routes/product.js:55-87 | 400 exactly when artisan_id, product_name or price_range is missing, before any insert. 201 exactly when the insert then succeeds, else 500 with no change. |
| Product.StoredProductHasImage | app/routes/product.js:70-76 | A stored product is a new row under a fresh id whose picture is truthy: the body's picture when it is truthy. |
| Product.AddThenDeleteRestores | app/routes/product.js:90-109 | Deleting the product just added answers 200 and gives the table's rows back. |
| Activity.Bucket | app/routes/activity.js:14-23 | The four branches are disjoint and cover every elapsed time. Under a minute (negative included) is "just now". Then come whole minutes 1..59, whole hours 1..23, and whole days from 1. Each count is the floor of the age in that unit. |
| Activity.ReadRender | app/routes/activity.js:14-23 | Every label reads back as the bucket it was made from. |
| Activity.SameLabelSameBucket | app/routes/activity.js:45-54 | Two ages get the same label exactly when they fall in the same bucket. This holds for `created_at` and `updated_at` alike. |

## Left out

- I/O, the event loop, the pool's connection handling and concurrency are not modelled. This includes the race between two edits of the same picture.
- Numbers are modelled as integers. `NaN`, floating point and 32-bit limits do not occur in the rules modelled here.
- Route parameters used as row ids are modelled as integers, as PostgreSQL casts them; a non-numeric id would make the query throw, which is left out. Parameters that are only stored are kept as given: Gallery.Add takes the `artisanId` text and Award.Add takes the parameter as a JavaScript value.
- Case conversion covers ASCII letters only: `toUpperCase` and `toLowerCase` are applied to action types and file extensions.
- URL parsing covers the references the handlers store: a scheme, an optional `//authority`, a path, a query and a fragment. Percent-encoding, dot-segment removal and host validation are left out.
- `path.join` is modelled for joining a directory with a single path segment, and Award.JoinRoot for joining the project root with a stored `file_url`.
- Award.JoinRoot collapses leading slashes only. It does not normalise `//`, `.` or `..` segments inside the path, nor a trailing slash, as `path.join` does; the stored URLs of uploads contain none.
- Award.Delete takes the directories present as a parameter and answers 500 for a `file_url` that joins to one of them. A normalised path that differs from the joined text, and one that leaves the project root, are not modelled (see Award.JoinRoot).
- Uploads.Probe treats `uploads/gallery`, `uploads/profile` and `uploads/award` as present, since the handlers create them on their first upload. Before that first upload the source's first probe finds nothing there and its second probe looks for `uploads/gallery/<name>`, where no stored file has such a name.
- bcrypt, JWT signing and verification, the `th-TH` date formatter and `Date.now()`/`Math.random()` are parameters, not implementations.
- multer's storage internals, its 5 MB size limit and directory creation are left out. The filters and the stored-name rule are modelled. A refused file is modelled for Uploads.Upload; the gallery and award filters' refusals, which also end in the error middleware's 500 before the handler runs, are stated only as the filter predicates.
- Database failures are parameters: a flag that a statement fails, a predicate that rejects a row, an optional error message, or a `Result` for a lookup. The `SELECT` of the old picture in Admin.UpdateArtisanAsWritten and the `SELECT` of Logs.ExportVisitLogs and Logs.ExportAuditLogs are not given a failure; each answers 500 from its `catch` with nothing changed. Auth.RegisterRow models the stored row only, not the 500 of a failing insert. PostgreSQL's own semantics are not modelled: `ILIKE` matching, foreign-key actions, `NOW()` and aggregates. Consequently the placeholder builder is modelled and the matching it asks for is not.
- A serial value consumed by a rolled-back insert is not given back: `Store.Insert` advances the sequence and the rolled-back table keeps the old value, so ids are fresh, not dense.
- Auth.Login: the 500 answer when the database throws is not modelled, nor is the `access_token` cookie it never sets. The 500 when `bcrypt.compare` rejects is modelled for a password or stored hash that is not a string; a JSON body cannot carry a Buffer.
- Uploads.UploadedUrlDeletesUpload and Uploads.RelativePathShape cover stored names made of printable ASCII outside the URL path percent-encode set, without `/`, `\` or `%`. For other names, such as `1-2.jpg x` (the admin filter's substring test accepts it), `new URL` percent-encodes or splits the path, and the basename `deleteFile` looks for differs from the stored name. The model of `new URL` does not cover them.
- Award.JoinRootOfFileUrl and Award.DeleteUndoesAdd assume the server is started from the project root: multer writes to the working-directory-relative `uploads/award/`, while the delete joins the file's directory with `../../`.
- Auth.Me: the 500 answer when the database throws is not modelled.
- Gallery.Add requires an authenticated user, because the route is mounted behind the session middleware, which sets `req.user` before the handler runs.
- Logs.ExportVisitRoundTrip requires that no flattened value holds a carriage return, because the serialiser leaves a lone carriage return unquoted (Csv.LoneCarriageReturnBreaksReading). It also requires every visit to have a time that formats to non-empty text, because the serialiser as written drops the separator after an empty first cell.
- Logs.ExportAuditRoundTrip requires the same of the audit records and their audit times. Logs.UntimedAuditRowReadsShort shows what an untimed record becomes.
- Auth.RoleLabel treats only `super_admin` and `editor` as known. In the source, `roleMap[role]` also finds keys inherited from `Object.prototype`, such as `constructor` or `toString`, and then `role_name` is a function. Roles are stored text and those names are not roles the application uses.
- Auth.RoleLabelChangesOnlyKnownRoles is stated for the two-key map above and does not cover inherited `Object.prototype` keys.
- Logs.LogVisit and Gallery.GalleryLogEntry store the record's values as given; `JSON.stringify` dropping `undefined` members is not modelled.
- Activity.Bucket takes the elapsed time in whole seconds. The SQL interval carries fractions of a second, and `FLOOR` of the fractional epoch gives the same counts.
- Award.Edit: replacing a file leaves the previous award file on disk, as the handler does. No delete is modelled because the code issues none.
- app/routes/category.js, galleryadmin.js, galleryPage.js and search.js are single-statement SQL wrappers. Their one `%search%` parameter is the same builder that Queries.SearchQuery covers.
- index.js and app/config/dbcon.js are application wiring and pool setup and are not part of this model.
- The read-only listing handlers (`GET /logs`, `GET /visit-logs`, the `GET` of one artisan, gallery, award or profile) return query results unchanged and are not modelled.

## Findings

| source | as written | input that shows it | evidently intended | confidence | as-written member | corrected member |
|---|---|---|---|---|---|---|
| app/routes/log.js:98-100 | A `,` is added before a field only when the line built so far is non-empty, so leading empty fields lose their separators | an audit record with `action_type` `LOGIN` and neither `log_data.created_at` nor `created_at` is exported as the line `LOGIN,,,,,`, six fields under seven columns; likewise `{a: '', b: 'x'}` becomes `x` under `a,b` | every field separated by one `,`, giving `,LOGIN,,,,,` | high, not executed | Logs.UntimedAuditRowReadsShort | Csv.ConvertToCsvRoundTrip |
| app/routes/admin.js:376-387 | When `profile_img` is `null` and an old picture exists, `deleteFile(old)` runs twice. The second call probes again and removes a same-named file from `uploads/gallery` | an artisan whose picture is `/uploads/a.jpg`, with both `uploads/a.jpg` and `uploads/gallery/a.jpg` on disk, updated with `profile_img: null`: both files are removed | the old picture deleted once | medium, not executed; the collision needs the same stored name in both directories | Admin.ClearingPictureDeletesGalleryFile | Admin.UpdateArtisan |
| app/routes/admin.js:376-431 | The old picture is deleted before the `UPDATE` runs, so an update that then fails leaves the row naming a deleted file | an update with a `category_id` no category has: the `UPDATE` fails with a foreign-key violation and answers 500, and the picture is already gone | the old picture deleted only once the update has succeeded | high, not executed | Admin.FailedUpdateStillDeletesPicture | Admin.UpdateArtisan |

=== FILE: activity.dfy ===
/**
 * The relative-time column of app/routes/activity.js: the SQL `CASE` that
 * turns the age of the newest artisan (or of the last category edit) into
 * "just now", "n minutes ago", "n hours ago" or "n days ago". The age is
 * measured in whole seconds and may be negative when a clock runs ahead.
 */
module Activity {
  import opened Js

  const Minute := 60
  const Hour := 3600
  const Day := 86400

  /** The four shapes the `CASE` can produce. */
  datatype Ago = JustNow | MinutesAgo(n: nat) | HoursAgo(n: nat) | DaysAgo(n: nat)

  /**
   * The `CASE` branches in order: under a minute, under an hour, under a
   * day, else days; each count is `FLOOR(seconds / unit)`.
   */
  function Bucket(elapsed: int): (b: Ago)
    ensures b.JustNow? <==> elapsed < Minute
    ensures b.MinutesAgo? <==> Minute <= elapsed < Hour
    ensures b.HoursAgo? <==> Hour <= elapsed < Day
    ensures b.DaysAgo? <==> Day <= elapsed
    ensures b.MinutesAgo? ==> 1 <= b.n <= 59 && b.n * Minute <= elapsed < (b.n + 1) * Minute
    ensures b.HoursAgo? ==> 1 <= b.n <= 23 && b.n * Hour <= elapsed < (b.n + 1) * Hour
    ensures b.DaysAgo? ==> 1 <= b.n && b.n * Day <= elapsed < (b.n + 1) * Day
  {
    if elapsed < Minute then JustNow
    else if elapsed < Hour then MinutesAgo(elapsed / Minute)
    else if elapsed < Day then HoursAgo(elapsed / Hour)
    else DaysAgo(elapsed / Day)
  }

  /** Which of the four branches applies, in the order the `CASE` tries them. */
  function Rank(b: Ago): nat {
    match b
    case JustNow => 0
    case MinutesAgo(_) => 1
    case HoursAgo(_) => 2
    case DaysAgo(_) => 3
  }

  /** An older timestamp never reads as more recent: the branch and the count both grow with the age. */
  lemma BucketMonotone(e1: int, e2: int)
    requires e1 <= e2
    ensures Rank(Bucket(e1)) <= Rank(Bucket(e2))
    ensures Rank(Bucket(e1)) == Rank(Bucket(e2)) && !Bucket(e1).JustNow? ==> Bucket(e1).n <= Bucket(e2).n
  {
  }

  const JustNowText := "เมื่อสักครู่"
  const MinutesSuffix := " นาทีที่แล้ว"
  const HoursSuffix := " ชั่วโมงที่แล้ว"
  const DaysSuffix := " วันที่แล้ว"

  /** The text the `CASE` yields: the count's digits followed by the unit phrase. */
  function Render(b: Ago): string {
    match b
    case JustNow => JustNowText
    case MinutesAgo(n) => NatToString(n) + MinutesSuffix
    case HoursAgo(n) => NatToString(n) + HoursSuffix
    case DaysAgo(n) => NatToString(n) + DaysSuffix
  }

  /** The age label a client would show for `elapsed` seconds. */
  function Label(elapsed: int): string {
    Render(Bucket(elapsed))
  }

  /** Reads a label back: the leading number and the unit phrase after it. */
  function Read(text: string): Option<Ago> {
    if text == JustNowText then Some(JustNow)
    else
      var k := DigitRun(text);
      if k == 0 then None
      else
        var n := ParseDigits(text[..k]);
        var unit := text[k..];
        if unit == MinutesSuffix then Some(MinutesAgo(n))
        else if unit == HoursSuffix then Some(HoursAgo(n))
        else if unit == DaysSuffix then Some(DaysAgo(n))
        else None
  }

  lemma SuffixesDiffer()
    ensures MinutesSuffix != HoursSuffix && MinutesSuffix != DaysSuffix && HoursSuffix != DaysSuffix
    ensures MinutesSuffix[0] == ' ' && HoursSuffix[0] == ' ' && DaysSuffix[0] == ' '
    ensures !IsDigit(JustNowText[0])
  {
    assert MinutesSuffix[1] != HoursSuffix[1];
    assert MinutesSuffix[1] != DaysSuffix[1];
    assert HoursSuffix[1] != DaysSuffix[1];
  }

  /** A number followed by a unit phrase reads back as that number and phrase. */
  lemma ReadNumbered(n: nat, suffix: string)
    requires suffix in {MinutesSuffix, HoursSuffix, DaysSuffix}
    ensures var text := NatToString(n) + suffix;
      text != JustNowText && DigitRun(text) == |NatToString(n)|
      && ParseDigits(text[..DigitRun(text)]) == n && text[DigitRun(text)..] == suffix
  {
    SuffixesDiffer();
    var d := NatToString(n);
    var text := d + suffix;
    assert IsDigit(text[0]);
    DigitRunOfRendering(n, suffix);
    assert text[..|d|] == d;
    assert text[|d|..] == suffix;
    ParseNatToString(n);
  }

  /** Every label names its bucket unambiguously: reading it gives the bucket back. */
  lemma ReadRender(b: Ago)
    ensures Read(Render(b)) == Some(b)
  {
    SuffixesDiffer();
    match b
    case JustNow =>
    case MinutesAgo(n) => ReadNumbered(n, MinutesSuffix);
    case HoursAgo(n) => ReadNumbered(n, HoursSuffix);
    case DaysAgo(n) => ReadNumbered(n, DaysSuffix);
  }

  /** Two ages get the same label exactly when they fall in the same bucket. */
  lemma SameLabelSameBucket(e1: int, e2: int)
    ensures Label(e1) == Label(e2) <==> Bucket(e1) == Bucket(e2)
  {
    ReadRender(Bucket(e1));
    ReadRender(Bucket(e2));
  }
}

=== FILE: admin.dfy ===
/**
 * The artisan and user administration of app/routes/admin.js: the
 * `/artisan/add` transaction with its category resolution, the
 * `PUT /artisan/:id` update with its old-image rule, and the two delete
 * routes' status mapping. A constraint the database would enforce on a
 * written row is the parameter `rejects`: `Some(message)` when the
 * statement fails.
 */
module Admin {
  import opened Js
  import opened Store
  import opened Uploads
  import opened Paths

  // ---------------------------------------------------------------------
  // POST /artisan/add
  // ---------------------------------------------------------------------

  /** The statements the handler runs inside its transaction. */
  datatype Statement = LookupCategory | InsertArtisan

  const Draft := "ฉบับร่าง"

  const NoCategoryGiven := "กรุณาระบุหมวดหมู่ (category_name หรือ category_id)"

  function UnknownCategory(name: Value): string {
    "ไม่พบหมวดหมู่: " + ToText(name)
  }

  /**
   * The category id the new artisan gets: a supplied `category_id` as is,
   * else the id of the first category with the supplied name; an error when
   * the name matches nothing or neither is supplied. `categories` is the
   * outcome of the `SELECT` by name: its rows, or the message it threw with.
   */
  function ResolveCategory(categories: Result<seq<Row>>, body: Row): (r: Result<Value>)
    ensures Truthy(Get(body, "category_id")) ==> r == Ok(Get(body, "category_id"))
    ensures !Truthy(Get(body, "category_id")) && !Truthy(Get(body, "category_name")) ==> r == Err(NoCategoryGiven)
    ensures LooksUp(body) && categories.Err? ==> r == Err(categories.message)
    ensures LooksUp(body) && categories.Ok? ==>
      match FindFirst(categories.value, "category_name", Get(body, "category_name"))
      case None => r == Err(UnknownCategory(Get(body, "category_name")))
      case Some(i) => r == Ok(Get(categories.value[i], "category_id"))
  {
    var id := Get(body, "category_id");
    var name := Get(body, "category_name");
    if Truthy(id) then Ok(id)
    else if Truthy(name) then
      match categories
      case Err(msg) => Err(msg)
      case Ok(rows) =>
        match FindFirst(rows, "category_name", name)
        case None => Err(UnknownCategory(name))
        case Some(i) => Ok(Get(rows[i], "category_id"))
    else Err(NoCategoryGiven)
  }

  /** A category resolved by name is the id of a category that has that name. */
  lemma ResolvedByNameExists(categories: seq<Row>, body: Row)
    requires !Truthy(Get(body, "category_id")) && ResolveCategory(Ok(categories), body).Ok?
    ensures exists i :: 0 <= i < |categories| &&
              Get(categories[i], "category_name") == Get(body, "category_name") &&
              Get(categories[i], "category_id") == ResolveCategory(Ok(categories), body).value
  {
    var i := FindFirst(categories, "category_name", Get(body, "category_name")).value;
    assert Get(categories[i], "category_name") == Get(body, "category_name");
  }

  /** Each named body field as a query parameter. */
  function Params(body: Row, fields: set<string>): (m: Row)
    ensures m.Keys == fields
    ensures forall c :: c in fields ==> m[c] == AsParam(Get(body, c))
  {
    map c | c in fields :: AsParam(Get(body, c))
  }

  /** The body fields the insert passes through unchanged. */
  const InsertedFields: set<string> := {"fname", "lname", "birth_date", "address", "province", "district", "biography"}

  /** The ten columns the insert writes. */
  function NewArtisanRow(body: Row, categoryId: Value): (row: Row)
    ensures Get(row, "category_id") == AsParam(categoryId)
    ensures Get(row, "status") == (if Truthy(Get(body, "status")) then Get(body, "status") else Str(Draft))
    ensures Get(row, "profile_img") == (if Truthy(Get(body, "profile_img")) then Get(body, "profile_img") else Null)
    ensures forall c :: c in InsertedFields ==> Get(row, c) == AsParam(Get(body, c))
    ensures "created_by" !in row
  {
    Params(body, InsertedFields)[
      "profile_img" := Or(Get(body, "profile_img"), Null)][
      "category_id" := AsParam(categoryId)][
      "status" := OrText(Get(body, "status"), Draft)]
  }

  datatype AddResult = AddResult(status: int, artisans: Table, events: seq<TxEvent<Statement>>, error: Option<string>)

  /** The optional lookup, then the insert once a category is resolved. */
  function Statements(lookup: bool, insert: bool): seq<Statement> {
    (if lookup then [LookupCategory] else []) + (if insert then [InsertArtisan] else [])
  }

  /** The handler looks the category up by name only when no id is given. */
  predicate LooksUp(body: Row) {
    !Truthy(Get(body, "category_id")) && Truthy(Get(body, "category_name"))
  }

  /**
   * `POST /artisan/add`: inside a transaction, resolve the category and
   * insert; commit and answer 201, or roll back and answer 500 with the
   * error's message. The client is released on every path.
   */
  function AddArtisan(artisans: Table, categories: Result<seq<Row>>, body: Row, rejects: Row -> Option<string>)
    : (r: AddResult)
    requires Valid(artisans)
    ensures Valid(r.artisans)
    ensures r.status == 201 || r.status == 500
    ensures r.status == 201 ==> ResolveCategory(categories, body).Ok?
    ensures r.events == Transaction(Statements(LooksUp(body), ResolveCategory(categories, body).Ok?), r.status == 201)
    ensures r.status == 500 ==> r.artisans == artisans && r.error.Some?
    ensures r.status == 201 ==>
      var row := NewArtisanRow(body, ResolveCategory(categories, body).value);
      rejects(row).None? && exists id :: id !in artisans.rows && r.artisans.rows == artisans.rows[id := row]
    ensures ResolveCategory(categories, body).Err? ==>
      r.status == 500 && r.error == Some(ResolveCategory(categories, body).message)
  {
    match ResolveCategory(categories, body)
    case Err(msg) =>
      AddResult(500, artisans, Transaction(Statements(LooksUp(body), false), false), Some(msg))
    case Ok(categoryId) =>
      var row := NewArtisanRow(body, categoryId);
      match rejects(row)
      case Some(msg) =>
        AddResult(500, artisans, Transaction(Statements(LooksUp(body), true), false), Some(msg))
      case None =>
        var (t, id) := Insert(artisans, row);
        AddResult(201, t, Transaction(Statements(LooksUp(body), true), true), None)
  }

  /**
   * Whatever happens, the transaction begins, ends in exactly one of
   * `COMMIT` and `ROLLBACK`, and releases its client once, last; it commits
   * exactly when the table gained the new artisan.
   */
  lemma AddArtisanReleasesClient(artisans: Table, categories: Result<seq<Row>>, body: Row, rejects: Row -> Option<string>)
    requires Valid(artisans)
    ensures var r := AddArtisan(artisans, categories, body, rejects);
      ReleasedOnce(r.events) && r.events[0].Begin?
      && (Commit in r.events <==> r.status == 201)
      && (Commit in r.events <==> Rollback !in r.events)
      && (Commit in r.events <==> r.artisans != artisans)
  {
    var r := AddArtisan(artisans, categories, body, rejects);
    if r.status == 201 {
      var id :| id !in artisans.rows && r.artisans.rows == artisans.rows[id := NewArtisanRow(body, ResolveCategory(categories, body).value)];
      assert id in r.artisans.rows;
    }
  }

  /** A supplied `category_id` is written as given, with no lookup, even if no such category exists. */
  lemma SuppliedCategoryIdIsTrusted(artisans: Table, body: Row, rejects: Row -> Option<string>)
    requires Valid(artisans)
    requires Truthy(Get(body, "category_id"))
    requires rejects(NewArtisanRow(body, Get(body, "category_id"))).None?
    ensures var r := AddArtisan(artisans, Ok([]), body, rejects);
      r.status == 201 && Run(LookupCategory) !in r.events && Get(r.artisans.rows[artisans.nextId], "category_id") == Get(body, "category_id")
  {
  }

  // ---------------------------------------------------------------------
  // PUT /artisan/:id
  // ---------------------------------------------------------------------

  /** `!fname || !lname || !category_id` */
  predicate MissingRequired(body: Row) {
    !Truthy(Get(body, "fname")) || !Truthy(Get(body, "lname")) || !Truthy(Get(body, "category_id"))
  }

  /** The body fields the update writes as given. */
  const UpdatedFields: set<string> :=
    {"fname", "lname", "birth_date", "address", "province", "district", "category_id", "biography", "status"}

  /** The columns the update writes, given the profile image to store. */
  function UpdatedColumns(body: Row, image: Value, now: Value): (cols: Row)
    ensures Get(cols, "profile_img") == AsParam(image)
    ensures Get(cols, "updated_at") == now
    ensures forall c :: c in UpdatedFields ==> Get(cols, c) == AsParam(Get(body, c))
    ensures cols.Keys == UpdatedFields + {"profile_img", "updated_at"}
  {
    Params(body, UpdatedFields)["profile_img" := AsParam(image)]["updated_at" := now]
  }

  /**
   * `after` is `before` with artisan `id` edited: the nine fields and the
   * picture take the body's values (`undefined` stored as NULL),
   * `updated_at` is the clock's, and every other column and every other
   * row is kept.
   */
  ghost predicate EditedRow(before: Table, after: Table, id: int, body: Row, now: Value) {
    id in before.rows && after.nextId == before.nextId && after.rows.Keys == before.rows.Keys
    && (forall k :: k in before.rows && k != id ==> after.rows[k] == before.rows[k])
    && (forall c :: c in UpdatedFields ==> Get(after.rows[id], c) == AsParam(Get(body, c)))
    && Get(after.rows[id], "profile_img") == AsParam(Get(body, "profile_img"))
    && Get(after.rows[id], "updated_at") == now
    && (forall c :: c !in UpdatedFields && c != "profile_img" && c != "updated_at" ==>
          Get(after.rows[id], c) == Get(before.rows[id], c))
  }

  /** The `UPDATE` statement of `PUT /artisan/:id` makes exactly that edit. */
  lemma UpdateEditsRow(artisans: Table, id: int, body: Row, now: Value)
    requires id in artisans.rows
    ensures EditedRow(artisans, Update(artisans, id, UpdatedColumns(body, Get(body, "profile_img"), now)).0, id, body, now)
  {
  }

  datatype UpdateResult = UpdateResult(status: int, artisans: Table, files: Files)

  /** The old image goes when there is one and the request names a different one (or none). */
  predicate ReplacesImage(stale: Value, incoming: Value) {
    Truthy(stale) && stale != incoming
  }

  /**
   * `PUT /artisan/:id` as written: the old image is deleted before the
   * update runs, and deleted a second time when the request clears the
   * image with `null`.
   */
  function UpdateArtisanAsWritten(artisans: Table, files: Files, id: int, body: Row, now: Value,
                                  rejects: Row -> Option<string>): (r: UpdateResult)
    ensures r.status in {200, 400, 404, 500}
    ensures r.status == 400 <==> MissingRequired(body)
    ensures r.status == 404 <==> !MissingRequired(body) && id !in artisans.rows
    ensures r.status in {400, 404} ==> r.artisans == artisans && r.files == files
    ensures r.status == 500 ==> r.artisans == artisans
    ensures r.files <= files && |files - r.files| <= 2
    ensures r.status in {200, 500} ==>
      var stale := Get(artisans.rows[id], "profile_img");
      var image := Get(body, "profile_img");
      (r.status == 500 <==> rejects(UpdatedColumns(body, image, now)).Some?)
      && (!ReplacesImage(stale, image) ==> r.files == files)
      && (ReplacesImage(stale, image) && image != Null ==> r.files == DeleteFile(files, stale))
      && (Truthy(stale) && image == Null ==> r.files == DeleteFile(DeleteFile(files, stale), stale))
    ensures r.status == 200 ==> EditedRow(artisans, r.artisans, id, body, now)
  {
    if MissingRequired(body) then UpdateResult(400, artisans, files)
    else if id !in artisans.rows then UpdateResult(404, artisans, files)
    else
      var stale := Get(artisans.rows[id], "profile_img");
      var image := Get(body, "profile_img");
      var files1 := if ReplacesImage(stale, image) then DeleteFile(files, stale) else files;
      var files2 := if image == Null && Truthy(stale) then DeleteFile(files1, stale) else files1;
      TwoRemovals(files, files1, files2);
      var cols := UpdatedColumns(body, image, now);
      match rejects(cols)
      case Some(_) => UpdateResult(500, artisans, files2)
      case None =>
        UpdateEditsRow(artisans, id, body, now);
        UpdateResult(200, Update(artisans, id, cols).0, files2)
  }

  /** Two steps that each remove at most one file remove at most two. */
  lemma TwoRemovals(a: Files, b: Files, c: Files)
    requires b <= a && |a - b| <= 1
    requires c <= b && |b - c| <= 1
    ensures c <= a && |a - c| <= 2
  {
    assert a - c == (a - b) + (b - c);
  }

  /**
   * `PUT /artisan/:id` as evidently intended: validate, find the row,
   * update it, and only then delete the replaced image, once.
   */
  function UpdateArtisan(artisans: Table, files: Files, id: int, body: Row, now: Value,
                         rejects: Row -> Option<string>): (r: UpdateResult)
    requires Valid(artisans)
    ensures Valid(r.artisans)
    ensures r.status in {200, 400, 404, 500}
    ensures r.status == 400 <==> MissingRequired(body)
    ensures r.status == 404 <==> !MissingRequired(body) && id !in artisans.rows
    ensures r.status != 200 ==> r.artisans == artisans && r.files == files
    ensures r.files <= files && |files - r.files| <= 1
    ensures r.status == 200 ==> EditedRow(artisans, r.artisans, id, body, now)
    ensures r.status == 200 ==>
      var stale := Get(artisans.rows[id], "profile_img");
      var image := Get(body, "profile_img");
      (ReplacesImage(stale, image) ==> r.files == DeleteFile(files, stale))
      && (!ReplacesImage(stale, image) ==> r.files == files)
  {
    if MissingRequired(body) then UpdateResult(400, artisans, files)
    else if id !in artisans.rows then UpdateResult(404, artisans, files)
    else
      var stale := Get(artisans.rows[id], "profile_img");
      var image := Get(body, "profile_img");
      var cols := UpdatedColumns(body, image, now);
      match rejects(cols)
      case Some(_) => UpdateResult(500, artisans, files)
      case None =>
        var files' := if ReplacesImage(stale, image) then DeleteFile(files, stale) else files;
        UpdateEditsRow(artisans, id, body, now);
        UpdateResult(200, Update(artisans, id, cols).0, files')
  }

  /**
   * When the update succeeds and the old image's name is not in both upload
   * directories, the code as written ends in the same state as the
   * intended one.
   */
  lemma UpdateAgreesWhenUnshadowed(artisans: Table, files: Files, id: int, body: Row, now: Value,
                                   rejects: Row -> Option<string>)
    requires Valid(artisans)
    requires id in artisans.rows
    requires rejects(UpdatedColumns(body, Get(body, "profile_img"), now)).None?
    requires var stale := Get(artisans.rows[id], "profile_img");
      AdminTarget(stale).Some? ==>
        !(Location(UploadsDir, AdminTarget(stale).value) in files && Location(GalleryDir, AdminTarget(stale).value) in files)
    ensures UpdateArtisanAsWritten(artisans, files, id, body, now, rejects)
         == UpdateArtisan(artisans, files, id, body, now, rejects)
  {
    var stale := Get(artisans.rows[id], "profile_img");
    if Truthy(stale) {
      DeleteFileTwice(files, stale);
    }
  }

  /** A reference `/uploads/<name>` as the handlers store it names `<name>`. */
  lemma AdminTargetOfUploadPath(name: string)
    requires name != "" && '/' !in name
    ensures AdminTarget(Str("/uploads" + "/" + name)) == Some(name)
  {
    var p := "/uploads" + "/" + name;
    assert p[0] == '/';
    RootedPathIsNotUrl(p);
    BasenameOfJoin("/uploads", name);
  }

  /** One artisan, `id`, whose picture is `/uploads/<name>`. */
  function OneArtisan(id: int, name: string): Table {
    Table(map[id := map["profile_img" := Str("/uploads" + "/" + name)]], id + 1)
  }

  /** The same name in both upload directories: the artisan's picture and an unrelated gallery picture. */
  function BothDirs(name: string): Files {
    {Location(UploadsDir, name), Location(GalleryDir, name)}
  }

  /** A valid edit that clears the picture with `profile_img: null`. */
  const ClearPicture: Row := map["fname" := Str("A"), "lname" := Str("B"), "category_id" := Num(1), "profile_img" := Null]

  lemma ClearPictureIsComplete()
    ensures !MissingRequired(ClearPicture) && Get(ClearPicture, "profile_img") == Null
  {
  }

  /** The first delete of `/uploads/<name>` finds the artisan's own picture. */
  lemma FirstDeleteTakesUpload(name: string)
    requires FileName(name) && '/' !in name
    ensures DeleteFile(BothDirs(name), Str("/uploads" + "/" + name)) == {Location(GalleryDir, name)}
    ensures DeleteFile({Location(UploadsDir, name)}, Str("/uploads" + "/" + name)) == {}
  {
    AdminTargetOfUploadPath(name);
    assert Location(UploadsDir, name) != Location(GalleryDir, name) by {
      assert |Location(UploadsDir, name)| != |Location(GalleryDir, name)|;
    }
  }

  /** The second delete of the same reference falls through to the gallery. */
  lemma SecondDeleteTakesGallery(name: string)
    requires FileName(name) && '/' !in name
    ensures DeleteFile({Location(GalleryDir, name)}, Str("/uploads" + "/" + name)) == {}
  {
    AdminTargetOfUploadPath(name);
    assert Location(UploadsDir, name) != Location(GalleryDir, name) by {
      assert |Location(UploadsDir, name)| != |Location(GalleryDir, name)|;
    }
  }

  /**
   * Clearing the picture deletes the old file twice; the second probe finds
   * and removes the unrelated gallery picture of the same name. The
   * intended update removes the artisan's own picture only.
   */
  lemma ClearingPictureDeletesGalleryFile(id: int, name: string, now: Value, rejects: Row -> Option<string>)
    requires FileName(name) && '/' !in name
    ensures UpdateArtisanAsWritten(OneArtisan(id, name), BothDirs(name), id, ClearPicture, now, rejects).files == {}
    ensures var r := UpdateArtisan(OneArtisan(id, name), BothDirs(name), id, ClearPicture, now, rejects);
      r.status == 200 ==> r.files == {Location(GalleryDir, name)}
  {
    var t := OneArtisan(id, name);
    var stale := Str("/uploads" + "/" + name);
    assert Get(t.rows[id], "profile_img") == stale;
    ClearPictureIsComplete();
    assert ReplacesImage(stale, Null);
    FirstDeleteTakesUpload(name);
    SecondDeleteTakesGallery(name);
  }

  /**
   * When the update statement fails, the code as written has already
   * deleted the picture that the unchanged row still points to; the
   * intended update leaves the file in place.
   */
  lemma FailedUpdateStillDeletesPicture(id: int, name: string, now: Value, failure: string)
    requires FileName(name) && '/' !in name
    ensures var r := UpdateArtisanAsWritten(OneArtisan(id, name), {Location(UploadsDir, name)}, id, ClearPicture, now, (_: Row) => Some(failure));
      r.status == 500 && r.artisans == OneArtisan(id, name) && r.files == {}
    ensures UpdateArtisan(OneArtisan(id, name), {Location(UploadsDir, name)}, id, ClearPicture, now, (_: Row) => Some(failure)).files
         == {Location(UploadsDir, name)}
  {
    var t := OneArtisan(id, name);
    var stale := Str("/uploads" + "/" + name);
    assert Get(t.rows[id], "profile_img") == stale;
    ClearPictureIsComplete();
    assert ReplacesImage(stale, Null);
    FirstDeleteTakesUpload(name);
    assert DeleteFile({}, stale) == {};
  }

  // ---------------------------------------------------------------------
  // Deletes
  // ---------------------------------------------------------------------

  /**
   * `DELETE /users/:id`: 500 when the statement fails, 404 when no user has
   * the id, else 200 with the matching rows gone and every other row kept.
   */
  function DeleteUser(users: seq<Row>, id: Value, fails: bool): (r: (seq<Row>, int))
    ensures r.1 == 200 || r.1 == 404 || r.1 == 500
    ensures r.1 == 500 <==> fails
    ensures !fails ==> (r.1 == 404 <==> FindFirst(users, "user_id", id).None?)
    ensures r.1 != 200 ==> r.0 == users
    ensures r.1 == 200 ==> forall i :: 0 <= i < |r.0| ==> Get(r.0[i], "user_id") != id
    ensures forall i :: 0 <= i < |r.0| ==> r.0[i] in users
    ensures forall i :: 0 <= i < |users| && Get(users[i], "user_id") != id ==> users[i] in r.0
  {
    if fails then (users, 500)
    else
      DeleteCountsMatches(users, "user_id", id);
      var (rest, count) := DeleteWhere(users, "user_id", id);
      if count == 0 then (users, 404) else (rest, 200)
  }

  /** After a successful delete no user has the id, so deleting it again answers 404 and changes nothing. */
  lemma DeleteUserTwice(users: seq<Row>, id: Value)
    ensures var (rest, status) := DeleteUser(users, id, false);
      status != 500 && DeleteUser(rest, id, false) == (rest, 404)
  {
    var (rest, status) := DeleteUser(users, id, false);
    if status == 404 {
      assert forall i :: 0 <= i < |users| ==> Get(users[i], "user_id") != id;
    }
    assert forall i :: 0 <= i < |rest| ==> Get(rest[i], "user_id") != id;
  }

  /** The PostgreSQL error code of a foreign-key violation. */
  const ForeignKeyViolation := "23503"

  /**
   * `DELETE /artisans-data/:id`: `failure` is the error code the statement
   * raises, if it raises one (another table still refers to the artisan).
   */
  function DeleteArtisan(artisans: Table, id: int, failure: Option<string>): (r: (Table, int))
    ensures failure == Some(ForeignKeyViolation) ==> r.1 == 400
    ensures failure.Some? && failure != Some(ForeignKeyViolation) ==> r.1 == 500
    ensures failure.None? ==> (r.1 == 404 <==> id !in artisans.rows) && (r.1 == 200 <==> id in artisans.rows)
    ensures r.1 != 200 ==> r.0 == artisans
    ensures r.1 == 200 ==> r.0.rows == artisans.rows - {id}
  {
    match failure
    case Some(code) => (artisans, if code == ForeignKeyViolation then 400 else 500)
    case None =>
      var (t, status) := DeleteRow(artisans, id, false);
      if status == 404 then (artisans, 404) else (t, 200)
  }

  /**
   * Deleting the same artisan twice: the first call removes the row, the
   * second finds nothing and answers 404 without touching the table.
   */
  lemma DeleteArtisanTwice(artisans: Table, id: int)
    requires id in artisans.rows
    ensures var (t1, s1) := DeleteArtisan(artisans, id, None);
      s1 == 200 && DeleteArtisan(t1, id, None) == (t1, 404) && t1.rows == artisans.rows - {id}
  {
    var (t1, s1) := DeleteArtisan(artisans, id, None);
    assert id !in t1.rows;
  }
}

=== FILE: artisans.dfy ===
/**
 * The public artisan routes of app/routes/artisan.js that change or count
 * rows: `/add`, which inserts the artisan and its skill in one transaction,
 * and `/count`, which reports the number of draft artisans. The listing's
 * query builder is `Queries.ListingQuery`. A constraint violation of an
 * insert is the parameter `rejects` of that insert.
 */
module Artisans {
  import opened Js
  import opened Store

  /** The statements `/add` runs inside its transaction, in order. */
  datatype Statement = InsertArtisan | LookupCategory | InsertSkill

  const NoDetail := "-"
  const DefaultSkillImage := "default.jpg"

  /** The artisan row: the five person fields as given, and `is_active = 1`. */
  function PersonRow(body: Row): (row: Row)
    ensures Get(row, "is_active") == Num(1)
    ensures forall c :: c in {"fname", "lname", "nickname", "address", "phone"} ==> Get(row, c) == AsParam(Get(body, c))
  {
    map["fname" := AsParam(Get(body, "fname")), "lname" := AsParam(Get(body, "lname")),
        "nickname" := AsParam(Get(body, "nickname")), "address" := AsParam(Get(body, "address")),
        "phone" := AsParam(Get(body, "phone")), "is_active" := Num(1)]
  }

  /**
   * `category_id` of the first category whose name equals the given one, or
   * NULL when none does; `= NULL` matches no row.
   */
  function SkillCategory(categories: seq<Row>, name: Value): (id: Value)
    ensures AsParam(name) == Null ==> id == Null
    ensures AsParam(name) != Null ==>
      match FindFirst(categories, "category_name", name)
      case None => id == Null
      case Some(i) => id == Get(categories[i], "category_id")
  {
    if AsParam(name) == Null then Null
    else
      match FindFirst(categories, "category_name", name)
      case None => Null
      case Some(i) => Get(categories[i], "category_id")
  }

  /** The skill row that ties the new artisan to its category, with the text defaults. */
  function SkillRow(artisanId: int, categoryId: Value, body: Row): (row: Row)
    ensures Get(row, "artisan_id") == Num(artisanId)
    ensures Get(row, "category_id") == categoryId
    ensures Get(row, "specialty_detail") == (if Truthy(Get(body, "specialty_detail")) then Get(body, "specialty_detail") else Str(NoDetail))
    ensures Get(row, "story") == (if Truthy(Get(body, "story")) then Get(body, "story") else Str(NoDetail))
    ensures Get(row, "skill_img") == (if Truthy(Get(body, "skill_img")) then Get(body, "skill_img") else Str(DefaultSkillImage))
    ensures Get(row, "category_name") == AsParam(Get(body, "category_name"))
  {
    map["artisan_id" := Num(artisanId), "category_id" := categoryId,
        "specialty_detail" := OrText(Get(body, "specialty_detail"), NoDetail),
        "story" := OrText(Get(body, "story"), NoDetail),
        "skill_img" := OrText(Get(body, "skill_img"), DefaultSkillImage),
        "category_name" := AsParam(Get(body, "category_name"))]
  }

  datatype AddResult = AddResult(status: int, artisans: Table, skills: Table, events: seq<TxEvent<Statement>>)

  /**
   * `POST /add`: insert the artisan, look its category up by name, insert
   * the skill, commit and answer 201; any failing statement rolls both
   * inserts back and answers 500. `categories` is the outcome of the lookup:
   * its rows, or the message it threw with. The client is released on
   * every path.
   */
  function Add(artisans: Table, skills: Table, categories: Result<seq<Row>>, body: Row,
               rejectsArtisan: Row -> bool, rejectsSkill: Row -> bool): (r: AddResult)
    requires Valid(artisans) && Valid(skills)
    ensures Valid(r.artisans) && Valid(r.skills)
    ensures r.status == 201 || r.status == 500
    ensures ReleasedOnce(r.events) && r.events[0].Begin?
    ensures Commit in r.events <==> r.status == 201
    ensures Rollback in r.events <==> r.status == 500
    ensures r.status == 500 ==> r.artisans == artisans && r.skills == skills
    ensures r.status == 201 <==>
              (!rejectsArtisan(PersonRow(body)) && categories.Ok?
               && !rejectsSkill(SkillRow(artisans.nextId, SkillCategory(categories.value, Get(body, "category_name")), body)))
    ensures !rejectsArtisan(PersonRow(body)) && categories.Err? ==>
      r.events == Transaction([InsertArtisan, LookupCategory], false)
    ensures r.status == 201 ==>
      r.artisans.rows == artisans.rows[artisans.nextId := PersonRow(body)]
      && r.skills.rows == skills.rows[skills.nextId := SkillRow(artisans.nextId, SkillCategory(categories.value, Get(body, "category_name")), body)]
      && artisans.nextId !in artisans.rows && skills.nextId !in skills.rows
  {
    var person := PersonRow(body);
    if rejectsArtisan(person) then
      AddResult(500, artisans, skills, Transaction([InsertArtisan], false))
    else
      match categories
      case Err(_) =>
        AddResult(500, artisans, skills, Transaction([InsertArtisan, LookupCategory], false))
      case Ok(rows) =>
        var (a1, artisanId) := Insert(artisans, person);
        var skill := SkillRow(artisanId, SkillCategory(rows, Get(body, "category_name")), body);
        if rejectsSkill(skill) then
          AddResult(500, artisans, skills, Transaction([InsertArtisan, LookupCategory, InsertSkill], false))
        else
          var (s1, _) := Insert(skills, skill);
          AddResult(201, a1, s1, Transaction([InsertArtisan, LookupCategory, InsertSkill], true))
  }

  /**
   * All or nothing: the artisan table gains a row exactly when the skill
   * table does, and a failure of the second insert undoes the first.
   */
  lemma AddIsAllOrNothing(artisans: Table, skills: Table, categories: Result<seq<Row>>, body: Row,
                          rejectsArtisan: Row -> bool, rejectsSkill: Row -> bool)
    requires Valid(artisans) && Valid(skills)
    ensures var r := Add(artisans, skills, categories, body, rejectsArtisan, rejectsSkill);
      (r.artisans.rows == artisans.rows <==> r.skills.rows == skills.rows)
      && (r.artisans.rows == artisans.rows <==> r.status == 500)
  {
    var r := Add(artisans, skills, categories, body, rejectsArtisan, rejectsSkill);
    if r.status == 201 {
      assert artisans.nextId in r.artisans.rows;
      assert skills.nextId in r.skills.rows;
    }
  }

  /** An unknown category name is not an error: the skill is stored with a NULL category. */
  lemma UnknownCategoryStoresNull(artisans: Table, skills: Table, categories: seq<Row>, body: Row,
                                  rejectsArtisan: Row -> bool, rejectsSkill: Row -> bool)
    requires Valid(artisans) && Valid(skills)
    requires forall i :: 0 <= i < |categories| ==> Get(categories[i], "category_name") != Get(body, "category_name")
    requires !rejectsArtisan(PersonRow(body)) && !rejectsSkill(SkillRow(artisans.nextId, Null, body))
    ensures var r := Add(artisans, skills, Ok(categories), body, rejectsArtisan, rejectsSkill);
      r.status == 201 && Get(r.skills.rows[skills.nextId], "category_id") == Null
  {
    assert SkillCategory(categories, Get(body, "category_name")) == Null;
  }

  // ---------------------------------------------------------------------
  // GET /count
  // ---------------------------------------------------------------------

  const Draft := "ฉบับร่าง"

  /** How many rows are drafts. */
  function CountDrafts(rows: seq<Row>): (n: nat)
    ensures n <= |rows|
  {
    if |rows| == 0 then 0
    else CountDrafts(rows[..|rows| - 1]) + (if Get(rows[|rows| - 1], "status") == Str(Draft) then 1 else 0)
  }

  /**
   * `SUM(CASE WHEN status = 'ฉบับร่าง' THEN 1 ELSE 0 END)` as the driver hands
   * it over: NULL over an empty table, else the sum's decimal text.
   */
  function SumDrafts(rows: seq<Row>): Value {
    if |rows| == 0 then Null else Str(NatToString(CountDrafts(rows)))
  }

  /** `parseInt(total_drafts || 0)`; `None` is `NaN`. */
  function TotalDrafts(sum: Value): Option<nat> {
    if Truthy(sum) then ParseLeadingNat(ToText(sum)) else ParseLeadingNat(ToText(Num(0)))
  }

  /** The reported `total_drafts` is the number of drafts, also for an empty table. */
  lemma TotalDraftsCounts(rows: seq<Row>)
    ensures TotalDrafts(SumDrafts(rows)) == Some(CountDrafts(rows))
  {
    if |rows| == 0 {
      assert ToText(Num(0)) == NatToString(0) + "";
      ParseLeadingNatOfRendering(0, "");
    } else {
      var n := CountDrafts(rows);
      assert NatToString(n) + "" == NatToString(n);
      ParseLeadingNatOfRendering(n, "");
    }
  }
}

=== FILE: auth.dfy ===
/**
 * The account routes of app/routes/auth.js: `/login` and the audit entries
 * its two failure paths write, the session token and cookie it issues,
 * `/me` with its role labels, the profile path `/register` stores, and
 * `/logout`. bcrypt and JWT are parameters: `matches` compares a password
 * with a stored hash, `sign` and `verify` make and check a token.
 */
module Auth {
  import opened Js
  import opened Http
  import opened Store
  import opened Paths
  import Logs
  import Session

  /** The effects `/login` performs, in order: the user lookup, the hash comparison, an audit insert. */
  datatype Step = Lookup | Compare | AuditWrite

  datatype LoginResponse = LoginResponse(
    status: int,
    message: string,
    token: Option<string>,       // the `token` field of the body
    cookie: Option<Cookie>,      // the `token` cookie set on the response
    user: Option<Row>,           // the `user` field of the body
    audit: seq<LogData>,         // the audit log afterwards
    steps: seq<Step>)

  const ExpiresIn := "7d"
  const ServerError := "Server Error"

  /** Both credentials are present (`!username || !password` is false). */
  predicate Present(body: Row) {
    Truthy(Get(body, "username")) && Truthy(Get(body, "password"))
  }

  /** `user.is_active === 0`: only the number zero suspends an account. */
  predicate Suspended(user: Row) {
    Get(user, "is_active") == Num(0)
  }

  /**
   * `bcrypt.compare` rejects unless both the given password and the stored
   * hash are strings; the handler's `catch` then answers 500.
   */
  predicate CompareRejects(password: Value, hash: Value) {
    !password.Str? || !hash.Str?
  }

  /** The token payload `{user_id, username, name: fname + " " + lname, role}`. */
  function SessionClaims(user: Row): Claims {
    Claims(Get(user, "user_id"), Get(user, "username"),
      ToText(Get(user, "fname")) + " " + ToText(Get(user, "lname")), Get(user, "role"))
  }

  function SessionCookie(token: string): Cookie {
    Cookie("token", token, true, false, "strict", "/")
  }

  const PublicColumns: set<string> := {"user_id", "username", "fname", "lname", "role"}

  /** The user object of a successful login's body: the account without its hash. */
  function PublicUser(user: Row): (u: Row)
    ensures u.Keys == PublicColumns
    ensures forall c :: c in u ==> u[c] == Get(user, c)
    ensures "password" !in u
  {
    map["user_id" := Get(user, "user_id"), "username" := Get(user, "username"),
        "fname" := Get(user, "fname"), "lname" := Get(user, "lname"), "role" := Get(user, "role")]
  }

  /** The audit record of a login attempt for an unknown username. */
  function UnknownUserEntry(req: Request, username: Value, now: Value): (e: LogData)
    ensures Get(e, "method") == Str("AUTH_FAILED")
    ensures "password" !in e && Get(e, "errorMessage").Str?
  {
    map["ip" := Str(req.remoteAddress),
        "errorMessage" := Str("พยายามเข้าสู่ระบบแต่ไม่พบ Username: " + ToText(username)),
        "method" := Str("AUTH_FAILED"),
        "created_at" := now]
  }

  /** The audit record of a login attempt with a wrong password. */
  function WrongPasswordEntry(req: Request, username: Value, now: Value): (e: LogData)
    ensures Get(e, "method") == Str("LOGIN_FAILED")
    ensures "password" !in e && Get(e, "errorMessage").Str?
  {
    map["ip" := Str(Logs.ClientIp(req)),
        "user_agent" := Header(req, "user-agent"),
        "path" := Str(req.originalUrl),
        "method" := Str("LOGIN_FAILED"),
        "errorMessage" := Str("ผู้ใช้ " + ToText(username) + " กรอกรหัสผ่านไม่ถูกต้อง"),
        "referrer" := Logs.Referrer(req),
        "created_at" := now]
  }

  /** The audit log after one more record. */
  function Appended(audit: seq<LogData>, entry: LogData): (r: seq<LogData>)
    ensures |r| == |audit| + 1 && r[..|audit|] == audit && r[|audit|] == entry
  {
    audit + [entry]
  }

  /**
   * `POST /login` over the users table (in the order the lookup returns
   * them) and the audit log.
   */
  function Login(users: seq<Row>, audit: seq<LogData>, req: Request, body: Row, now: Value,
                 matches: (Value, Value) -> bool, sign: (Claims, string) -> string): (r: LoginResponse)
    ensures !Present(body) ==> r.status == 400 && r.steps == [] && r.audit == audit
    ensures Present(body) && FindFirst(users, "username", Get(body, "username")).None? ==>
      r.status == 400 && r.message == "ไม่พบผู้ใช้" && r.steps == [Lookup, AuditWrite]
      && r.audit == Appended(audit, UnknownUserEntry(req, Get(body, "username"), now))
    ensures Present(body) && FindFirst(users, "username", Get(body, "username")).Some? ==>
      var user := users[FindFirst(users, "username", Get(body, "username")).value];
      (Suspended(user) ==> r.status == 403 && r.steps == [Lookup] && r.audit == audit)
      && (!Suspended(user) && CompareRejects(Get(body, "password"), Get(user, "password")) ==>
            r.status == 500 && r.message == ServerError && r.steps == [Lookup, Compare] && r.audit == audit)
      && (!Suspended(user) && !CompareRejects(Get(body, "password"), Get(user, "password"))
          && !matches(Get(body, "password"), Get(user, "password")) ==>
            r.status == 400 && r.message == "รหัสผ่านผิด" && r.steps == [Lookup, Compare, AuditWrite]
            && r.audit == Appended(audit, WrongPasswordEntry(req, Get(body, "username"), now)))
      && (r.token.Some? ==>
            r.status == 200 && r.steps == [Lookup, Compare] && r.audit == audit
            && r.token == Some(sign(SessionClaims(user), ExpiresIn))
            && r.cookie == Some(SessionCookie(r.token.value))
            && r.user == Some(PublicUser(user)))
    ensures r.token.Some? <==>
      Present(body) && FindFirst(users, "username", Get(body, "username")).Some?
      && var user := users[FindFirst(users, "username", Get(body, "username")).value];
         !Suspended(user) && !CompareRejects(Get(body, "password"), Get(user, "password"))
         && matches(Get(body, "password"), Get(user, "password"))
    ensures r.cookie.Some? <==> r.token.Some?
    ensures r.user.Some? <==> r.token.Some?
    ensures r.user.Some? ==> "password" !in r.user.value
  {
    var username := Get(body, "username");
    var password := Get(body, "password");
    if !Truthy(username) || !Truthy(password) then
      LoginResponse(400, "กรุณากรอกข้อมูล", None, None, None, audit, [])
    else match FindFirst(users, "username", username)
      case None =>
        LoginResponse(400, "ไม่พบผู้ใช้", None, None, None,
          Appended(audit, UnknownUserEntry(req, username, now)), [Lookup, AuditWrite])
      case Some(i) =>
        var user := users[i];
        if Suspended(user) then
          LoginResponse(403, "บัญชีถูกระงับ", None, None, None, audit, [Lookup])
        else if CompareRejects(password, Get(user, "password")) then
          LoginResponse(500, ServerError, None, None, None, audit, [Lookup, Compare])
        else if !matches(password, Get(user, "password")) then
          LoginResponse(400, "รหัสผ่านผิด", None, None, None,
            Appended(audit, WrongPasswordEntry(req, username, now)), [Lookup, Compare, AuditWrite])
        else
          var token := sign(SessionClaims(user), ExpiresIn);
          LoginResponse(200, "Login สำเร็จ", Some(token), Some(SessionCookie(token)),
            Some(PublicUser(user)), audit, [Lookup, Compare])
  }

  /**
   * The audit log only grows, by at most one record; a record is written
   * exactly when the step list says so, and no record a login writes has a
   * `password` field, while each carries a text error message.
   */
  lemma LoginAuditIsAppendOnly(users: seq<Row>, audit: seq<LogData>, req: Request, body: Row, now: Value,
                               matches: (Value, Value) -> bool, sign: (Claims, string) -> string)
    ensures var r := Login(users, audit, req, body, now, matches, sign);
      |audit| <= |r.audit| <= |audit| + 1 && r.audit[..|audit|] == audit
      && (|r.audit| > |audit| <==> AuditWrite in r.steps)
      && forall k :: |audit| <= k < |r.audit| ==>
           "password" !in r.audit[k] && Get(r.audit[k], "errorMessage").Str?
  {
    var r := Login(users, audit, req, body, now, matches, sign);
    if Present(body) && FindFirst(users, "username", Get(body, "username")).Some? {
      var user := users[FindFirst(users, "username", Get(body, "username")).value];
      if Suspended(user) || CompareRejects(Get(body, "password"), Get(user, "password"))
         || matches(Get(body, "password"), Get(user, "password")) {
        assert r.audit == audit && AuditWrite !in r.steps;
      }
    }
  }

  /**
   * The checks run in a fixed order: a comparison only follows a lookup, and
   * a token is issued only after both, with nothing written to the log.
   */
  lemma LoginChecksInOrder(users: seq<Row>, audit: seq<LogData>, req: Request, body: Row, now: Value,
                           matches: (Value, Value) -> bool, sign: (Claims, string) -> string)
    ensures var r := Login(users, audit, req, body, now, matches, sign);
      (Compare in r.steps ==> r.steps[0] == Lookup && r.steps[1] == Compare)
      && (r.token.Some? ==> r.steps == [Lookup, Compare] && AuditWrite !in r.steps)
      && (r.status == 403 ==> Compare !in r.steps && AuditWrite !in r.steps)
      && (r.status == 500 ==> r.steps == [Lookup, Compare] && r.audit == audit)
  {
  }

  /**
   * A browser that stores the cookie a login sets passes the session
   * middleware on its next request, as the account that logged in, provided
   * `verify` accepts what `sign` makes and tokens are never empty.
   */
  lemma LoginThenAuthenticate(users: seq<Row>, audit: seq<LogData>, req: Request, body: Row, now: Value,
                              matches: (Value, Value) -> bool, sign: (Claims, string) -> string,
                              verify: string -> Option<Claims>, next: Request)
    requires Login(users, audit, req, body, now, matches, sign).token.Some?
    requires forall c: Claims :: sign(c, ExpiresIn) != "" && verify(sign(c, ExpiresIn)) == Some(c)
    ensures var r := Login(users, audit, req, body, now, matches, sign);
      var g := Session.Authenticate(next.(cookies := next.cookies[r.cookie.value.name := r.cookie.value.value]), verify);
      var user := users[FindFirst(users, "username", Get(body, "username")).value];
      g.nextCalls == 1 && g.user == Some(SessionClaims(user))
      && g.user.value.userId == Get(user, "user_id") && g.user.value.role == Get(user, "role")
  {
    var r := Login(users, audit, req, body, now, matches, sign);
    var user := users[FindFirst(users, "username", Get(body, "username")).value];
    assert r.token.value == sign(SessionClaims(user), ExpiresIn);
    var req2 := next.(cookies := next.cookies["token" := r.token.value]);
    assert Session.CookieToken(req2) == Str(r.token.value);
  }

  // ---------------------------------------------------------------------
  // /me
  // ---------------------------------------------------------------------

  /** `roleMap[role] || role` */
  function RoleLabel(role: Value): (shown: Value)
    ensures role == Str("super_admin") ==> shown == Str("แอดมิน")
    ensures role == Str("editor") ==> shown == Str("ผู้แก้ไข")
    ensures role != Str("super_admin") && role != Str("editor") ==> shown == role
  {
    if role == Str("super_admin") then Str("แอดมิน")
    else if role == Str("editor") then Str("ผู้แก้ไข")
    else role
  }

  /** A label is never itself a role key, so labelling twice changes nothing. */
  lemma RoleLabelIdempotent(role: Value)
    ensures RoleLabel(RoleLabel(role)) == RoleLabel(role)
  {
  }

  /** Only the two known roles are renamed. */
  lemma RoleLabelChangesOnlyKnownRoles(role: Value)
    ensures RoleLabel(role) != role <==> role in {Str("super_admin"), Str("editor")}
  {
  }

  /** `SELECT user_id, fname, lname, profile_img, role`: the selected columns of a row. */
  function Project(row: Row, columns: set<string>): (r: Row)
    ensures r.Keys == row.Keys * columns
    ensures forall c :: c in r ==> r[c] == row[c]
  {
    map c | c in row && c in columns :: row[c]
  }

  /** The columns `/me` selects. */
  const MeColumns: set<string> := {"user_id", "fname", "lname", "profile_img", "role"}

  /**
   * `GET /me` for the identity the middleware attached: the first user with
   * the token's id, as its five selected columns plus `role_name`.
   */
  function Me(users: seq<Row>, claims: Claims): (r: (int, Option<Row>))
    ensures r.0 == 404 || r.0 == 200
    ensures r.0 == 404 <==> forall i :: 0 <= i < |users| ==> Get(users[i], "user_id") != claims.userId
    ensures r.0 == 404 <==> r.1.None?
    ensures r.1.Some? ==> FindFirst(users, "user_id", claims.userId).Some?
    ensures r.1.Some? ==>
      var u := users[FindFirst(users, "user_id", claims.userId).value];
      r.1.value.Keys == (u.Keys * MeColumns) + {"role_name"}
      && (forall c :: c in MeColumns ==> Get(r.1.value, c) == Get(u, c))
      && Get(r.1.value, "role_name") == RoleLabel(Get(u, "role"))
    ensures r.1.Some? ==> Get(r.1.value, "user_id") == claims.userId && "password" !in r.1.value
  {
    match FindFirst(users, "user_id", claims.userId)
    case None => (404, None)
    case Some(i) =>
      var user := Project(users[i], MeColumns);
      (200, Some(user["role_name" := RoleLabel(Get(user, "role"))]))
  }

  // ---------------------------------------------------------------------
  // /register and /logout
  // ---------------------------------------------------------------------

  const ProfileDir := "uploads/profile"

  /** The stored `profile_img`: the uploaded file's path, else the body's value, else null. */
  function ProfilePath(filename: Option<string>, bodyImage: Value): (p: Value)
    ensures filename.Some? ==> p == Str(ProfileDir + "/" + filename.value)
    ensures filename.None? && Truthy(bodyImage) ==> p == bodyImage
    ensures filename.None? && !Truthy(bodyImage) ==> p == Null
  {
    match filename
    case Some(f) => Str(ProfileDir + "/" + f)
    case None => Or(bodyImage, Null)
  }

  /** The stored path of an uploaded picture names the file multer wrote. */
  lemma ProfilePathNamesUpload(filename: string, bodyImage: Value)
    requires filename != "" && '/' !in filename
    ensures Basename(ProfilePath(Some(filename), bodyImage).s) == filename
  {
    BasenameOfJoin(ProfileDir, filename);
  }

  /** The row `/register` inserts, with `hash` standing for `bcrypt.hash(password, 10)`. */
  function RegisterRow(body: Row, filename: Option<string>, hash: Value -> Value): (row: Row)
    ensures Get(row, "password") == hash(Get(body, "password"))
    ensures Get(row, "profile_img") == ProfilePath(filename, Get(body, "profile_img"))
    ensures forall c :: c in {"username", "fname", "lname", "role", "phone_number"} ==> Get(row, c) == AsParam(Get(body, c))
  {
    map["username" := AsParam(Get(body, "username")),
        "password" := hash(Get(body, "password")),
        "profile_img" := ProfilePath(filename, Get(body, "profile_img")),
        "fname" := AsParam(Get(body, "fname")),
        "lname" := AsParam(Get(body, "lname")),
        "role" := AsParam(Get(body, "role")),
        "phone_number" := AsParam(Get(body, "phone_number"))]
  }

  /** `POST /logout`: clears both session cookies with the options they were set with. */
  function Logout(): (cleared: seq<Cookie>)
    ensures |cleared| == 2 && cleared[0].name == "token" && cleared[1].name == "access_token"
    ensures forall k :: 0 <= k < |cleared| ==>
      cleared[k].httpOnly && !cleared[k].secure && cleared[k].sameSite == "strict" && cleared[k].path == "/"
  {
    [Cookie("token", "", true, false, "strict", "/"), Cookie("access_token", "", true, false, "strict", "/")]
  }

  function Names(cookies: seq<Cookie>): (ns: seq<string>)
    ensures |ns| == |cookies| && forall k :: 0 <= k < |cookies| ==> ns[k] == cookies[k].name
  {
    seq(|cookies|, k requires 0 <= k < |cookies| => cookies[k].name)
  }

  /** After logging out, a browser that sends no `Authorization` header is turned away with 401. */
  lemma LogoutEndsSession(req: Request, verify: string -> Option<Claims>)
    requires "authorization" !in req.headers
    ensures Session.Authenticate(req.(cookies := Session.ClearCookies(req.cookies, Names(Logout()))), verify).status == Some(401)
  {
    var jar := Session.ClearCookies(req.cookies, Names(Logout()));
    assert "token" in Names(Logout());
    assert "token" !in jar;
  }
}

=== FILE: award.dfy ===
/**
 * The award routes of app/routes/award.js: the stored `file_url` of an
 * upload, the two shapes of the edit statement, and the delete route's
 * removal of the award's file. The upload filter is `Uploads.AwardAccepts`.
 */
module Award {
  import opened Js
  import opened Store
  import opened Uploads

  /** `/uploads/award/<filename>` for an uploaded file, NULL without one. */
  function FileUrl(file: Option<string>): (url: Value)
    ensures file.None? <==> url == Null
    ensures file.Some? ==> url == Str("/uploads/award/" + file.value)
  {
    match file
    case None => Null
    case Some(name) => Str("/uploads/award/" + name)
  }

  /** `path.join(root, p)` relative to the project root: leading slashes collapse. */
  function JoinRoot(p: string): (r: string)
    ensures r == "" || r[0] != '/'
    ensures |r| <= |p| && r == p[|p| - |r|..]
    decreases |p|
  {
    if |p| > 0 && p[0] == '/' then JoinRoot(p[1..]) else p
  }

  /** One leading slash collapses when the rest is relative. */
  lemma JoinRootOfRooted(q: string)
    requires q == "" || q[0] != '/'
    ensures JoinRoot("/" + q) == q
  {
    assert ("/" + q)[1..] == q;
  }

  lemma AwardPrefix()
    ensures "/uploads/award/" == "/" + AwardDir + "/"
  {
  }

  /** The stored `file_url` of an upload joins to the path multer wrote the file to. */
  lemma JoinRootOfFileUrl(name: string)
    ensures JoinRoot("/uploads/award/" + name) == Location(AwardDir, name)
  {
    var q := Location(AwardDir, name);
    AwardPrefix();
    assert "/uploads/award/" + name == "/" + q;
    assert q[0] == AwardDir[0];
    JoinRootOfRooted(q);
  }

  /** The inserted award row. */
  function AwardRow(artisanId: Value, body: Row, file: Option<string>): (row: Row)
    ensures Get(row, "artisan_id") == artisanId && Get(row, "file_url") == FileUrl(file)
    ensures Get(row, "award_title") == AsParam(Get(body, "award_title"))
    ensures Get(row, "received_date") == AsParam(Get(body, "received_date"))
  {
    map["artisan_id" := artisanId, "award_title" := AsParam(Get(body, "award_title")),
        "file_url" := FileUrl(file), "received_date" := AsParam(Get(body, "received_date"))]
  }

  /** `POST /add-award/:artisan_id`: 201 with the new row, or 500 when the insert fails. */
  function Add(awards: Table, artisanId: Value, body: Row, file: Option<string>, rejects: Row -> bool): (r: (Table, int))
    requires Valid(awards)
    ensures Valid(r.0)
    ensures r.1 == 201 <==> !rejects(AwardRow(artisanId, body, file))
    ensures r.1 == 201 ==> r.0.rows == awards.rows[awards.nextId := AwardRow(artisanId, body, file)] && awards.nextId !in awards.rows
    ensures r.1 != 201 ==> r.1 == 500 && r.0 == awards
  {
    var row := AwardRow(artisanId, body, file);
    if rejects(row) then (awards, 500)
    else
      var (t, _) := Insert(awards, row);
      (t, 201)
  }

  /**
   * The columns `PUT /edit-award/:award_id` sets: title, file and date with
   * an upload; title and date alone without one.
   */
  function EditColumns(body: Row, file: Option<string>): (cols: Row)
    ensures "file_url" in cols <==> file.Some?
    ensures file.Some? ==> cols["file_url"] == FileUrl(file)
    ensures cols.Keys - {"file_url"} == {"award_title", "received_date"}
    ensures Get(cols, "award_title") == AsParam(Get(body, "award_title"))
    ensures Get(cols, "received_date") == AsParam(Get(body, "received_date"))
  {
    var text := map["award_title" := AsParam(Get(body, "award_title")), "received_date" := AsParam(Get(body, "received_date"))];
    if file.Some? then text["file_url" := FileUrl(file)] else text
  }

  /**
   * `PUT /edit-award/:award_id`: 200 even when no row has the id (the
   * reply then carries no award), 500 when the statement fails.
   */
  function Edit(awards: Table, id: int, body: Row, file: Option<string>, rejects: Row -> bool): (r: (Table, int))
    ensures r.1 == 200 || r.1 == 500
    ensures r.1 == 500 <==> rejects(EditColumns(body, file))
    ensures r.0.rows.Keys == awards.rows.Keys
    ensures r.1 == 500 || id !in awards.rows ==> r.0 == awards
    ensures r.0.nextId == awards.nextId
    ensures forall k :: k in awards.rows && k != id ==> r.0.rows[k] == awards.rows[k]
    ensures r.1 == 200 && id in awards.rows ==>
      Get(r.0.rows[id], "award_title") == AsParam(Get(body, "award_title"))
      && Get(r.0.rows[id], "received_date") == AsParam(Get(body, "received_date"))
      && Get(r.0.rows[id], "file_url") == (if file.Some? then FileUrl(file) else Get(awards.rows[id], "file_url"))
    ensures r.1 == 200 && id in awards.rows ==>
      forall c :: c !in {"award_title", "received_date", "file_url"} ==> Get(r.0.rows[id], c) == Get(awards.rows[id], c)
  {
    var cols := EditColumns(body, file);
    if rejects(cols) then (awards, 500)
    else (Update(awards, id, cols).0, 200)
  }

  /** Without an upload the stored `file_url` is untouched, whatever `file_url` the body carries. */
  lemma EditWithoutFileKeepsFileUrl(awards: Table, id: int, body: Row, rejects: Row -> bool)
    requires id in awards.rows
    ensures var (t, _) := Edit(awards, id, body, None, rejects);
      Get(t.rows[id], "file_url") == Get(awards.rows[id], "file_url")
      && Edit(awards, id, body, None, rejects) == Edit(awards, id, body - {"file_url"}, None, rejects)
  {
    assert EditColumns(body, None) == EditColumns(body - {"file_url"}, None);
  }

  /** The stored award names a file as text, which the handler unlinks. */
  predicate NamesFile(awards: Table, id: int) {
    id in awards.rows && Get(awards.rows[id], "file_url").Str? && Truthy(Get(awards.rows[id], "file_url"))
  }

  /** The stored award's `file_url` is truthy but not text, so `path.join` throws. */
  predicate BadFileUrl(awards: Table, id: int) {
    id in awards.rows && !Get(awards.rows[id], "file_url").Str? && Truthy(Get(awards.rows[id], "file_url"))
  }

  /** The stored award's `file_url` joins to a directory, which `unlinkSync` refuses. */
  predicate NamesDirectory(awards: Table, id: int, dirs: set<string>) {
    NamesFile(awards, id) && JoinRoot(Get(awards.rows[id], "file_url").s) in dirs
  }

  /**
   * `DELETE /delete-award/:award_id`: look the award up, remove its file when
   * the row exists and names one, then delete the row and answer 200 whether
   * or not a row existed. A failing lookup, a stored `file_url` that is not
   * text (`path.join` throws), one that joins to a directory (`unlinkSync`
   * throws) or a failing `DELETE` answers 500 and leaves the table as it
   * was; only the failing `DELETE` comes after the unlink. `dirs` are the
   * directories present, as paths relative to the project root.
   */
  function Delete(awards: Table, files: Files, dirs: set<string>, id: int, lookupFails: bool, deleteFails: bool)
    : (r: (Table, Files, int))
    ensures r.2 == 200 || r.2 == 500
    ensures r.2 == 500 <==> lookupFails || BadFileUrl(awards, id) || NamesDirectory(awards, id, dirs) || deleteFails
    ensures r.2 == 200 ==> r.0.rows == awards.rows - {id} && r.0.nextId == awards.nextId
    ensures r.2 == 500 ==> r.0 == awards
    ensures !lookupFails && NamesFile(awards, id) && !NamesDirectory(awards, id, dirs) ==>
      r.1 == files - {JoinRoot(Get(awards.rows[id], "file_url").s)}
    ensures lookupFails || !NamesFile(awards, id) || NamesDirectory(awards, id, dirs) ==> r.1 == files
  {
    if lookupFails then (awards, files, 500)
    else if BadFileUrl(awards, id) || NamesDirectory(awards, id, dirs) then (awards, files, 500)
    else
      var files1 := if NamesFile(awards, id) then files - {JoinRoot(Get(awards.rows[id], "file_url").s)} else files;
      if deleteFails then (awards, files1, 500)
      else (Store.Delete(awards, id).0, files1, 200)
  }

  /**
   * A `DELETE` that fails has already removed the award's file, while the
   * row keeps naming it.
   */
  lemma FailedDeleteLosesFile(awards: Table, files: Files, dirs: set<string>, id: int)
    requires NamesFile(awards, id) && !NamesDirectory(awards, id, dirs)
    ensures var url := Get(awards.rows[id], "file_url").s;
      var (t, files1, status) := Delete(awards, files, dirs, id, false, true);
      status == 500 && Get(t.rows[id], "file_url") == Str(url) && JoinRoot(url) !in files1
  {
  }

  /** A `file_url` naming an upload directory answers 500 and removes nothing. */
  lemma DirectoryUrlKeepsAward(awards: Table, files: Files, id: int)
    requires id in awards.rows && Get(awards.rows[id], "file_url") == Str("/uploads/award")
    ensures var (t, files1, status) := Delete(awards, files, {UploadsDir, AwardDir}, id, false, false);
      status == 500 && t == awards && files1 == files
  {
    assert "/uploads/award" == "/" + AwardDir;
    JoinRootOfRooted(AwardDir);
    assert NamesDirectory(awards, id, {UploadsDir, AwardDir});
  }

  /** Deleting an award added with an upload removes both its row and the uploaded file. */
  lemma DeleteUndoesAdd(awards: Table, files: Files, dirs: set<string>, artisanId: Value, body: Row, name: string,
                        rejects: Row -> bool)
    requires Valid(awards) && Location(AwardDir, name) !in dirs
    requires !rejects(AwardRow(artisanId, body, Some(name)))
    ensures var (t, _) := Add(awards, artisanId, body, Some(name), rejects);
      var (t2, files2, status) := Delete(t, files, dirs, awards.nextId, false, false);
      status == 200 && t2.rows == awards.rows && files2 == files - {Location(AwardDir, name)}
  {
    var id := awards.nextId;
    var row := AwardRow(artisanId, body, Some(name));
    var added := Add(awards, artisanId, body, Some(name), rejects);
    assert added.1 == 201;
    var t := added.0;
    assert t.rows == awards.rows[id := row] && id !in awards.rows;
    var url := "/uploads/award/" + name;
    assert Get(row, "file_url") == Str(url);
    assert id in t.rows && t.rows[id] == row;
    assert Truthy(Str(url));
    JoinRootOfFileUrl(name);
    var removed := Delete(t, files, dirs, id, false, false);
    assert removed.2 == 200 && removed.1 == files - {Location(AwardDir, name)};
    assert removed.0.rows == t.rows - {id};
    RemoveAfterAdd(awards.rows, id, row);
  }
}

=== FILE: csv.dfy ===
/**
 * The CSV serialiser behind the two log exports (`convertToCSV` in
 * app/routes/log.js), and a reader for the grammar of section 2 of RFC 4180
 * against which the serialiser's output is checked.
 *
 * A record is an ordered list of key/value entries, in the order `for ... in`
 * visits an object's own keys. The header comes from the first record's keys;
 * every line ends in CRLF. A string value has each `"` doubled and is wrapped
 * in quotes exactly when the doubled text holds `"`, `,` or a line feed; any
 * other value is written as `String(v)` renders it.
 *
 * The serialiser as written separates fields with `if (line !== '') line += ','`,
 * which drops the separator after leading empty fields. `ConvertToCsvAsWritten`
 * models that loop and is the one the exports use; `ConvertToCsv` is the
 * evident intent (fields joined by `,`), and the two agree on every document
 * whose rows start with a non-empty cell.
 */
module Csv {
  import opened Js

  /** A record value: a JavaScript string, or any other value as `String(v)` renders it. */
  datatype Field = Text(s: string) | Other(rendered: string)

  datatype Entry = Entry(key: string, value: Field)

  type Record = seq<Entry>

  const CRLF: string := "\r\n"

  function Keys(r: Record): (ks: seq<string>)
    ensures |ks| == |r|
  {
    seq(|r|, i requires 0 <= i < |r| => r[i].key)
  }

  function Values(r: Record): (vs: seq<Field>)
    ensures |vs| == |r|
  {
    seq(|r|, i requires 0 <= i < |r| => r[i].value)
  }

  /** `item.replace(/"/g, '""')` */
  function DoubleQuotes(s: string): string
    decreases |s|
  {
    if |s| == 0 then ""
    else (if s[0] == '"' then "\"\"" else [s[0]]) + DoubleQuotes(s[1..])
  }

  /** `item.search(/("|,|\n)/g) >= 0`. A lone carriage return does not count. */
  predicate NeedsQuotes(t: string) {
    '"' in t || ',' in t || '\n' in t
  }

  /** How one value is written into a line. */
  function EscapeField(f: Field): string {
    match f
    case Other(t) => t
    case Text(s) =>
      var e := DoubleQuotes(s);
      if NeedsQuotes(e) then "\"" + e + "\"" else e
  }

  function Cells(fields: seq<Field>): (cs: seq<string>)
    ensures |cs| == |fields|
  {
    seq(|fields|, i requires 0 <= i < |fields| => EscapeField(fields[i]))
  }

  /** One CRLF-terminated line, cells separated by `,`. */
  function Line(cells: seq<string>): string {
    Join(cells, ',') + CRLF
  }

  function Rows(rs: seq<Record>): string
    decreases |rs|
  {
    if |rs| == 0 then "" else Line(Cells(Values(rs[0]))) + Rows(rs[1..])
  }

  /** `convertToCSV` with its evident intent: every field of a row separated by one `,`. */
  function ConvertToCsv(rs: seq<Record>): (csv: string)
    ensures |rs| == 0 <==> csv == ""
    ensures |rs| > 0 ==> StartsWith(csv, Join(Keys(rs[0]), ',') + CRLF)
  {
    if |rs| == 0 then "" else Line(Keys(rs[0])) + Rows(rs)
  }

  // ---------------------------------------------------------------------
  // The serialiser as written
  // ---------------------------------------------------------------------

  /** The inner loop: `if (line !== '') line += ','; line += item;` for each cell. */
  function AppendCells(line: string, cells: seq<string>): string
    decreases |cells|
  {
    if |cells| == 0 then line
    else AppendCells((if line != "" then line + "," else line) + cells[0], cells[1..])
  }

  function RowsAsWritten(rs: seq<Record>): string
    decreases |rs|
  {
    if |rs| == 0 then "" else AppendCells("", Cells(Values(rs[0]))) + CRLF + RowsAsWritten(rs[1..])
  }

  /** `convertToCSV` exactly as the loop is written. */
  function ConvertToCsvAsWritten(rs: seq<Record>): (csv: string)
    ensures |rs| == 0 <==> csv == ""
    ensures |rs| > 0 ==> StartsWith(csv, Join(Keys(rs[0]), ',') + CRLF)
  {
    if |rs| == 0 then "" else Join(Keys(rs[0]), ',') + CRLF + RowsAsWritten(rs)
  }

  // ---------------------------------------------------------------------
  // A reader for section 2 of RFC 4180
  // ---------------------------------------------------------------------

  /** TEXTDATA of RFC 4180: no comma, quote, carriage return or line feed. */
  predicate Bare(t: string) {
    forall i :: 0 <= i < |t| ==> t[i] != ',' && t[i] != '"' && t[i] != '\r' && t[i] != '\n'
  }

  /** Reads an escaped field, given the text after its opening quote; `""` stands for `"`. */
  function ParseQuoted(t: string): (r: Option<(string, string)>)
    ensures r.Some? ==> |r.value.1| < |t|
    decreases |t|
  {
    if |t| == 0 then None
    else if t[0] == '"' then
      if |t| >= 2 && t[1] == '"' then
        match ParseQuoted(t[2..])
        case None => None
        case Some((v, rest)) => Some(("\"" + v, rest))
      else Some(("", t[1..]))
    else
      match ParseQuoted(t[1..])
      case None => None
      case Some((v, rest)) => Some(([t[0]] + v, rest))
  }

  /** Reads a non-escaped field: the longest prefix of TEXTDATA. */
  function ParseBare(t: string): (r: (string, string))
    ensures r.0 + r.1 == t
    ensures Bare(r.0)
    decreases |t|
  {
    if |t| == 0 || t[0] in {',', '"', '\r', '\n'} then ("", t)
    else
      var (v, rest) := ParseBare(t[1..]);
      assert [t[0]] + v + rest == t;
      ([t[0]] + v, rest)
  }

  function ParseField(t: string): (r: Option<(string, string)>)
    ensures r.Some? ==> |r.value.1| <= |t|
  {
    if |t| > 0 && t[0] == '"' then ParseQuoted(t[1..])
    else
      var (v, rest) := ParseBare(t);
      if |rest| > 0 && (rest[0] == '"' || rest[0] == '\n') then None else Some((v, rest))
  }

  /** Reads the fields of one record through its terminating CRLF. */
  function ParseFields(t: string): (r: Option<(seq<string>, string)>)
    ensures r.Some? ==> |r.value.1| < |t| && |r.value.0| >= 1
    decreases |t|
  {
    match ParseField(t)
    case None => None
    case Some((v, rest)) =>
      if |rest| >= 2 && rest[0] == '\r' && rest[1] == '\n' then Some(([v], rest[2..]))
      else if |rest| >= 1 && rest[0] == ',' then
        match ParseFields(rest[1..])
        case None => None
        case Some((vs, rest')) => Some(([v] + vs, rest'))
      else None
  }

  /** Reads a whole document of CRLF-terminated records. */
  function ParseDocument(t: string): Option<seq<seq<string>>>
    decreases |t|
  {
    if t == "" then Some([])
    else
      match ParseFields(t)
      case None => None
      case Some((vs, rest)) =>
        match ParseDocument(rest)
        case None => None
        case Some(rows) => Some([vs] + rows)
  }

  // ---------------------------------------------------------------------
  // Round trip
  // ---------------------------------------------------------------------

  /** The text a reader gets back for a value. */
  function FieldText(f: Field): string {
    match f
    case Text(s) => s
    case Other(t) => t
  }

  function FieldTexts(fields: seq<Field>): (ts: seq<string>)
    ensures |ts| == |fields|
  {
    seq(|fields|, i requires 0 <= i < |fields| => FieldText(fields[i]))
  }

  /** A value the serialiser writes so that a reader gets it back. */
  predicate Safe(f: Field) {
    match f
    case Text(s) => '\r' !in s
    case Other(t) => Bare(t)
  }

  /** A record whose line reads back as its values: at least one field, every one safe. */
  predicate Exportable(r: Record) {
    |r| >= 1 && forall i :: 0 <= i < |r| ==> Safe(r[i].value)
  }

  /** A header line reads back as the keys when there is at least one and none needs quoting. */
  predicate HeaderSafe(r: Record) {
    |r| >= 1 && forall i :: 0 <= i < |r| ==> Bare(r[i].key)
  }

  lemma {:induction false} DoubleQuotesKeepsChars(s: string, c: char)
    ensures c in DoubleQuotes(s) <==> c in s
    decreases |s|
  {
    if |s| > 0 {
      DoubleQuotesKeepsChars(s[1..], c);
      assert s == [s[0]] + s[1..];
    }
  }

  lemma {:induction false} DoubleQuotesWithoutQuotes(s: string)
    requires '"' !in s
    ensures DoubleQuotes(s) == s
    decreases |s|
  {
    if |s| > 0 {
      DoubleQuotesWithoutQuotes(s[1..]);
      assert s == [s[0]] + s[1..];
    }
  }

  /** A string value is wrapped in quotes exactly when it holds `"`, `,` or a line feed. */
  lemma QuotedIffSpecial(s: string)
    ensures NeedsQuotes(DoubleQuotes(s)) <==> NeedsQuotes(s)
    ensures NeedsQuotes(s) ==> EscapeField(Text(s)) == "\"" + DoubleQuotes(s) + "\""
    ensures !NeedsQuotes(s) ==> EscapeField(Text(s)) == s
  {
    DoubleQuotesKeepsChars(s, '"');
    DoubleQuotesKeepsChars(s, ',');
    DoubleQuotesKeepsChars(s, '\n');
    if !NeedsQuotes(s) {
      DoubleQuotesWithoutQuotes(s);
    }
  }

  /** Undoing rule 7 of RFC 4180 (a doubled quote stands for one) recovers the string. */
  lemma {:induction false} QuotedRoundTrip(s: string, rest: string)
    requires rest == "" || rest[0] != '"'
    ensures ParseQuoted(DoubleQuotes(s) + "\"" + rest) == Some((s, rest))
    decreases |s|
  {
    var t := DoubleQuotes(s) + "\"" + rest;
    if |s| == 0 {
      assert t == "\"" + rest;
      assert t[1..] == rest;
    } else {
      QuotedRoundTrip(s[1..], rest);
      var tail := DoubleQuotes(s[1..]) + "\"" + rest;
      if s[0] == '"' {
        assert t == "\"\"" + tail;
        assert t[2..] == tail;
        assert "\"" + s[1..] == s;
      } else {
        assert t == [s[0]] + tail;
        assert t[1..] == tail;
        assert [s[0]] + s[1..] == s;
      }
    }
  }

  lemma {:induction false} BareRoundTrip(s: string, rest: string)
    requires Bare(s)
    requires rest == "" || rest[0] in {',', '"', '\r', '\n'}
    ensures ParseBare(s + rest) == (s, rest)
    decreases |s|
  {
    var t := s + rest;
    if |s| > 0 {
      assert t[1..] == s[1..] + rest;
      BareRoundTrip(s[1..], rest);
      assert [s[0]] + s[1..] == s;
    } else {
      assert t == rest;
    }
  }

  /** One safe value, followed by a separator or a line end, reads back as its text. */
  lemma FieldRoundTrip(f: Field, rest: string)
    requires Safe(f)
    requires |rest| >= 1 && (rest[0] == ',' || rest[0] == '\r')
    ensures ParseField(EscapeField(f) + rest) == Some((FieldText(f), rest))
  {
    match f
    case Other(t) =>
      BareRoundTrip(t, rest);
      if |t| > 0 {
        assert (t + rest)[0] == t[0];
      }
    case Text(s) =>
      QuotedIffSpecial(s);
      if NeedsQuotes(s) {
        var whole := "\"" + DoubleQuotes(s) + "\"" + rest;
        assert whole[1..] == DoubleQuotes(s) + "\"" + rest;
        QuotedRoundTrip(s, rest);
      } else {
        assert Bare(s);
        BareRoundTrip(s, rest);
        if |s| > 0 {
          assert (s + rest)[0] == s[0];
        }
      }
  }

  lemma LastCellRoundTrip(f: Field, rest: string)
    requires Safe(f)
    ensures ParseFields(EscapeField(f) + CRLF + rest) == Some(([FieldText(f)], rest))
  {
    var after := CRLF + rest;
    FieldRoundTrip(f, after);
    assert after[2..] == rest;
    FieldsAtLineEnd(EscapeField(f) + after, FieldText(f), after, rest);
    AppendAssoc(EscapeField(f), CRLF, rest);
  }

  /** One step of the reader: a field followed by CRLF ends the record. */
  lemma FieldsAtLineEnd(t: string, v: string, after: string, rest: string)
    requires ParseField(t) == Some((v, after))
    requires |after| >= 2 && after[0] == '\r' && after[1] == '\n' && after[2..] == rest
    ensures ParseFields(t) == Some(([v], rest))
  {
  }

  lemma NextCellRoundTrip(f: Field, more: string, texts: seq<string>, rest: string)
    requires Safe(f)
    requires ParseFields(more) == Some((texts, rest))
    ensures ParseFields(EscapeField(f) + "," + more) == Some(([FieldText(f)] + texts, rest))
  {
    var after := "," + more;
    FieldRoundTrip(f, after);
    assert after[1..] == more;
    FieldsAfterComma(EscapeField(f) + after, FieldText(f), after, texts, rest);
    AppendAssoc(EscapeField(f), ",", more);
  }

  /** One step of the reader: a field followed by `,` and further fields. */
  lemma FieldsAfterComma(t: string, v: string, after: string, texts: seq<string>, rest: string)
    requires ParseField(t) == Some((v, after))
    requires |after| >= 1 && after[0] == ','
    requires ParseFields(after[1..]) == Some((texts, rest))
    ensures ParseFields(t) == Some(([v] + texts, rest))
  {
  }

  lemma LineCons(fields: seq<Field>)
    requires |fields| >= 2
    ensures Join(Cells(fields), ',') == EscapeField(fields[0]) + "," + Join(Cells(fields[1..]), ',')
    ensures FieldTexts(fields) == [FieldText(fields[0])] + FieldTexts(fields[1..])
  {
    assert Cells(fields[1..]) == Cells(fields)[1..];
  }

  /** The cells of a line, followed by CRLF, read back as the values' texts. */
  lemma {:induction false} LineRoundTrip(fields: seq<Field>, rest: string)
    requires |fields| >= 1
    requires forall i :: 0 <= i < |fields| ==> Safe(fields[i])
    ensures ParseFields(Join(Cells(fields), ',') + CRLF + rest) == Some((FieldTexts(fields), rest))
    decreases |fields|
  {
    if |fields| == 1 {
      assert Join(Cells(fields), ',') == EscapeField(fields[0]);
      LastCellRoundTrip(fields[0], rest);
      assert FieldTexts(fields) == [FieldText(fields[0])];
    } else {
      var tail := fields[1..];
      LineRoundTrip(tail, rest);
      var more := Join(Cells(tail), ',') + CRLF + rest;
      NextCellRoundTrip(fields[0], more, FieldTexts(tail), rest);
      LineCons(fields);
      var e, j := EscapeField(fields[0]) + ",", Join(Cells(tail), ',');
      calc {
        Join(Cells(fields), ',') + CRLF + rest;
        e + j + CRLF + rest;
        { AppendAssoc(e, j, CRLF); }
        e + (j + CRLF) + rest;
        { AppendAssoc(e, j + CRLF, rest); }
        e + more;
      }
    }
  }

  lemma AppendAssoc(a: string, b: string, c: string)
    ensures a + b + c == a + (b + c)
  {
  }

  /** A header of bare keys reads back as the keys. */
  lemma HeaderRoundTrip(r: Record, rest: string)
    requires HeaderSafe(r)
    ensures ParseFields(Join(Keys(r), ',') + CRLF + rest) == Some((Keys(r), rest))
  {
    var fields := seq(|r|, i requires 0 <= i < |r| => Other(r[i].key));
    assert Cells(fields) == Keys(r);
    assert FieldTexts(fields) == Keys(r);
    LineRoundTrip(fields, rest);
  }

  function RecordTexts(rs: seq<Record>): (ts: seq<seq<string>>)
    ensures |ts| == |rs|
  {
    seq(|rs|, i requires 0 <= i < |rs| => FieldTexts(Values(rs[i])))
  }

  lemma ParseDocumentStep(t: string, vs: seq<string>, rest: string, rows: seq<seq<string>>)
    requires t != ""
    requires ParseFields(t) == Some((vs, rest))
    requires ParseDocument(rest) == Some(rows)
    ensures ParseDocument(t) == Some([vs] + rows)
  {
  }

  lemma RowsCons(rs: seq<Record>)
    requires |rs| > 0
    ensures Rows(rs) == Line(Cells(Values(rs[0]))) + Rows(rs[1..])
    ensures RecordTexts(rs) == [FieldTexts(Values(rs[0]))] + RecordTexts(rs[1..])
  {
  }

  lemma {:induction false} RowsRoundTrip(rs: seq<Record>)
    requires forall i :: 0 <= i < |rs| ==> Exportable(rs[i])
    ensures ParseDocument(Rows(rs)) == Some(RecordTexts(rs))
    decreases |rs|
  {
    if |rs| > 0 {
      var vals := Values(rs[0]);
      assert Exportable(rs[0]);
      LineRoundTrip(vals, Rows(rs[1..]));
      RowsRoundTrip(rs[1..]);
      RowsCons(rs);
      ParseDocumentStep(Rows(rs), FieldTexts(vals), Rows(rs[1..]), RecordTexts(rs[1..]));
    }
  }

  /**
   * Round trip: a reader following RFC 4180 gets back the first record's keys
   * as the header and every record's values, in order, provided the keys
   * need no quoting, no record is empty and no string value holds a carriage
   * return.
   */
  lemma ConvertToCsvRoundTrip(rs: seq<Record>)
    requires |rs| > 0 ==> HeaderSafe(rs[0])
    requires forall i :: 0 <= i < |rs| ==> Exportable(rs[i])
    ensures ParseDocument(ConvertToCsv(rs)) == Some(if |rs| == 0 then [] else [Keys(rs[0])] + RecordTexts(rs))
  {
    if |rs| > 0 {
      RowsRoundTrip(rs);
      HeaderRoundTrip(rs[0], Rows(rs));
      assert ConvertToCsv(rs) == Join(Keys(rs[0]), ',') + CRLF + Rows(rs);
    }
  }

  /** A record cannot end at a carriage return that no line feed follows. */
  lemma CarriageReturnStopsRecord(a: string, b: string)
    requires Bare(a)
    requires b == "" || b[0] != '\n'
    ensures ParseFields(a + "\r" + b) == None
  {
    var rest := "\r" + b;
    var t := a + rest;
    assert a + "\r" + b == t;
    BareRoundTrip(a, rest);
    if |a| > 0 {
      assert t[0] == a[0];
    }
    assert ParseField(t) == Some((a, rest));
  }

  /**
   * A carriage return in a value that holds no `"`, `,` or line feed is left
   * unquoted, and the document no longer reads back.
   */
  lemma LoneCarriageReturnBreaksReading(key: string, a: string, b: string)
    requires Bare(key) && Bare(a)
    requires '"' !in b && ',' !in b && '\n' !in b
    ensures ParseDocument(ConvertToCsv([[Entry(key, Text(a + "\r" + b))]])) == None
  {
    var s := a + "\r" + b;
    var r := [Entry(key, Text(s))];
    var rs := [r];
    assert !NeedsQuotes(s) by {
      assert forall i :: 0 <= i < |a| ==> a[i] != '"' && a[i] != ',' && a[i] != '\n';
    }
    QuotedIffSpecial(s);
    assert Cells(Values(r)) == [s];
    assert Keys(r) == [key];
    var body := s + CRLF;
    assert Rows(rs) == body;
    assert ConvertToCsv(rs) == Join(Keys(r), ',') + CRLF + body;
    HeaderRoundTrip(r, body);
    assert body == a + "\r" + (b + CRLF);
    CarriageReturnStopsRecord(a, b + CRLF);
  }

  // ---------------------------------------------------------------------
  // The loop as written against the intent
  // ---------------------------------------------------------------------

  lemma {:induction false} AppendCellsAfterNonEmpty(line: string, cells: seq<string>)
    requires line != "" && |cells| >= 1
    ensures AppendCells(line, cells) == line + "," + Join(cells, ',')
    decreases |cells|
  {
    var next := line + "," + cells[0];
    if |cells| == 1 {
      assert AppendCells(next, cells[1..]) == next;
    } else {
      AppendCellsAfterNonEmpty(next, cells[1..]);
      assert line + "," + Join(cells, ',') == next + "," + Join(cells[1..], ',');
    }
  }

  /** The loop and the join agree on every row whose first cell is not empty. */
  lemma AsWrittenAgreesWhenFirstCellNonEmpty(cells: seq<string>)
    requires |cells| >= 1 && cells[0] != ""
    ensures AppendCells("", cells) == Join(cells, ',')
  {
    assert "" + cells[0] == cells[0];
    assert AppendCells("", cells) == AppendCells(cells[0], cells[1..]);
    if |cells| > 1 {
      AppendCellsAfterNonEmpty(cells[0], cells[1..]);
    } else {
      assert AppendCells(cells[0], cells[1..]) == cells[0];
    }
  }

  /** Every record has a first value, and that value is written as a non-empty cell. */
  predicate LeadsNonEmpty(rs: seq<Record>) {
    forall i :: 0 <= i < |rs| ==> |rs[i]| >= 1 && EscapeField(rs[i][0].value) != ""
  }

  /** A non-empty string is written as a non-empty cell. */
  lemma TextCellNonEmpty(s: string)
    requires s != ""
    ensures EscapeField(Text(s)) != ""
  {
    assert DoubleQuotes(s) == (if s[0] == '"' then "\"\"" else [s[0]]) + DoubleQuotes(s[1..]);
  }

  lemma {:induction false} RowsAsWrittenAgree(rs: seq<Record>)
    requires LeadsNonEmpty(rs)
    ensures RowsAsWritten(rs) == Rows(rs)
    decreases |rs|
  {
    if |rs| > 0 {
      var cells := Cells(Values(rs[0]));
      assert cells[0] == EscapeField(rs[0][0].value);
      AsWrittenAgreesWhenFirstCellNonEmpty(cells);
      assert forall i :: 0 <= i < |rs[1..]| ==> rs[1..][i] == rs[i + 1];
      RowsAsWrittenAgree(rs[1..]);
    }
  }

  /** The whole document as written equals the joined one when no record starts with an empty cell. */
  lemma AsWrittenAgreesOnDocument(rs: seq<Record>)
    requires LeadsNonEmpty(rs)
    ensures ConvertToCsvAsWritten(rs) == ConvertToCsv(rs)
  {
    RowsAsWrittenAgree(rs);
  }

  /** A one-record document as the loop writes it. */
  lemma AsWrittenSingle(r: Record)
    ensures ConvertToCsvAsWritten([r]) == Join(Keys(r), ',') + CRLF + (AppendCells("", Cells(Values(r))) + CRLF)
  {
    assert RowsAsWritten([r]) == AppendCells("", Cells(Values(r))) + CRLF + RowsAsWritten([]);
  }

  /** As written, a row whose first cell is empty and second is not is the join of the cells after the first. */
  lemma LeadingEmptyCellDropped(cells: seq<string>)
    requires |cells| >= 2 && cells[0] == "" && cells[1] != ""
    ensures AppendCells("", cells) == Join(cells[1..], ',')
  {
    assert AppendCells("", cells) == AppendCells("", cells[1..]);
    AsWrittenAgreesWhenFirstCellNonEmpty(cells[1..]);
  }

  /** One line of safe fields is a document of one row. */
  lemma SingleLineDocument(fields: seq<Field>)
    requires |fields| >= 1 && forall i :: 0 <= i < |fields| ==> Safe(fields[i])
    ensures ParseDocument(Join(Cells(fields), ',') + CRLF) == Some([FieldTexts(fields)])
  {
    var row := Join(Cells(fields), ',') + CRLF;
    LineRoundTrip(fields, "");
    assert row + "" == row;
    assert ParseDocument("") == Some([]);
    ParseDocumentStep(row, FieldTexts(fields), "", []);
    assert [FieldTexts(fields)] + [] == [FieldTexts(fields)];
  }

  /** A header of bare keys and one line of safe fields read back as the keys and the fields' texts. */
  lemma HeaderAndLineRoundTrip(r: Record, fields: seq<Field>)
    requires HeaderSafe(r)
    requires |fields| >= 1 && forall i :: 0 <= i < |fields| ==> Safe(fields[i])
    ensures ParseDocument(Join(Keys(r), ',') + CRLF + (Join(Cells(fields), ',') + CRLF))
      == Some([Keys(r), FieldTexts(fields)])
  {
    var row := Join(Cells(fields), ',') + CRLF;
    SingleLineDocument(fields);
    HeaderRoundTrip(r, row);
    ParseDocumentStep(Join(Keys(r), ',') + CRLF + row, Keys(r), row, [FieldTexts(fields)]);
    assert [Keys(r)] + [FieldTexts(fields)] == [Keys(r), FieldTexts(fields)];
  }

  /** The record `{[ka]: '', [kb]: x}`: an empty string ahead of a second value. */
  function LeadingEmpty(ka: string, kb: string, x: string): Record {
    [Entry(ka, Text("")), Entry(kb, Text(x))]
  }

  lemma LeadingEmptyCells(ka: string, kb: string, x: string)
    requires Bare(x)
    ensures Cells(Values(LeadingEmpty(ka, kb, x))) == ["", x]
    ensures Keys(LeadingEmpty(ka, kb, x)) == [ka, kb]
  {
    QuotedIffSpecial("");
    BareTextWrittenAsIs(x);
  }

  /** A value without `,`, `"`, CR or LF is written as it is. */
  lemma BareTextWrittenAsIs(x: string)
    requires Bare(x)
    ensures EscapeField(Text(x)) == x
  {
    assert !NeedsQuotes(x) by {
      assert forall i :: 0 <= i < |x| ==> x[i] != '"' && x[i] != ',' && x[i] != '\n';
    }
    QuotedIffSpecial(x);
  }

  lemma JoinTwo(a: string, b: string)
    ensures Join([a, b], ',') == a + "," + b
  {
    assert [a, b][1..] == [b];
  }

  /** As written, `{a: '', b: x}` becomes the row `x` under the header `a,b`: the separator is lost. */
  lemma LeadingEmptyFieldDropsSeparator(ka: string, kb: string, x: string)
    requires Bare(x)
    ensures ConvertToCsvAsWritten([LeadingEmpty(ka, kb, x)]) == ka + "," + kb + CRLF + x + CRLF
  {
    var r := LeadingEmpty(ka, kb, x);
    LeadingEmptyCells(ka, kb, x);
    JoinTwo(ka, kb);
    assert AppendCells("", ["", x]) == AppendCells("", [x]);
    assert AppendCells("", [x]) == AppendCells(x, []);
    assert RowsAsWritten([r]) == x + CRLF + RowsAsWritten([]);
  }

  /** With every field joined by `,` the same record becomes `,x`. */
  lemma LeadingEmptyFieldKeptByJoin(ka: string, kb: string, x: string)
    requires Bare(x)
    ensures ConvertToCsv([LeadingEmpty(ka, kb, x)]) == ka + "," + kb + CRLF + "," + x + CRLF
  {
    var r := LeadingEmpty(ka, kb, x);
    LeadingEmptyCells(ka, kb, x);
    JoinTwo(ka, kb);
    JoinTwo("", x);
    assert Rows([r]) == Line(["", x]) + Rows([]);
  }

  /** The row written as `x` reads back with one field under a two-field header. */
  lemma DroppedSeparatorReadsShort(ka: string, kb: string, x: string)
    requires Bare(ka) && Bare(kb) && Bare(x)
    ensures ParseDocument(ConvertToCsvAsWritten([LeadingEmpty(ka, kb, x)])) == Some([[ka, kb], [x]])
  {
    var r := LeadingEmpty(ka, kb, x);
    LeadingEmptyFieldDropsSeparator(ka, kb, x);
    LeadingEmptyCells(ka, kb, x);
    JoinTwo(ka, kb);
    var fields := [Other(x)];
    assert Join(Cells(fields), ',') == x;
    assert FieldTexts(fields) == [x];
    HeaderAndLineRoundTrip(r, fields);
    AppendAssoc(ka + "," + kb + CRLF, x, CRLF);
  }
}

=== FILE: gallery.dfy ===
/**
 * The gallery routes of app/routes/gallery.js: the audit helper `saveLog`,
 * and add, update and delete of a gallery picture with the clean-up of
 * uploaded and replaced files. The upload filter is
 * `Uploads.GalleryAccepts` and the delete helper `Uploads.GalleryDeleteFile`.
 * An upload has already been stored by multer at
 * `uploads/gallery/<filename>` when a handler runs.
 */
module Gallery {
  import opened Js
  import opened Paths
  import opened Http
  import opened Store
  import opened Uploads

  // ---------------------------------------------------------------------
  // saveLog
  // ---------------------------------------------------------------------

  const DirectAccess := "Direct Access"

  /**
   * The audit record `saveLog` builds. Unlike the log routes' client
   * address, `ip` is the whole `x-forwarded-for` header when it is set.
   */
  function GalleryLogEntry(req: Request, actionType: string, message: string, now: Value): (entry: LogData)
    ensures Get(entry, "action_type") == Str(actionType)
    ensures Get(entry, "message") == Str(message)
    ensures Get(entry, "ip") == (if Truthy(Header(req, "x-forwarded-for")) then Header(req, "x-forwarded-for") else Str(req.remoteAddress))
    ensures Get(entry, "path") == Str(if req.originalUrl != "" then req.originalUrl else req.url)
    ensures Get(entry, "user_id") == (if req.user.Some? then req.user.value.userId else Null)
    ensures Truthy(Header(req, "referer")) ==> Get(entry, "referrer") == Header(req, "referer")
    ensures !Truthy(Header(req, "referer")) && Truthy(Header(req, "origin")) ==> Get(entry, "referrer") == Header(req, "origin")
    ensures !Truthy(Header(req, "referer")) && !Truthy(Header(req, "origin")) ==> Get(entry, "referrer") == Str(DirectAccess)
    ensures Get(entry, "user_agent") == Header(req, "user-agent")
    ensures Get(entry, "http_method") == Str(req.verb)
    ensures Get(entry, "created_at") == now
    ensures entry.Keys == {"ip", "path", "message", "referrer", "created_at", "user_agent", "action_type", "http_method", "user_id"}
  {
    map["ip" := Or(Header(req, "x-forwarded-for"), Str(req.remoteAddress)),
        "path" := Or(Str(req.originalUrl), Str(req.url)),
        "message" := Str(message),
        "referrer" := OrText(Or(Header(req, "referer"), Header(req, "origin")), DirectAccess),
        "created_at" := now,
        "user_agent" := Header(req, "user-agent"),
        "action_type" := Str(actionType),
        "http_method" := Str(req.verb),
        "user_id" := if req.user.Some? then req.user.value.userId else Null]
  }

  /** The outcome of a gallery handler. */
  datatype Outcome = Outcome(status: int, galleries: Table, files: Files, audit: seq<LogData>)

  /**
   * When `stored`, one record with the action type was appended after the
   * earlier ones, which are kept; otherwise the log is unchanged.
   */
  predicate Logged(before: seq<LogData>, after: seq<LogData>, actionType: string, stored: bool) {
    if stored then |after| == |before| + 1 && after[..|before|] == before && Get(after[|before|], "action_type") == Str(actionType)
    else after == before
  }

  /**
   * `saveLog`: appends the record when the insert succeeds (`stored`) and
   * swallows the failure otherwise; it never throws, so no handler's
   * answer depends on it.
   */
  function SaveLog(audit: seq<LogData>, req: Request, actionType: string, message: string, now: Value, stored: bool)
    : (r: seq<LogData>)
    ensures Logged(audit, r, actionType, stored)
    ensures stored ==> r[|audit|] == GalleryLogEntry(req, actionType, message, now)
  {
    if stored then
      var r := audit + [GalleryLogEntry(req, actionType, message, now)];
      assert r[..|audit|] == audit;
      r
    else audit
  }

  // ---------------------------------------------------------------------
  // Image URLs and the uploaded file
  // ---------------------------------------------------------------------

  /** `${protocol}://${host}/uploads/gallery/${filename}` */
  function ImageUrl(req: Request, filename: string): string {
    req.protocol + "://" + req.host + ("/uploads/gallery" + "/" + filename)
  }

  /** A request whose protocol and host `new URL` parses as they are. */
  predicate PlainOrigin(req: Request) {
    ValidScheme(req.protocol) && forall k :: 0 <= k < |req.host| ==> req.host[k] !in {'/', '?', '#'}
  }

  /** A stored picture's URL names the picture's file. */
  lemma GalleryTargetOfImageUrl(req: Request, filename: string)
    requires PlainOrigin(req) && UrlSafeName(filename)
    ensures GalleryTarget(Str(ImageUrl(req, filename))) == Some(filename)
  {
    var path := "/uploads/gallery" + "/" + filename;
    var s := ImageUrl(req, filename);
    assert s == req.protocol + "://" + req.host + path;
    assert s[|req.protocol|..|req.protocol| + 3] == "://";
    ContainsAt(s, "://", |req.protocol|);
    assert path[0] == '/';
    UrlPathnameOfAbsolute(req.protocol, req.host, path);
    BasenameOfJoin("/uploads/gallery", filename);
  }

  /** A bare filename names itself. */
  lemma GalleryTargetOfName(filename: string)
    requires UrlSafeName(filename)
    ensures GalleryTarget(Str(filename)) == Some(filename)
  {
    SlashFreeNotUrl(filename);
    BasenameOfName(filename);
  }

  lemma {:induction false} SlashFreeNotUrl(s: string)
    requires '/' !in s
    ensures !Contains(s, "://")
    decreases |s|
  {
    assert !StartsWith(s, "://") by {
      if |s| >= 3 {
        assert s[1] != '/';
      }
    }
    if |s| > 0 {
      SlashFreeNotUrl(s[1..]);
    }
  }

  /**
   * A file only in `uploads/gallery`: the helper's first probe, in
   * `uploads`, finds nothing of that name.
   */
  predicate OnlyInGallery(files: Files, filename: string) {
    Location(GalleryDir, filename) in files && Location(UploadsDir, filename) !in files
  }

  /** Handing the helper a picture's name or its URL removes exactly that picture. */
  lemma RemovesPicture(files: Files, ref: Value, filename: string)
    requires UrlSafeName(filename) && OnlyInGallery(files, filename)
    requires GalleryTarget(ref) == Some(filename)
    ensures GalleryDeleteFile(files, ref) == files - {Location(GalleryDir, filename)}
  {
  }

  // ---------------------------------------------------------------------
  // POST /:artisan_id/add
  // ---------------------------------------------------------------------

  const AddFail := "GALLERY_ADD_FAIL"
  const Added := "GALLERY_ADD"
  const AddError := "GALLERY_ADD_ERROR"

  const NoFileText := "พยายามเพิ่มรูปภาพแต่ไม่พบไฟล์ (Artisan ID: "
  const NoNameText := "พยายามเพิ่มรูปภาพแต่ไม่ใส่ชื่อ (Artisan ID: "
  const AddedText := "เพิ่มรูปภาพแกลเลอรีใหม่: "
  const ErrorText := "เกิดข้อผิดพลาด: "

  /** The inserted picture row. */
  function PictureRow(req: Request, artisanId: string, body: Row, filename: string, userId: Value): (row: Row)
    ensures Get(row, "image_url") == Str(ImageUrl(req, filename))
    ensures Get(row, "name_gallery") == Get(body, "name_gallery")
    ensures Get(row, "caption") == (if Truthy(Get(body, "caption")) then Get(body, "caption") else Null)
    ensures Get(row, "artisan_id") == Str(artisanId) && Get(row, "user_id") == userId
  {
    map["artisan_id" := Str(artisanId), "image_url" := Str(ImageUrl(req, filename)),
        "name_gallery" := Get(body, "name_gallery"), "caption" := Or(Get(body, "caption"), Null),
        "user_id" := userId]
  }

  /**
   * `POST /:artisan_id/add` behind the session middleware (so `req.user`
   * is set): 400 without a file, 400 and the upload removed without a
   * name, 500 and the upload removed when the insert fails, else 201.
   */
  function Add(galleries: Table, files: Files, audit: seq<LogData>, req: Request, artisanId: string,
               body: Row, upload: Option<string>, now: Value, rejects: Row -> Option<string>, logStored: bool)
    : (r: Outcome)
    requires Valid(galleries) && req.user.Some?
    ensures Valid(r.galleries)
    ensures r.status in {201, 400, 500}
    ensures r.status != 201 ==> r.galleries == galleries
    ensures upload.None? ==> r.status == 400 && r.files == files && Logged(audit, r.audit, AddFail, logStored)
    ensures upload.Some? && !Truthy(Get(body, "name_gallery")) ==>
      r.status == 400 && r.files == GalleryDeleteFile(files, Str(upload.value)) && Logged(audit, r.audit, AddFail, logStored)
    ensures r.status == 500 ==> upload.Some? && r.files == GalleryDeleteFile(files, Str(upload.value)) && Logged(audit, r.audit, AddError, logStored)
    ensures r.status == 201 <==>
              (upload.Some? && Truthy(Get(body, "name_gallery"))
               && rejects(PictureRow(req, artisanId, body, upload.value, req.user.value.userId)).None?)
    ensures r.status == 201 ==>
      r.files == files && Logged(audit, r.audit, Added, logStored)
      && r.galleries.rows == galleries.rows[galleries.nextId := PictureRow(req, artisanId, body, upload.value, req.user.value.userId)]
  {
    match upload
    case None =>
      Outcome(400, galleries, files, SaveLog(audit, req, AddFail, NoFileText + artisanId + ")", now, logStored))
    case Some(filename) =>
      var name := Get(body, "name_gallery");
      if !Truthy(name) then
        Outcome(400, galleries, GalleryDeleteFile(files, Str(filename)),
                SaveLog(audit, req, AddFail, NoNameText + artisanId + ")", now, logStored))
      else
        var row := PictureRow(req, artisanId, body, filename, req.user.value.userId);
        match rejects(row)
        case Some(msg) =>
          Outcome(500, galleries, GalleryDeleteFile(files, Str(filename)),
                  SaveLog(audit, req, AddError, ErrorText + msg, now, logStored))
        case None =>
          var (t, _) := Insert(galleries, row);
          Outcome(201, t, files,
                  SaveLog(audit, req, Added, AddedText + ToText(name) + " (Artisan ID: " + artisanId + ")", now, logStored))
  }

  /** A refused picture leaves nothing behind: the upload multer stored is removed. */
  lemma RefusedUploadIsRemoved(galleries: Table, files: Files, audit: seq<LogData>, req: Request, artisanId: string,
                               body: Row, filename: string, now: Value, rejects: Row -> Option<string>, logStored: bool)
    requires Valid(galleries) && req.user.Some?
    requires UrlSafeName(filename) && OnlyInGallery(files, filename)
    ensures var r := Add(galleries, files, audit, req, artisanId, body, Some(filename), now, rejects, logStored);
      r.status != 201 ==> r.files == files - {Location(GalleryDir, filename)}
  {
    GalleryTargetOfName(filename);
    RemovesPicture(files, Str(filename), filename);
  }

  /** Whether the audit insert succeeds changes nothing else: `saveLog` never throws. */
  lemma AddIgnoresLogFailure(galleries: Table, files: Files, audit: seq<LogData>, req: Request, artisanId: string,
                             body: Row, upload: Option<string>, now: Value, rejects: Row -> Option<string>)
    requires Valid(galleries) && req.user.Some?
    ensures var a := Add(galleries, files, audit, req, artisanId, body, upload, now, rejects, true);
      var b := Add(galleries, files, audit, req, artisanId, body, upload, now, rejects, false);
      a.status == b.status && a.galleries == b.galleries && a.files == b.files && b.audit == audit
  {
  }

  // ---------------------------------------------------------------------
  // PUT /:gallery_id
  // ---------------------------------------------------------------------

  const UpdateFail := "GALLERY_UPDATE_FAIL"
  const Updated := "GALLERY_UPDATE"
  const UpdateError := "GALLERY_UPDATE_ERROR"

  const UpdateMissingText := "พยายามแก้ไขรูปภาพที่ไม่พบ (ID: "
  const UpdatedText := "แก้ไขข้อมูลรูปภาพ ID: "
  const UpdateErrorText := "เกิดข้อผิดพลาดขณะแก้ไข ID: "
  const NewFileText := "มีการอัปโหลดไฟล์ใหม่"
  const SameFileText := "ไม่มีการเปลี่ยนไฟล์"

  /**
   * The three columns the update writes: the new picture's URL or the old
   * one, `name_gallery || old`, and `caption ?? old`.
   */
  function MergedColumns(req: Request, stored: Row, body: Row, upload: Option<string>): (cols: Row)
    ensures cols.Keys == {"image_url", "name_gallery", "caption"}
    ensures upload.None? ==> cols["image_url"] == Get(stored, "image_url")
    ensures upload.Some? ==> cols["image_url"] == Str(ImageUrl(req, upload.value))
    ensures cols["name_gallery"] == (if Truthy(Get(body, "name_gallery")) then Get(body, "name_gallery") else Get(stored, "name_gallery"))
    ensures cols["caption"] == (if Get(body, "caption") in {Null, Undefined} then Get(stored, "caption") else Get(body, "caption"))
  {
    map["image_url" := if upload.Some? then Str(ImageUrl(req, upload.value)) else Get(stored, "image_url"),
        "name_gallery" := Or(Get(body, "name_gallery"), Get(stored, "name_gallery")),
        "caption" := Coalesce(Get(body, "caption"), Get(stored, "caption"))]
  }

  /**
   * `PUT /:gallery_id`: 404 (removing any new upload) when the picture is
   * missing; otherwise a new upload replaces the old file, which is removed
   * before the update runs; a failing update removes the new upload and
   * answers 500. `lookupFailure` is the error of the `SELECT` that reads
   * the stored row, if it raises one: the handler then removes the new
   * upload and answers 500 before anything else happens.
   */
  function Update(galleries: Table, files: Files, audit: seq<LogData>, req: Request, id: int,
                  body: Row, upload: Option<string>, now: Value, lookupFailure: Option<string>,
                  rejects: Row -> Option<string>, logStored: bool)
    : (r: Outcome)
    ensures r.status in {200, 404, 500}
    ensures r.status != 200 ==> r.galleries == galleries
    ensures r.status == 404 <==> lookupFailure.None? && id !in galleries.rows
    ensures lookupFailure.Some? ==>
      r.status == 500 && Logged(audit, r.audit, UpdateError, logStored)
      && r.files == (if upload.Some? then GalleryDeleteFile(files, Str(upload.value)) else files)
    ensures r.status == 500 && lookupFailure.None? ==>
      id in galleries.rows
      && r.files == (if upload.Some? then GalleryDeleteFile(GalleryDeleteFile(files, Get(galleries.rows[id], "image_url")), Str(upload.value)) else files)
    ensures r.status == 404 ==>
      r.files == (if upload.Some? then GalleryDeleteFile(files, Str(upload.value)) else files)
      && Logged(audit, r.audit, UpdateFail, logStored)
    ensures upload.None? ==> r.files == files
    ensures r.status == 200 ==>
      lookupFailure.None? && id in galleries.rows && r.galleries.rows == galleries.rows[id := galleries.rows[id] + MergedColumns(req, galleries.rows[id], body, upload)]
      && Logged(audit, r.audit, Updated, logStored)
    ensures r.status == 200 && upload.Some? ==> r.files == GalleryDeleteFile(files, Get(galleries.rows[id], "image_url"))
    ensures r.status == 500 ==> Logged(audit, r.audit, UpdateError, logStored)
  {
    var idText := IntToString(id);
    if lookupFailure.Some? then
      Outcome(500, galleries, if upload.Some? then GalleryDeleteFile(files, Str(upload.value)) else files,
              SaveLog(audit, req, UpdateError, UpdateErrorText + idText + " - " + lookupFailure.value, now, logStored))
    else if id !in galleries.rows then
      Outcome(404, galleries, if upload.Some? then GalleryDeleteFile(files, Str(upload.value)) else files,
              SaveLog(audit, req, UpdateFail, UpdateMissingText + idText + ")", now, logStored))
    else
      var stored := galleries.rows[id];
      var files1 := if upload.Some? then GalleryDeleteFile(files, Get(stored, "image_url")) else files;
      var cols := MergedColumns(req, stored, body, upload);
      match rejects(cols)
      case Some(msg) =>
        Outcome(500, galleries, if upload.Some? then GalleryDeleteFile(files1, Str(upload.value)) else files1,
                SaveLog(audit, req, UpdateError, UpdateErrorText + idText + " - " + msg, now, logStored))
      case None =>
        var changed := if upload.Some? then NewFileText else SameFileText;
        Outcome(200, Table(galleries.rows[id := stored + cols], galleries.nextId), files1,
                SaveLog(audit, req, Updated, UpdatedText + idText + " (" + changed + ")", now, logStored))
  }

  /**
   * Replacing a picture stored by an earlier upload removes exactly the
   * earlier file; the new upload stays.
   */
  lemma ReplacingRemovesOldPicture(galleries: Table, files: Files, audit: seq<LogData>, req: Request, id: int,
                                   body: Row, oldName: string, newName: string, now: Value,
                                   rejects: Row -> Option<string>, logStored: bool)
    requires PlainOrigin(req) && UrlSafeName(oldName) && OnlyInGallery(files, oldName)
    requires id in galleries.rows && Get(galleries.rows[id], "image_url") == Str(ImageUrl(req, oldName))
    ensures var r := Update(galleries, files, audit, req, id, body, Some(newName), now, None, rejects, logStored);
      r.status == 200 ==> r.files == files - {Location(GalleryDir, oldName)}
  {
    GalleryTargetOfImageUrl(req, oldName);
    RemovesPicture(files, Str(ImageUrl(req, oldName)), oldName);
  }

  /**
   * The old file goes before the `UPDATE` runs: when the statement fails,
   * the row still names the old picture, yet both the old picture and the
   * new upload are gone.
   */
  lemma FailedUpdateLosesPicture(galleries: Table, files: Files, audit: seq<LogData>, req: Request, id: int,
                                 body: Row, oldName: string, newName: string, now: Value,
                                 rejects: Row -> Option<string>, logStored: bool)
    requires PlainOrigin(req) && UrlSafeName(oldName) && UrlSafeName(newName) && oldName != newName
    requires OnlyInGallery(files, oldName) && OnlyInGallery(files, newName)
    requires id in galleries.rows && Get(galleries.rows[id], "image_url") == Str(ImageUrl(req, oldName))
    ensures var r := Update(galleries, files, audit, req, id, body, Some(newName), now, None, rejects, logStored);
      r.status == 500 ==>
        r.galleries.rows[id] == galleries.rows[id]
        && r.files == files - {Location(GalleryDir, oldName), Location(GalleryDir, newName)}
  {
    var r := Update(galleries, files, audit, req, id, body, Some(newName), now, None, rejects, logStored);
    if r.status == 500 {
      assert r.files == GalleryDeleteFile(GalleryDeleteFile(files, Str(ImageUrl(req, oldName))), Str(newName));
      RemovesBothPictures(files, req, oldName, newName);
    }
  }

  /** Removing the old picture by its URL and then the new upload by its name removes exactly those two files. */
  lemma RemovesBothPictures(files: Files, req: Request, oldName: string, newName: string)
    requires PlainOrigin(req) && UrlSafeName(oldName) && UrlSafeName(newName) && oldName != newName
    requires OnlyInGallery(files, oldName) && OnlyInGallery(files, newName)
    ensures GalleryDeleteFile(GalleryDeleteFile(files, Str(ImageUrl(req, oldName))), Str(newName))
         == files - {Location(GalleryDir, oldName), Location(GalleryDir, newName)}
  {
    var files1 := files - {Location(GalleryDir, oldName)};
    GalleryTargetOfImageUrl(req, oldName);
    RemovesPicture(files, Str(ImageUrl(req, oldName)), oldName);
    assert OnlyInGallery(files1, newName) by {
      assert Location(GalleryDir, newName)[|GalleryDir| + 1..] == newName;
      assert Location(GalleryDir, oldName)[|GalleryDir| + 1..] == oldName;
    }
    GalleryTargetOfName(newName);
    RemovesPicture(files1, Str(newName), newName);
  }

  /** An empty caption overwrites the old one, while a missing caption keeps it; a falsy name keeps the old name. */
  lemma CaptionCoalescesNameOrs(req: Request, stored: Row, body: Row)
    ensures MergedColumns(req, stored, body[ "caption" := Str("")], None)["caption"] == Str("")
    ensures MergedColumns(req, stored, body - {"caption"}, None)["caption"] == Get(stored, "caption")
    ensures MergedColumns(req, stored, body["name_gallery" := Str("")], None)["name_gallery"] == Get(stored, "name_gallery")
  {
    assert Get(body - {"caption"}, "caption") == Undefined;
  }

  // ---------------------------------------------------------------------
  // DELETE /:gallery_id
  // ---------------------------------------------------------------------

  const DeleteFail := "GALLERY_DELETE_FAIL"
  const Deleted := "GALLERY_DELETE"
  const DeleteError := "GALLERY_DELETE_ERROR"

  const DeleteMissingText := "พยายามลบรูปภาพที่ไม่พบ (ID: "
  const DeletedText := "ลบรูปภาพชื่อ \""
  const DeleteErrorText := "เกิดข้อผิดพลาดขณะลบ ID: "

  /**
   * `DELETE /:gallery_id`: 404 with a failure record when the picture is
   * missing; otherwise the file goes first, then the row. `lookupFailure`
   * is the error of the `SELECT` that reads the row and `failure` the
   * error of the `DELETE` statement, if either raises one.
   */
  function Delete(galleries: Table, files: Files, audit: seq<LogData>, req: Request, id: int,
                  now: Value, lookupFailure: Option<string>, failure: Option<string>, logStored: bool): (r: Outcome)
    ensures r.status in {200, 404, 500}
    ensures r.status == 404 <==> lookupFailure.None? && id !in galleries.rows
    ensures r.status == 404 ==> r.galleries == galleries && r.files == files && Logged(audit, r.audit, DeleteFail, logStored)
    ensures lookupFailure.Some? ==>
      r.status == 500 && r.galleries == galleries && r.files == files && Logged(audit, r.audit, DeleteError, logStored)
    ensures lookupFailure.None? && id in galleries.rows ==> r.files == GalleryDeleteFile(files, Get(galleries.rows[id], "image_url"))
    ensures r.status == 200 ==> r.galleries.rows == galleries.rows - {id} && Logged(audit, r.audit, Deleted, logStored)
    ensures r.status == 500 ==> r.galleries == galleries && (lookupFailure.Some? || failure.Some?) && Logged(audit, r.audit, DeleteError, logStored)
  {
    var idText := IntToString(id);
    if lookupFailure.Some? then
      Outcome(500, galleries, files, SaveLog(audit, req, DeleteError, DeleteErrorText + idText + " - " + lookupFailure.value, now, logStored))
    else if id !in galleries.rows then
      Outcome(404, galleries, files, SaveLog(audit, req, DeleteFail, DeleteMissingText + idText + ")", now, logStored))
    else
      var stored := galleries.rows[id];
      var files1 := GalleryDeleteFile(files, Get(stored, "image_url"));
      match failure
      case Some(msg) =>
        Outcome(500, galleries, files1, SaveLog(audit, req, DeleteError, DeleteErrorText + idText + " - " + msg, now, logStored))
      case None =>
        var (t, _) := Store.Delete(galleries, id);
        Outcome(200, t, files1,
                SaveLog(audit, req, Deleted, DeletedText + ToText(Get(stored, "name_gallery")) + "\" (ID: " + idText + ") สำเร็จ", now, logStored))
  }

  /**
   * The file goes before the row: when the `DELETE` statement fails, the
   * row stays but its picture is already gone.
   */
  lemma FailedDeleteLosesPicture(galleries: Table, files: Files, audit: seq<LogData>, req: Request, id: int,
                                 filename: string, now: Value, msg: string, logStored: bool)
    requires PlainOrigin(req) && UrlSafeName(filename) && OnlyInGallery(files, filename)
    requires id in galleries.rows && Get(galleries.rows[id], "image_url") == Str(ImageUrl(req, filename))
    ensures var r := Delete(galleries, files, audit, req, id, now, None, Some(msg), logStored);
      r.status == 500 && id in r.galleries.rows && Location(GalleryDir, filename) !in r.files
  {
    GalleryTargetOfImageUrl(req, filename);
    RemovesPicture(files, Str(ImageUrl(req, filename)), filename);
  }
}

=== FILE: http.dfy ===
/**
 * What the handlers read from an Express request and write into a response
 * besides the JSON body: headers, cookies, the socket address, the
 * authenticated identity, and the structured records the audit and visit
 * logs store.
 */
module Http {
  import opened Js

  /** The identity a session token carries: `{user_id, username, name, role}`. */
  datatype Claims = Claims(userId: Value, username: Value, name: string, role: Value)

  datatype Request = Request(
    headers: map<string, string>,   // lower-case header names
    cookies: map<string, string>,
    remoteAddress: string,          // req.socket.remoteAddress
    verb: string,                   // req.method
    originalUrl: string,            // req.originalUrl
    url: string,                    // req.url
    protocol: string,               // req.protocol
    host: string,                   // req.get('host')
    user: Option<Claims>)           // req.user, set by the session middleware

  /** `req.headers[name]`: the header's text, or `undefined`. */
  function Header(req: Request, name: string): Value {
    if name in req.headers then Str(req.headers[name]) else Undefined
  }

  /** `res.cookie(...)` / `res.clearCookie(...)` options the handlers pass. */
  datatype Cookie = Cookie(name: string, value: string, httpOnly: bool, secure: bool, sameSite: string, path: string)

  /** The JSON object stored in a log table's `log_data` column. */
  type LogData = map<string, Value>
}

=== FILE: js.dfy ===
/**
 * The slice of JavaScript semantics the route handlers rely on: the values a
 * request body, a query string or a database row can carry, truthiness, the
 * `||` and `??` fallbacks, `String(v)`, and the string methods the handlers
 * call (`split`, `join`, `includes`, `startsWith`, case conversion).
 */
module Js {

  datatype Option<+T> = None | Some(value: T)

  /** A handler step that either yields a value or throws with a message. */
  datatype Result<+T> = Ok(value: T) | Err(message: string)

  /** A JavaScript value as the handlers see it. Numbers are integers here. */
  datatype Value = Undefined | Null | Bool(b: bool) | Num(n: int) | Str(s: string)

  /** `undefined`, `null`, `false`, `0` and `''` are falsy; everything else is truthy. */
  predicate Truthy(v: Value) {
    match v
    case Undefined => false
    case Null => false
    case Bool(b) => b
    case Num(n) => n != 0
    case Str(s) => s != ""
  }

  /** `a || b` */
  function Or(a: Value, b: Value): Value {
    if Truthy(a) then a else b
  }

  /** `a ?? b`: only `null` and `undefined` fall back. */
  function Coalesce(a: Value, b: Value): Value {
    if a == Null || a == Undefined then b else a
  }

  /** `obj[key]` of a plain object: `undefined` when the key is missing. */
  function Get(d: map<string, Value>, key: string): Value {
    if key in d then d[key] else Undefined
  }

  /** `a || b` where the fallback is a string literal. */
  function OrText(a: Value, fallback: string): Value {
    Or(a, Str(fallback))
  }

  function Digit(d: nat): char
    requires d < 10
  {
    "0123456789"[d]
  }

  predicate IsDigit(c: char) {
    '0' <= c <= '9'
  }

  /** Decimal rendering of a natural number, as `String(n)` prints it. */
  function NatToString(n: nat): (r: string)
    ensures |r| >= 1
    ensures forall i :: 0 <= i < |r| ==> IsDigit(r[i])
    ensures n < 10 <==> |r| == 1
  {
    if n < 10 then [Digit(n)] else NatToString(n / 10) + [Digit(n % 10)]
  }

  function IntToString(n: int): string {
    if n < 0 then "-" + NatToString(-n) else NatToString(n)
  }

  /** `String(v)`, which is also what a template literal `${v}` inserts. */
  function ToText(v: Value): string {
    match v
    case Undefined => "undefined"
    case Null => "null"
    case Bool(b) => if b then "true" else "false"
    case Num(n) => IntToString(n)
    case Str(s) => s
  }

  /** The number a run of decimal digits denotes. */
  function ParseDigits(s: string): nat
    requires forall i :: 0 <= i < |s| ==> IsDigit(s[i])
    decreases |s|
  {
    if |s| == 0 then 0
    else
      var last := s[|s| - 1];
      assert IsDigit(last);
      10 * ParseDigits(s[..|s| - 1]) + (last as int - '0' as int)
  }

  /** Reading the decimal rendering of a number gives the number back. */
  lemma {:induction false} ParseNatToString(n: nat)
    ensures ParseDigits(NatToString(n)) == n
  {
    var r := NatToString(n);
    if n >= 10 {
      ParseNatToString(n / 10);
      assert r[..|r| - 1] == NatToString(n / 10);
    }
  }

  /** Length of the run of decimal digits that `s` starts with. */
  function DigitRun(s: string): (k: nat)
    ensures k <= |s|
    ensures forall i :: 0 <= i < k ==> IsDigit(s[i])
    ensures k < |s| ==> !IsDigit(s[k])
  {
    if |s| == 0 || !IsDigit(s[0]) then 0 else 1 + DigitRun(s[1..])
  }

  /**
   * `parseInt(s, 10)` for text without sign or leading blanks: the number
   * its leading digits denote, or `None` (`NaN`) when it starts with no digit.
   */
  function ParseLeadingNat(s: string): (r: Option<nat>)
    ensures r.None? <==> (|s| == 0 || !IsDigit(s[0]))
  {
    var k := DigitRun(s);
    if k == 0 then None else Some(ParseDigits(s[..k]))
  }

  /** Text after a number's rendering does not change what `parseInt` reads, provided it starts with no digit. */
  lemma {:induction false} DigitRunOfRendering(n: nat, rest: string)
    requires rest == "" || !IsDigit(rest[0])
    ensures DigitRun(NatToString(n) + rest) == |NatToString(n)|
  {
    var d := NatToString(n);
    DigitRunOfDigits(d, rest);
  }

  lemma {:induction false} DigitRunOfDigits(d: string, rest: string)
    requires forall i :: 0 <= i < |d| ==> IsDigit(d[i])
    requires rest == "" || !IsDigit(rest[0])
    ensures DigitRun(d + rest) == |d|
    decreases |d|
  {
    if |d| > 0 {
      assert (d + rest)[1..] == d[1..] + rest;
      DigitRunOfDigits(d[1..], rest);
    } else {
      assert d + rest == rest;
    }
  }

  /** `parseInt` reads back a rendered number, whatever non-digit text follows it. */
  lemma ParseLeadingNatOfRendering(n: nat, rest: string)
    requires rest == "" || !IsDigit(rest[0])
    ensures ParseLeadingNat(NatToString(n) + rest) == Some(n)
  {
    var d := NatToString(n);
    DigitRunOfRendering(n, rest);
    assert (d + rest)[..|d|] == d;
    ParseNatToString(n);
  }

  // ---------------------------------------------------------------------
  // Strings
  // ---------------------------------------------------------------------

  predicate StartsWith(s: string, prefix: string) {
    |prefix| <= |s| && s[..|prefix|] == prefix
  }

  /** `s.includes(sub)`, and also an unanchored regular expression test of a literal. */
  predicate Contains(s: string, sub: string)
    decreases |s|
  {
    StartsWith(s, sub) || (|s| > 0 && Contains(s[1..], sub))
  }

  /** Index of the first `c` in `s`, or `|s|` when there is none. */
  function IndexOf(s: string, c: char): (i: nat)
    ensures i <= |s|
    ensures forall k :: 0 <= k < i ==> s[k] != c
    ensures i < |s| ==> s[i] == c
    ensures c !in s <==> i == |s|
  {
    if |s| == 0 then 0
    else if s[0] == c then 0
    else 1 + IndexOf(s[1..], c)
  }

  /** `s.split(c)` for a one-character separator. */
  function Split(s: string, c: char): (parts: seq<string>)
    ensures |parts| >= 1
    ensures forall k :: 0 <= k < |parts| ==> c !in parts[k]
    decreases |s|
  {
    var i := IndexOf(s, c);
    if i == |s| then [s] else [s[..i]] + Split(s[i + 1..], c)
  }

  /** `parts.join(sep)` */
  function Join(parts: seq<string>, sep: char): string
    decreases |parts|
  {
    if |parts| == 0 then ""
    else if |parts| == 1 then parts[0]
    else parts[0] + [sep] + Join(parts[1..], sep)
  }

  lemma JoinCons(p: string, parts: seq<string>, sep: char)
    requires |parts| >= 1
    ensures Join([p] + parts, sep) == p + [sep] + Join(parts, sep)
  {
    assert ([p] + parts)[1..] == parts;
  }

  lemma SliceAround(s: string, i: nat)
    requires i < |s|
    ensures s[..i] + [s[i]] + s[i + 1..] == s
  {
  }

  /** Splitting loses nothing: joining the parts with the separator gives the string back. */
  lemma {:induction false} JoinSplit(s: string, c: char)
    ensures Join(Split(s, c), c) == s
    decreases |s|
  {
    var i := IndexOf(s, c);
    if i < |s| {
      var head, rest := s[..i], s[i + 1..];
      var parts := Split(rest, c);
      assert Split(s, c) == [head] + parts;
      JoinSplit(rest, c);
      JoinCons(head, parts, c);
      SliceAround(s, i);
    }
  }

  /** The first part of a split is the longest prefix free of the separator. */
  lemma FirstSplitPart(s: string, c: char)
    ensures Split(s, c)[0] == s[..IndexOf(s, c)]
  {
  }

  function LowerChar(ch: char): char {
    if 'A' <= ch <= 'Z' then (ch as int + 32) as char else ch
  }

  function UpperChar(ch: char): char {
    if 'a' <= ch <= 'z' then (ch as int - 32) as char else ch
  }

  /** `s.toLowerCase()` (ASCII letters only). */
  function ToLower(s: string): (r: string)
    ensures |r| == |s|
    ensures forall i :: 0 <= i < |s| ==> r[i] == LowerChar(s[i])
  {
    seq(|s|, i requires 0 <= i < |s| => LowerChar(s[i]))
  }

  /** `s.toUpperCase()` (ASCII letters only). */
  function ToUpper(s: string): (r: string)
    ensures |r| == |s|
    ensures forall i :: 0 <= i < |s| ==> r[i] == UpperChar(s[i])
  {
    seq(|s|, i requires 0 <= i < |s| => UpperChar(s[i]))
  }
}

=== FILE: logs.dfy ===
/**
 * The visit and audit logs of app/routes/log.js: the client address rule,
 * the records the two logging endpoints store, and the CSV exports that
 * flatten stored records into seven fixed columns behind a byte-order mark.
 */
module Logs {
  import opened Js
  import opened Http
  import opened Csv

  /** The forwarded-for header exists and its first comma-separated segment is non-empty. */
  predicate Forwarded(req: Request) {
    "x-forwarded-for" in req.headers
    && req.headers["x-forwarded-for"] != ""
    && req.headers["x-forwarded-for"][0] != ','
  }

  /** `seg` is the text of `h` up to its first comma. */
  predicate LeadingSegment(seg: string, h: string) {
    |seg| <= |h| && seg == h[..|seg|] && ',' !in seg && (|seg| == |h| || h[|seg|] == ',')
  }

  /** `getClientIp`: `x-forwarded-for` up to its first comma, unless that is empty; else the socket address. */
  function ClientIp(req: Request): (ip: string)
    ensures Forwarded(req) ==> ip != "" && LeadingSegment(ip, req.headers["x-forwarded-for"])
    ensures !Forwarded(req) ==> ip == req.remoteAddress
  {
    match Header(req, "x-forwarded-for")
    case Str(h) =>
      FirstSplitPart(h, ',');
      var first := Split(h, ',')[0];
      if first != "" then first else req.remoteAddress
    case _ => req.remoteAddress
  }

  /** `req.headers.referer || null` */
  function Referrer(req: Request): (v: Value)
    ensures Truthy(Header(req, "referer")) ==> v == Header(req, "referer")
    ensures !Truthy(Header(req, "referer")) ==> v == Null
  {
    Or(Header(req, "referer"), Null)
  }

  /** The object `POST /log-visit` stores for a page visit. */
  function VisitRecord(req: Request, path: Value, verb: Value): LogData {
    map[
      "ip" := Str(ClientIp(req)),
      "user_agent" := Header(req, "user-agent"),
      "path" := path,
      "method" := OrText(verb, "GET"),
      "referrer" := Referrer(req),
      "lang" := Header(req, "accept-language")]
  }

  /**
   * A visit record holds the client address, the request's user agent and
   * language, the given path, the given method or `GET` when it is falsy,
   * and the referer or null.
   */
  predicate VisitRecorded(d: LogData, req: Request, path: Value, verb: Value) {
    Get(d, "ip") == Str(ClientIp(req))
    && Get(d, "user_agent") == Header(req, "user-agent")
    && Get(d, "path") == path
    && (Truthy(verb) ==> Get(d, "method") == verb)
    && (!Truthy(verb) ==> Get(d, "method") == Str("GET"))
    && Get(d, "referrer") == Referrer(req)
    && Get(d, "lang") == Header(req, "accept-language")
  }

  /**
   * `POST /log-visit`: appends the visit record and answers 204, or answers
   * 500 and appends nothing when the insert fails.
   */
  function LogVisit(visits: seq<LogData>, req: Request, path: Value, verb: Value, fails: bool): (r: (seq<LogData>, int))
    ensures r.1 == 204 || r.1 == 500
    ensures r.1 == 500 <==> fails
    ensures fails ==> r.0 == visits
    ensures !fails ==>
      |r.0| == |visits| + 1 && r.0[..|visits|] == visits && VisitRecorded(r.0[|visits|], req, path, verb)
  {
    if fails then (visits, 500) else (visits + [VisitRecord(req, path, verb)], 204)
  }

  /**
   * `action ? action.toUpperCase() : 'UNKNOWN'`; a truthy value that is not a
   * string has no `toUpperCase` and the call throws.
   */
  function ActionType(action: Value): (r: Result<string>)
    ensures !Truthy(action) ==> r == Ok("UNKNOWN")
    ensures Truthy(action) && action.Str? ==> r == Ok(ToUpper(action.s))
    ensures Truthy(action) && !action.Str? ==> r.Err?
  {
    if !Truthy(action) then Ok("UNKNOWN")
    else match action
      case Str(s) => Ok(ToUpper(s))
      case _ => Err("action.toUpperCase is not a function")
  }

  /** Every action type stored is already upper-case: upper-casing it again changes nothing. */
  lemma ActionTypeIsUpperCase(action: Value)
    requires ActionType(action).Ok?
    ensures var t := ActionType(action).value; ToUpper(t) == t
  {
    if Truthy(action) {
      UpperTwice(action.s);
    } else {
      UnknownIsUpper();
    }
  }

  lemma UpperTwice(s: string)
    ensures ToUpper(ToUpper(s)) == ToUpper(s)
  {
    var u := ToUpper(s);
    forall i | 0 <= i < |u| ensures UpperChar(u[i]) == u[i] {
    }
  }

  lemma UnknownIsUpper()
    ensures ToUpper("UNKNOWN") == "UNKNOWN"
  {
    var t := "UNKNOWN";
    forall i | 0 <= i < |t| ensures UpperChar(t[i]) == t[i] {
    }
  }

  /**
   * An audit record holds the client address, the request's user agent and
   * method, the given path and message, the stored action type, the referer
   * or null, and the time of the call.
   */
  predicate ActionRecorded(d: LogData, req: Request, path: Value, actionType: string, errorMessage: Value, now: Value) {
    Get(d, "ip") == Str(ClientIp(req))
    && Get(d, "user_agent") == Header(req, "user-agent")
    && Get(d, "path") == path
    && Get(d, "action_type") == Str(actionType)
    && Get(d, "http_method") == Str(req.verb)
    && Get(d, "message") == errorMessage
    && Get(d, "referrer") == Referrer(req)
    && Get(d, "created_at") == now
  }

  /**
   * `POST /log-admin-action`: appends one audit record and answers 204. It
   * answers 500 and appends nothing when the action cannot be upper-cased or
   * the insert fails.
   */
  function LogAdminAction(audit: seq<LogData>, req: Request, path: Value, action: Value, errorMessage: Value, now: Value, fails: bool)
    : (r: (seq<LogData>, int))
    ensures r.1 == 204 || r.1 == 500
    ensures r.1 == 500 <==> ActionType(action).Err? || fails
    ensures r.1 == 500 ==> r.0 == audit
    ensures r.1 == 204 ==>
      |r.0| == |audit| + 1 && r.0[..|audit|] == audit
      && ActionRecorded(r.0[|audit|], req, path, ActionType(action).value, errorMessage, now)
  {
    match ActionType(action)
    case Err(_) => (audit, 500)
    case Ok(t) =>
      var d := map[
        "ip" := Str(ClientIp(req)),
        "user_agent" := Header(req, "user-agent"),
        "path" := path,
        "action_type" := Str(t),
        "http_method" := Str(req.verb),
        "message" := errorMessage,
        "referrer" := Referrer(req),
        "created_at" := now];
      if fails then (audit, 500) else (audit + [d], 204)
  }

  // ---------------------------------------------------------------------
  // CSV export
  // ---------------------------------------------------------------------

  const BOM: char := '\U{FEFF}'

  const VisitColumns: seq<string> := ["visit_time", "ip", "path", "method", "user_agent", "referrer", "lang"]

  const AuditColumns: seq<string> := ["timestamp", "action_type", "path", "http_method", "ip", "user_agent", "message"]

  /** A stored log row: its `log_data` object (possibly null) and its time column. */
  datatype LogRow = LogRow(logData: Option<LogData>, time: Value)

  /** A flattened value as the serialiser sees it. */
  function AsField(v: Value): Field {
    match v
    case Str(s) => Text(s)
    case _ => Other(ToText(v))
  }

  /** `log.<key> || ''` */
  function Cell(log: LogData, key: string): (f: Field)
    ensures Truthy(Get(log, key)) ==> f == AsField(Get(log, key))
    ensures !Truthy(Get(log, key)) ==> f == Text("")
  {
    AsField(OrText(Get(log, key), ""))
  }

  /** `row.log_data || {}` */
  function LogOf(row: LogRow): LogData {
    match row.logData
    case Some(d) => d
    case None => map[]
  }

  /** A time formatted by `toLocaleString('th-TH')` when present, else `''`. */
  function TimeCell(t: Value, fmt: Value -> string): (f: Field)
    ensures Truthy(t) ==> f == Text(fmt(t))
    ensures !Truthy(t) ==> f == Text("")
  {
    Text(if Truthy(t) then fmt(t) else "")
  }

  /** `log.created_at || row.created_at`: the time an audit row is exported under. */
  function AuditTime(row: LogRow): (t: Value)
    ensures Truthy(Get(LogOf(row), "created_at")) ==> t == Get(LogOf(row), "created_at")
    ensures !Truthy(Get(LogOf(row), "created_at")) ==> t == row.time
  {
    Or(Get(LogOf(row), "created_at"), row.time)
  }

  /**
   * A flattened visit: the formatted `visit_time`, then each of the other six
   * columns read from the log under its own name.
   */
  function FlattenVisit(row: LogRow, fmt: Value -> string): (r: Record)
    ensures Keys(r) == VisitColumns
    ensures r[0].value == TimeCell(row.time, fmt)
    ensures forall k :: 1 <= k < |r| ==> r[k].value == Cell(LogOf(row), VisitColumns[k])
  {
    var log := LogOf(row);
    [ Entry("visit_time", TimeCell(row.time, fmt)),
      Entry("ip", Cell(log, "ip")),
      Entry("path", Cell(log, "path")),
      Entry("method", Cell(log, "method")),
      Entry("user_agent", Cell(log, "user_agent")),
      Entry("referrer", Cell(log, "referrer")),
      Entry("lang", Cell(log, "lang")) ]
  }

  /**
   * A flattened audit record: the formatted time, then each of the other six
   * columns read from the log under its own name.
   */
  function FlattenAudit(row: LogRow, fmt: Value -> string): (r: Record)
    ensures Keys(r) == AuditColumns
    ensures r[0].value == TimeCell(AuditTime(row), fmt)
    ensures forall k :: 1 <= k < |r| ==> r[k].value == Cell(LogOf(row), AuditColumns[k])
  {
    var log := LogOf(row);
    [ Entry("timestamp", TimeCell(AuditTime(row), fmt)),
      Entry("action_type", Cell(log, "action_type")),
      Entry("path", Cell(log, "path")),
      Entry("http_method", Cell(log, "http_method")),
      Entry("ip", Cell(log, "ip")),
      Entry("user_agent", Cell(log, "user_agent")),
      Entry("message", Cell(log, "message")) ]
  }

  function FlattenVisits(rows: seq<LogRow>, fmt: Value -> string): (rs: seq<Record>)
    ensures |rs| == |rows|
    ensures forall i :: 0 <= i < |rows| ==> rs[i] == FlattenVisit(rows[i], fmt)
  {
    seq(|rows|, i requires 0 <= i < |rows| => FlattenVisit(rows[i], fmt))
  }

  function FlattenAudits(rows: seq<LogRow>, fmt: Value -> string): (rs: seq<Record>)
    ensures |rs| == |rows|
    ensures forall i :: 0 <= i < |rows| ==> rs[i] == FlattenAudit(rows[i], fmt)
  {
    seq(|rows|, i requires 0 <= i < |rows| => FlattenAudit(rows[i], fmt))
  }

  /** `GET /export-visit-logs`: the byte-order mark followed by the CSV text the loop writes. */
  function ExportVisitLogs(rows: seq<LogRow>, fmt: Value -> string): (body: string)
    ensures |body| >= 1 && body[0] == BOM
    ensures |rows| == 0 <==> body == [BOM]
  {
    [BOM] + ConvertToCsvAsWritten(FlattenVisits(rows, fmt))
  }

  /** `GET /export-audit-logs`: the byte-order mark followed by the CSV text the loop writes. */
  function ExportAuditLogs(rows: seq<LogRow>, fmt: Value -> string): (body: string)
    ensures |body| >= 1 && body[0] == BOM
    ensures |rows| == 0 <==> body == [BOM]
  {
    [BOM] + ConvertToCsvAsWritten(FlattenAudits(rows, fmt))
  }

  lemma DropMark(csv: string)
    ensures ([BOM] + csv)[1..] == csv
  {
  }

  /** Every column name is written without quoting. */
  lemma ColumnsAreBare()
    ensures forall i :: 0 <= i < |VisitColumns| ==> Bare(VisitColumns[i])
    ensures forall i :: 0 <= i < |AuditColumns| ==> Bare(AuditColumns[i])
  {
  }

  /**
   * What a reader finds after the byte-order mark: a header with the seven
   * columns, then one seven-field row per stored row, in order.
   */
  predicate SevenColumnDocument(doc: Option<seq<seq<string>>>, columns: seq<string>, n: nat) {
    doc.Some?
    && |doc.value| == (if n == 0 then 0 else n + 1)
    && (n > 0 ==> doc.value[0] == columns)
    && forall i :: 0 <= i < |doc.value| ==> |doc.value[i]| == 7
  }

  /** A non-empty export of seven-column records reads back as its header and rows. */
  lemma SevenColumnRoundTrip(rs: seq<Record>, columns: seq<string>)
    requires |columns| == 7 && forall k :: 0 <= k < 7 ==> Bare(columns[k])
    requires forall i :: 0 <= i < |rs| ==> Keys(rs[i]) == columns && Exportable(rs[i])
    ensures SevenColumnDocument(ParseDocument(ConvertToCsv(rs)), columns, |rs|)
  {
    if |rs| > 0 {
      forall k | 0 <= k < |rs[0]| ensures Bare(rs[0][k].key) {
        assert rs[0][k].key == Keys(rs[0])[k];
      }
    }
    ConvertToCsvRoundTrip(rs);
    var doc := if |rs| == 0 then [] else [columns] + RecordTexts(rs);
    forall i | 0 <= i < |doc| ensures |doc[i]| == 7 {
      if i > 0 {
        assert doc[i] == RecordTexts(rs)[i - 1];
        assert |Keys(rs[i - 1])| == 7;
      }
    }
  }

  /** A time that is present and formats to a non-empty text. */
  predicate Timed(t: Value, fmt: Value -> string) {
    Truthy(t) && fmt(t) != ""
  }

  /**
   * The visit export reads back as the seven visit columns and one
   * seven-field row per stored visit, when every visit has a time that
   * formats to a non-empty text and no logged string holds a carriage return.
   */
  lemma ExportVisitRoundTrip(rows: seq<LogRow>, fmt: Value -> string)
    requires forall i :: 0 <= i < |rows| ==> Timed(rows[i].time, fmt) && Exportable(FlattenVisit(rows[i], fmt))
    ensures SevenColumnDocument(ParseDocument(ExportVisitLogs(rows, fmt)[1..]), VisitColumns, |rows|)
  {
    var rs := FlattenVisits(rows, fmt);
    DropMark(ConvertToCsvAsWritten(rs));
    forall i | 0 <= i < |rs|
      ensures Keys(rs[i]) == VisitColumns && Exportable(rs[i])
      ensures |rs[i]| >= 1 && EscapeField(rs[i][0].value) != ""
    {
      assert rs[i] == FlattenVisit(rows[i], fmt);
      TextCellNonEmpty(fmt(rows[i].time));
    }
    AsWrittenAgreesOnDocument(rs);
    ColumnsAreBare();
    SevenColumnRoundTrip(rs, VisitColumns);
  }

  /**
   * The audit export reads back as the seven audit columns and one
   * seven-field row per stored record, when every record has a time that
   * formats to a non-empty text and no logged string holds a carriage return.
   */
  lemma ExportAuditRoundTrip(rows: seq<LogRow>, fmt: Value -> string)
    requires forall i :: 0 <= i < |rows| ==> Timed(AuditTime(rows[i]), fmt) && Exportable(FlattenAudit(rows[i], fmt))
    ensures SevenColumnDocument(ParseDocument(ExportAuditLogs(rows, fmt)[1..]), AuditColumns, |rows|)
  {
    var rs := FlattenAudits(rows, fmt);
    DropMark(ConvertToCsvAsWritten(rs));
    forall i | 0 <= i < |rs|
      ensures Keys(rs[i]) == AuditColumns && Exportable(rs[i])
      ensures |rs[i]| >= 1 && EscapeField(rs[i][0].value) != ""
    {
      assert rs[i] == FlattenAudit(rows[i], fmt);
      TextCellNonEmpty(fmt(AuditTime(rows[i])));
    }
    AsWrittenAgreesOnDocument(rs);
    ColumnsAreBare();
    SevenColumnRoundTrip(rs, AuditColumns);
  }

  /** A missing or null `log_data` exports every log column as an empty field. */
  lemma MissingLogDataExportsEmptyFields(time: Value, fmt: Value -> string)
    ensures var r := FlattenAudit(LogRow(None, time), fmt);
      forall i :: 1 <= i < 7 ==> r[i].value == Text("")
  {
  }

  /** An audit record holding only an action type, in a row without a time. */
  function UntimedAction(a: string): LogRow {
    LogRow(Some(map["action_type" := Str(a)]), Null)
  }

  /** The six cells after the empty `timestamp`, as fields a reader gets back verbatim. */
  function ActionTail(a: string): seq<Field> {
    [Other(a), Other(""), Other(""), Other(""), Other(""), Other("")]
  }

  lemma ActionTailLine(a: string)
    requires Bare(a)
    ensures forall i :: 0 <= i < |ActionTail(a)| ==> Safe(ActionTail(a)[i])
    ensures Cells(ActionTail(a)) == [a, "", "", "", "", ""]
    ensures Join(Cells(ActionTail(a)), ',') == a + ",,,,,"
    ensures FieldTexts(ActionTail(a)) == [a, "", "", "", "", ""]
  {
    var e5 := FiveEmpty();
    JoinCons(a, e5, ',');
    assert Cells(ActionTail(a)) == [a] + e5;
  }

  /** Five empty cells joined by `,`. */
  lemma FiveEmpty() returns (e5: seq<string>)
    ensures e5 == ["", "", "", "", ""] && Join(e5, ',') == ",,,,"
  {
    var e1: seq<string> := [""];
    var e2 := [""] + e1;
    var e3 := [""] + e2;
    var e4 := [""] + e3;
    e5 := [""] + e4;
    JoinCons("", e1, ',');
    assert Join(e2, ',') == ",";
    JoinCons("", e2, ',');
    assert Join(e3, ',') == ",,";
    JoinCons("", e3, ',');
    assert Join(e4, ',') == ",,,";
    JoinCons("", e4, ',');
  }

  lemma UntimedActionCells(a: string, fmt: Value -> string)
    requires Bare(a) && a != ""
    ensures var cs := Cells(Values(FlattenAudit(UntimedAction(a), fmt)));
      cs[0] == "" && cs[1..] == Cells(ActionTail(a))
  {
    var r := FlattenAudit(UntimedAction(a), fmt);
    var cs := Cells(Values(r));
    QuotedIffSpecial("");
    BareTextWrittenAsIs(a);
    assert r[1].value == Text(a);
    forall k | 1 <= k < 7 ensures cs[k] == Cells(ActionTail(a))[k - 1] {
      assert cs[k] == EscapeField(r[k].value);
    }
  }

  /**
   * As written, a record without any time loses the separator after its
   * empty `timestamp`: an action type `LOGIN` becomes the row `LOGIN,,,,,`.
   */
  lemma UntimedAuditRowText(a: string, fmt: Value -> string)
    requires Bare(a) && a != ""
    ensures ExportAuditLogs([UntimedAction(a)], fmt)[1..] == Join(AuditColumns, ',') + CRLF + (a + ",,,,," + CRLF)
  {
    var r := FlattenAudit(UntimedAction(a), fmt);
    assert FlattenAudits([UntimedAction(a)], fmt) == [r];
    UntimedActionCells(a, fmt);
    ActionTailLine(a);
    LeadingEmptyCellDropped(Cells(Values(r)));
    AsWrittenSingle(r);
    DropMark(ConvertToCsvAsWritten([r]));
  }

  /** That row reads back as six fields under the seven-column header. */
  lemma UntimedAuditRowReadsShort(a: string, fmt: Value -> string)
    requires Bare(a) && a != ""
    ensures ParseDocument(ExportAuditLogs([UntimedAction(a)], fmt)[1..]) == Some([AuditColumns, [a, "", "", "", "", ""]])
  {
    UntimedAuditRowText(a, fmt);
    var r := FlattenAudit(UntimedAction(a), fmt);
    AuditHeaderSafe(UntimedAction(a), fmt);
    ActionTailLine(a);
    HeaderAndLineRoundTrip(r, ActionTail(a));
  }

  /** The header of a flattened audit record needs no quoting. */
  lemma AuditHeaderSafe(row: LogRow, fmt: Value -> string)
    ensures HeaderSafe(FlattenAudit(row, fmt))
  {
    var r := FlattenAudit(row, fmt);
    ColumnsAreBare();
    forall k | 0 <= k < |r| ensures Bare(r[k].key) {
      assert r[k].key == Keys(r)[k];
    }
  }

  /**
   * A visit logged and then exported shows the client address it was logged
   * with, the path when it was a string, and the method, `GET` when none was
   * given.
   */
  lemma LoggedVisitExports(visits: seq<LogData>, req: Request, path: Value, verb: Value, time: Value, fmt: Value -> string)
    ensures var d := LogVisit(visits, req, path, verb, false).0[|visits|];
      var r := FlattenVisit(LogRow(Some(d), time), fmt);
      r[1].value == Text(ClientIp(req))
      && (path.Str? ==> r[2].value == Text(path.s))
      && (!Truthy(verb) ==> r[3].value == Text("GET"))
      && (verb.Str? && verb.s != "" ==> r[3].value == Text(verb.s))
  {
    var d := LogVisit(visits, req, path, verb, false).0[|visits|];
    RecordedVisitExports(d, req, path, verb, time, fmt);
  }

  lemma RecordedVisitExports(d: LogData, req: Request, path: Value, verb: Value, time: Value, fmt: Value -> string)
    requires VisitRecorded(d, req, path, verb)
    ensures var r := FlattenVisit(LogRow(Some(d), time), fmt);
      r[1].value == Text(ClientIp(req))
      && (path.Str? ==> r[2].value == Text(path.s))
      && (!Truthy(verb) ==> r[3].value == Text("GET"))
      && (verb.Str? && verb.s != "" ==> r[3].value == Text(verb.s))
  {
    var r := FlattenVisit(LogRow(Some(d), time), fmt);
    assert r[1].value == Cell(d, VisitColumns[1]);
    assert r[2].value == Cell(d, VisitColumns[2]);
    assert r[3].value == Cell(d, VisitColumns[3]);
  }

  /**
   * An admin action logged and then exported shows the time it was logged,
   * its stored action type, the request's method and the client address.
   */
  lemma LoggedActionExports(audit: seq<LogData>, req: Request, path: Value, action: Value, errorMessage: Value,
                            now: Value, time: Value, fmt: Value -> string)
    requires ActionType(action).Ok?
    ensures var d := LogAdminAction(audit, req, path, action, errorMessage, now, false).0[|audit|];
      var r := FlattenAudit(LogRow(Some(d), time), fmt);
      (Truthy(now) ==> r[0].value == Text(fmt(now)))
      && r[1].value == Text(ActionType(action).value)
      && r[3].value == Text(req.verb)
      && r[4].value == Text(ClientIp(req))
  {
    var d := LogAdminAction(audit, req, path, action, errorMessage, now, false).0[|audit|];
    RecordedActionExports(d, req, path, ActionType(action).value, errorMessage, now, time, fmt);
  }

  lemma RecordedActionExports(d: LogData, req: Request, path: Value, actionType: string, errorMessage: Value,
                              now: Value, time: Value, fmt: Value -> string)
    requires ActionRecorded(d, req, path, actionType, errorMessage, now)
    ensures var r := FlattenAudit(LogRow(Some(d), time), fmt);
      (Truthy(now) ==> r[0].value == Text(fmt(now)))
      && r[1].value == Text(actionType)
      && r[3].value == Text(req.verb)
      && r[4].value == Text(ClientIp(req))
  {
    var row := LogRow(Some(d), time);
    var r := FlattenAudit(row, fmt);
    assert r[0].value == TimeCell(AuditTime(row), fmt);
    assert r[1].value == Cell(d, AuditColumns[1]);
    assert r[3].value == Cell(d, AuditColumns[3]);
    assert r[4].value == Cell(d, AuditColumns[4]);
  }
}

=== FILE: paths.dfy ===
/**
 * POSIX `path.basename` and `path.extname` as Node.js defines them, and the
 * `pathname` of a WHATWG `URL` for the references the handlers store
 * (`http://host/uploads/x.jpg`, `/uploads/x.jpg`, `uploads/profile/x.jpg`).
 */
module Paths {
  import opened Js

  /** `p` with every trailing `/` removed. */
  function StripTrailingSlashes(p: string): (r: string)
    ensures |r| <= |p| && r == p[..|r|]
    ensures r == "" || r[|r| - 1] != '/'
    ensures forall i :: |r| <= i < |p| ==> p[i] == '/'
    decreases |p|
  {
    if |p| > 0 && p[|p| - 1] == '/' then StripTrailingSlashes(p[..|p| - 1]) else p
  }

  /** The longest suffix of `p` free of `/`. */
  function AfterLastSlash(p: string): (r: string)
    ensures '/' !in r
    ensures |r| <= |p| && r == p[|p| - |r|..]
    ensures |r| < |p| ==> p[|p| - |r| - 1] == '/'
    decreases |p|
  {
    if |p| == 0 || p[|p| - 1] == '/' then "" else AfterLastSlash(p[..|p| - 1]) + [p[|p| - 1]]
  }

  /** `path.basename(p)` */
  function Basename(p: string): (r: string)
    ensures '/' !in r
  {
    AfterLastSlash(StripTrailingSlashes(p))
  }

  /** The basename of a slash-free name is the name itself. */
  lemma BasenameOfName(name: string)
    requires '/' !in name
    ensures Basename(name) == name
  {
  }

  /** `path.basename(path.join(dir, name))` recovers `name`. */
  lemma BasenameOfJoin(dir: string, name: string)
    requires name != "" && '/' !in name
    ensures Basename(dir + "/" + name) == name
  {
    var p := dir + "/" + name;
    assert p[|p| - 1] == name[|name| - 1];
    assert StripTrailingSlashes(p) == p;
    AfterLastSlashOfJoin(dir, name);
  }

  lemma {:induction false} AfterLastSlashOfJoin(dir: string, name: string)
    requires '/' !in name
    ensures AfterLastSlash(dir + "/" + name) == name
    decreases |name|
  {
    var p := dir + "/" + name;
    if |name| > 0 {
      var init := name[..|name| - 1];
      assert p[..|p| - 1] == dir + "/" + init;
      AfterLastSlashOfJoin(dir, init);
      assert init + [name[|name| - 1]] == name;
    } else {
      assert p[|p| - 1] == '/';
    }
  }

  function LastIndexOf(s: string, c: char): (r: Option<nat>)
    ensures r.None? <==> c !in s
    ensures r.Some? ==> r.value < |s| && s[r.value] == c && c !in s[r.value + 1..]
    decreases |s|
  {
    if |s| == 0 then None
    else if s[|s| - 1] == c then Some(|s| - 1)
    else
      var r := LastIndexOf(s[..|s| - 1], c);
      assert s[..|s| - 1] + [s[|s| - 1]] == s;
      r
  }

  lemma AbsentFromSuffix(s: string, k: nat, c: char)
    requires k <= |s|
    ensures c !in s ==> c !in s[k..]
  {
    forall i | 0 <= i < |s| - k ensures s[k..][i] == s[k + i] {
    }
  }

  /**
   * The extension of a basename: the text from its last `.`, except that a
   * name with no dot, a name whose only dot leads it (`.env`) and the name
   * `..` have none. It is always a suffix of the name.
   */
  function ExtOf(b: string): (r: string)
    ensures r == "" || (r[0] == '.' && '.' !in r[1..])
    ensures '/' !in b ==> '/' !in r
    ensures |r| <= |b| && r == b[|b| - |r|..]
  {
    match LastIndexOf(b, '.')
    case None => assert b[|b|..] == ""; ""
    case Some(k) =>
      if k == 0 || b == ".." then assert b[|b|..] == ""; ""
      else
        AbsentFromSuffix(b, k, '/');
        assert b[k..][1..] == b[k + 1..];
        b[k..]
  }

  /** `path.extname(p)`: the extension of the basename. */
  function Extname(p: string): (r: string)
    ensures r == "" || (r[0] == '.' && '.' !in r[1..] && '/' !in r)
    ensures |r| <= |Basename(p)| && r == Basename(p)[|Basename(p)| - |r|..]
  {
    ExtOf(Basename(p))
  }

  /** The last `c` in `s` is at `k` when `s[k]` is `c` and none follows it. */
  lemma {:induction false} LastIndexOfUnique(s: string, c: char, k: nat)
    requires k < |s| && s[k] == c && c !in s[k + 1..]
    ensures LastIndexOf(s, c) == Some(k)
    decreases |s|
  {
    var last := |s| - 1;
    if k < last {
      assert s[last] in s[k + 1..];
      var init := s[..last];
      assert init[k + 1..] == s[k + 1..last];
      LastIndexOfUnique(init, c, k);
    }
  }

  /**
   * A name made of a non-empty stem free of dots and slashes, followed by an
   * extension as `path.extname` returns one, has that extension.
   */
  lemma ExtnameOfSuffix(stem: string, e: string)
    requires stem != "" && '.' !in stem && '/' !in stem
    requires e == "" || (e[0] == '.' && '.' !in e[1..] && '/' !in e)
    ensures Extname(stem + e) == e
  {
    var name := stem + e;
    BasenameOfName(name);
    if e == "" {
      assert name == stem;
    } else {
      var k := |stem|;
      assert name[k] == '.';
      assert name[k + 1..] == e[1..];
      LastIndexOfUnique(name, '.', k);
      assert name[0] == stem[0];
      assert name[k..] == e;
    }
  }

  /**
   * A stored filename `stem + path.extname(original)` keeps the original
   * extension whenever the stem is non-empty and free of dots and slashes.
   */
  lemma ExtnameOfStoredName(stem: string, original: string)
    requires stem != "" && '.' !in stem && '/' !in stem
    ensures Extname(stem + Extname(original)) == Extname(original)
  {
    ExtnameOfSuffix(stem, Extname(original));
  }

  // ---------------------------------------------------------------------
  // URL pathname
  // ---------------------------------------------------------------------

  predicate SchemeChar(c: char) {
    'a' <= c <= 'z' || 'A' <= c <= 'Z' || '0' <= c <= '9' || c == '+' || c == '-' || c == '.'
  }

  /** A URL scheme: an ASCII letter followed by letters, digits, `+`, `-` or `.`. */
  predicate ValidScheme(s: string) {
    |s| >= 1 && ('a' <= s[0] <= 'z' || 'A' <= s[0] <= 'Z')
    && forall i :: 0 <= i < |s| ==> SchemeChar(s[i])
  }

  /** Index of the first character of `s` that is in `cs`, or `|s|`. */
  function IndexOfAny(s: string, cs: set<char>): (i: nat)
    ensures i <= |s|
    ensures forall k :: 0 <= k < i ==> s[k] !in cs
    ensures i < |s| ==> s[i] in cs
  {
    if |s| == 0 then 0
    else if s[0] in cs then 0
    else 1 + IndexOfAny(s[1..], cs)
  }

  /** Skips the authority of `//authority/path`, given what follows `//`. */
  function DropAuthority(t: string): string {
    t[IndexOfAny(t, {'/', '?', '#'})..]
  }

  /**
   * `new URL(s).pathname`, or `None` where the constructor throws because
   * `s` has no scheme. The path ends at the query or the fragment.
   */
  function UrlPathname(s: string): (r: Option<string>)
    ensures r.Some? ==> '?' !in r.value && '#' !in r.value
    ensures ':' !in s ==> r.None?
  {
    var colon := IndexOf(s, ':');
    if colon == |s| || !ValidScheme(s[..colon]) then None
    else Some(PathAfterScheme(s[colon + 1..]))
  }

  /** The pathname of a URL, given what follows `scheme:`. */
  function PathAfterScheme(rest: string): (r: string)
    ensures '?' !in r && '#' !in r
  {
    var path := if StartsWith(rest, "//") then DropAuthority(rest[2..]) else rest;
    path[..IndexOfAny(path, {'?', '#'})]
  }

  lemma {:induction false} IndexOfAfter(a: string, b: string, c: char)
    requires c !in a
    ensures IndexOf(a + b, c) == |a| + IndexOf(b, c)
    decreases |a|
  {
    if |a| > 0 {
      assert (a + b)[1..] == a[1..] + b;
      IndexOfAfter(a[1..], b, c);
    } else {
      assert a + b == b;
    }
  }

  lemma {:induction false} IndexOfAnyAfter(a: string, b: string, cs: set<char>)
    requires forall k :: 0 <= k < |a| ==> a[k] !in cs
    ensures IndexOfAny(a + b, cs) == |a| + IndexOfAny(b, cs)
    decreases |a|
  {
    if |a| > 0 {
      assert (a + b)[1..] == a[1..] + b;
      IndexOfAnyAfter(a[1..], b, cs);
    } else {
      assert a + b == b;
    }
  }

  lemma SchemeHasNoColon(scheme: string)
    requires ValidScheme(scheme)
    ensures ':' !in scheme
  {
    forall k | 0 <= k < |scheme| ensures scheme[k] != ':' {
      assert SchemeChar(scheme[k]);
    }
  }

  lemma NoQueryMeansWholePath(path: string)
    requires '?' !in path && '#' !in path
    ensures IndexOfAny(path, {'?', '#'}) == |path|
  {
  }

  lemma DropAuthorityOfHostPath(host: string, path: string)
    requires forall k :: 0 <= k < |host| ==> host[k] !in {'/', '?', '#'}
    requires path == "" || path[0] == '/'
    ensures DropAuthority(host + path) == path
  {
    IndexOfAnyAfter(host, path, {'/', '?', '#'});
    assert IndexOfAny(path, {'/', '?', '#'}) == 0;
    assert (host + path)[|host|..] == path;
  }

  lemma UrlPathnameAfterScheme(scheme: string, rest: string)
    requires ValidScheme(scheme)
    ensures UrlPathname(scheme + ":" + rest) == Some(PathAfterScheme(rest))
  {
    var s := scheme + (":" + rest);
    assert s == scheme + ":" + rest;
    SchemeHasNoColon(scheme);
    IndexOfAfter(scheme, ":" + rest, ':');
    assert s[..|scheme|] == scheme;
    assert s[|scheme| + 1..] == rest;
  }

  lemma PathAfterSchemeOfAuthority(host: string, path: string)
    requires forall k :: 0 <= k < |host| ==> host[k] !in {'/', '?', '#'}
    requires path == "" || path[0] == '/'
    requires '?' !in path && '#' !in path
    ensures PathAfterScheme("//" + host + path) == path
  {
    var rest := "//" + host + path;
    assert StartsWith(rest, "//");
    assert rest[2..] == host + path;
    DropAuthorityOfHostPath(host, path);
    NoQueryMeansWholePath(path);
  }

  lemma SeqAssoc(scheme: string, host: string, path: string)
    ensures scheme + "://" + host + path == scheme + ":" + ("//" + host + path)
  {
    var a := scheme + "://" + host + path;
    var b := scheme + ":" + ("//" + host + path);
    assert |a| == |b|;
    forall i | 0 <= i < |a| ensures a[i] == b[i] {
    }
  }

  /** The pathname of `scheme://host/path` is `/path`. */
  lemma UrlPathnameOfAbsolute(scheme: string, host: string, path: string)
    requires ValidScheme(scheme)
    requires forall k :: 0 <= k < |host| ==> host[k] !in {'/', '?', '#'}
    requires path == "" || path[0] == '/'
    requires '?' !in path && '#' !in path
    ensures UrlPathname(scheme + "://" + host + path) == Some(path)
  {
    var rest := "//" + host + path;
    UrlPathnameAfterScheme(scheme, rest);
    PathAfterSchemeOfAuthority(host, path);
    assert scheme + "://" + host + path == scheme + ":" + rest by {
      SeqAssoc(scheme, host, path);
    }
  }

  /** A path that starts with `/` is not a URL: `new URL` throws on it. */
  lemma RootedPathIsNotUrl(p: string)
    requires |p| > 0 && p[0] == '/'
    ensures UrlPathname(p).None?
  {
    var colon := IndexOf(p, ':');
    if colon < |p| {
      assert colon > 0;
      assert !ValidScheme(p[..colon]);
    }
  }
}

=== FILE: product.dfy ===
/**
 * `POST /product/add` of app/routes/product.js: validation of the three
 * required fields and the defaults for the two optional ones. Deletion is
 * `Store.DeleteRow`; the search builder is `Queries.ProductSearch`.
 */
module Product {
  import opened Js
  import opened Store

  const DefaultProductImage := "default_product.jpg"

  /** `!artisan_id || !product_name || !price_range` */
  predicate Incomplete(body: Row) {
    !Truthy(Get(body, "artisan_id")) || !Truthy(Get(body, "product_name")) || !Truthy(Get(body, "price_range"))
  }

  /** The inserted row: the required fields as given, `description || ''`, `product_img || 'default_product.jpg'`. */
  function ProductRow(body: Row): (row: Row)
    ensures forall c :: c in {"artisan_id", "product_name", "price_range"} ==> Get(row, c) == Get(body, c)
    ensures Get(row, "description") == (if Truthy(Get(body, "description")) then Get(body, "description") else Str(""))
    ensures Get(row, "product_img") == (if Truthy(Get(body, "product_img")) then Get(body, "product_img") else Str(DefaultProductImage))
    ensures row.Keys == {"artisan_id", "product_name", "price_range", "description", "product_img"}
  {
    map["artisan_id" := Get(body, "artisan_id"), "product_name" := Get(body, "product_name"),
        "price_range" := Get(body, "price_range"),
        "description" := OrText(Get(body, "description"), ""),
        "product_img" := OrText(Get(body, "product_img"), DefaultProductImage)]
  }

  /** `POST /product/add`: 400 before any insert when a required field is missing, else 201 or 500. */
  function Add(products: Table, body: Row, rejects: Row -> bool): (r: (Table, int))
    requires Valid(products)
    ensures Valid(r.0)
    ensures r.1 == 400 <==> Incomplete(body)
    ensures r.1 != 201 ==> r.0 == products
    ensures r.1 == 201 <==> !Incomplete(body) && !rejects(ProductRow(body))
    ensures r.1 == 201 ==> exists id :: id !in products.rows && r.0.rows == products.rows[id := ProductRow(body)]
  {
    if Incomplete(body) then (products, 400)
    else if rejects(ProductRow(body)) then (products, 500)
    else
      var (t, id) := Insert(products, ProductRow(body));
      (t, 201)
  }

  /**
   * The stored product sits under the sequence's next id and always has a
   * picture: the one given when it is truthy, else the default.
   */
  lemma StoredProductHasImage(products: Table, body: Row, rejects: Row -> bool)
    requires Valid(products)
    requires Add(products, body, rejects).1 == 201
    ensures var t := Add(products, body, rejects).0;
      products.nextId in t.rows && products.nextId !in products.rows
      && Truthy(Get(t.rows[products.nextId], "product_img"))
      && (Truthy(Get(body, "product_img")) ==> Get(t.rows[products.nextId], "product_img") == Get(body, "product_img"))
  {
    var (t, _) := Add(products, body, rejects);
    assert t == Insert(products, ProductRow(body)).0;
  }

  /**
   * `DELETE /product/delete/:id` of the product just added answers 200 and
   * gives the table's rows back.
   */
  lemma AddThenDeleteRestores(products: Table, body: Row, rejects: Row -> bool)
    requires Valid(products)
    requires Add(products, body, rejects).1 == 201
    ensures var t := Add(products, body, rejects).0;
      DeleteRow(t, products.nextId, false).1 == 200 && DeleteRow(t, products.nextId, false).0.rows == products.rows
  {
    var (t, _) := Add(products, body, rejects);
    assert t == Insert(products, ProductRow(body)).0;
    DeleteUndoesInsert(products, ProductRow(body));
  }
}

=== FILE: queries.dfy ===
/**
 * The parameterised SQL the listing and search routes build: text with
 * `$k` placeholders and the parameter array sent with it. The property
 * that matters is that the placeholders and the array stay in lock-step,
 * and that each placeholder compares the intended column with the
 * intended value.
 */
module Queries {
  import opened Js

  /**
   * A piece of query text: literal SQL, the placeholder `$k` compared with
   * `column`, or a comparison of `column` with a constant written into the text.
   */
  datatype Piece = Sql(s: string) | Param(column: string, k: nat) | Fixed(column: string, value: Value)

  datatype Query = Query(text: seq<Piece>, params: seq<Value>)

  /** The placeholder numbers the text uses. */
  function SlotSet(text: seq<Piece>): set<nat>
    decreases |text|
  {
    if |text| == 0 then {} else (if text[0].Param? then {text[0].k} else {}) + SlotSet(text[1..])
  }

  /** `{1, ..., n}` */
  function Range(n: nat): (r: set<nat>)
    ensures forall k :: k in r <==> 1 <= k <= n
  {
    if n == 0 then {} else Range(n - 1) + {n}
  }

  /** Placeholders `$1` to `$n` are all used, and no other, for `n` parameters. */
  predicate LockStep(q: Query) {
    SlotSet(q.text) == Range(|q.params|)
  }

  /** The value `$k` stands for. */
  function Bind(params: seq<Value>, k: nat): Value {
    if 1 <= k <= |params| then params[k - 1] else Undefined
  }

  /** The comparison a piece performs, if any. */
  function PieceFilter(p: Piece, params: seq<Value>): seq<(string, Value)> {
    match p
    case Sql(_) => []
    case Param(column, k) => [(column, Bind(params, k))]
    case Fixed(column, v) => [(column, v)]
  }

  /** The comparisons the query performs, in text order, with each placeholder bound. */
  function Filters(text: seq<Piece>, params: seq<Value>): seq<(string, Value)>
    decreases |text|
  {
    if |text| == 0 then [] else PieceFilter(text[0], params) + Filters(text[1..], params)
  }

  /** `%search%`: the `ILIKE` pattern of a search term. */
  function Like(search: Value): Value {
    Str("%" + ToText(search) + "%")
  }

  lemma FiltersCons(p: Piece, rest: seq<Piece>, params: seq<Value>)
    ensures Filters([p] + rest, params) == PieceFilter(p, params) + Filters(rest, params)
  {
    assert ([p] + rest)[1..] == rest;
  }

  lemma SlotSetCons(p: Piece, rest: seq<Piece>)
    ensures SlotSet([p] + rest) == (if p.Param? then {p.k} else {}) + SlotSet(rest)
  {
    assert ([p] + rest)[1..] == rest;
  }

  lemma {:induction false} SlotSetAppend(a: seq<Piece>, b: seq<Piece>)
    ensures SlotSet(a + b) == SlotSet(a) + SlotSet(b)
    decreases |a|
  {
    if |a| == 0 {
      assert a + b == b;
    } else {
      assert (a + b)[1..] == a[1..] + b;
      SlotSetAppend(a[1..], b);
    }
  }

  lemma {:induction false} FiltersAppend(a: seq<Piece>, b: seq<Piece>, params: seq<Value>)
    ensures Filters(a + b, params) == Filters(a, params) + Filters(b, params)
    decreases |a|
  {
    if |a| == 0 {
      assert a + b == b;
    } else {
      assert (a + b)[1..] == a[1..] + b;
      FiltersAppend(a[1..], b, params);
    }
  }

  /** Appending a parameter does not change what the placeholders already in the text are bound to. */
  lemma {:induction false} FiltersExtend(text: seq<Piece>, params: seq<Value>, v: Value)
    requires SlotSet(text) <= Range(|params|)
    ensures Filters(text, params + [v]) == Filters(text, params)
    decreases |text|
  {
    if |text| > 0 {
      FiltersExtend(text[1..], params, v);
    }
  }

  /**
   * Appending a condition whose only placeholder is the next number, together
   * with its parameter, keeps the query in lock-step and adds the
   * condition's comparisons after the existing ones.
   */
  lemma AddCondition(q: Query, pieces: seq<Piece>, v: Value)
    requires LockStep(q)
    requires SlotSet(pieces) == {|q.params| + 1}
    ensures var q' := Query(q.text + pieces, q.params + [v]);
      LockStep(q') && Bind(q'.params, |q.params| + 1) == v
      && Filters(q'.text, q'.params) == Filters(q.text, q.params) + Filters(pieces, q'.params)
  {
    SlotSetAppend(q.text, pieces);
    FiltersAppend(q.text, pieces, q.params + [v]);
    FiltersExtend(q.text, q.params, v);
  }

  // ---------------------------------------------------------------------
  // The public artisan listing (GET / of app/routes/artisan.js)
  // ---------------------------------------------------------------------

  const ListingSelect := "SELECT artisan_id, fname, lname, profile_img, category_name, province FROM artisan JOIN category ON artisan.category_id = category.category_id WHERE "

  const Published := "เผยแพร่"

  /** Only published artisans are listed. */
  const StatusFilter: (string, Value) := ("artisan.status", Str(Published))

  const AllChoices := "ทั้งหมด"

  /** A category or province filter applies: a value was given and it is not "all". */
  predicate Chosen(v: Value) {
    Truthy(v) && v != Str(AllChoices)
  }

  function SearchPieces(n: nat): seq<Piece> {
    [Sql(" AND (fname ILIKE "), Param("fname", n), Sql(" OR lname ILIKE "), Param("lname", n), Sql(")")]
  }

  function EqualsPieces(column: string, n: nat): seq<Piece> {
    [Sql(" AND " + column + " = "), Param(column, n)]
  }

  lemma SearchPiecesSlots(n: nat, params: seq<Value>)
    ensures SlotSet(SearchPieces(n)) == {n}
    ensures Filters(SearchPieces(n), params) == [("fname", Bind(params, n)), ("lname", Bind(params, n))]
  {
    var e: seq<Piece> := [];
    var p5 := [Sql(")")] + e;
    var p4 := [Param("lname", n)] + p5;
    var p3 := [Sql(" OR lname ILIKE ")] + p4;
    var p2 := [Param("fname", n)] + p3;
    var p1 := [Sql(" AND (fname ILIKE ")] + p2;
    assert p1 == SearchPieces(n);
    assert SlotSet(e) == {} && Filters(e, params) == [];
    SlotSetCons(Sql(")"), e); FiltersCons(Sql(")"), e, params);
    SlotSetCons(Param("lname", n), p5); FiltersCons(Param("lname", n), p5, params);
    SlotSetCons(Sql(" OR lname ILIKE "), p4); FiltersCons(Sql(" OR lname ILIKE "), p4, params);
    SlotSetCons(Param("fname", n), p3); FiltersCons(Param("fname", n), p3, params);
    SlotSetCons(Sql(" AND (fname ILIKE "), p2); FiltersCons(Sql(" AND (fname ILIKE "), p2, params);
  }

  lemma EqualsPiecesSlots(column: string, n: nat, params: seq<Value>)
    ensures SlotSet(EqualsPieces(column, n)) == {n}
    ensures Filters(EqualsPieces(column, n), params) == [(column, Bind(params, n))]
  {
    var e: seq<Piece> := [];
    var p2 := [Param(column, n)] + e;
    var p1 := [Sql(" AND " + column + " = ")] + p2;
    assert p1 == EqualsPieces(column, n);
    assert SlotSet(e) == {} && Filters(e, params) == [];
    SlotSetCons(Param(column, n), e); FiltersCons(Param(column, n), e, params);
    SlotSetCons(Sql(" AND " + column + " = "), p2); FiltersCons(Sql(" AND " + column + " = "), p2, params);
  }

  function SearchParam(search: Value): seq<Value> {
    if Truthy(search) then [Like(search)] else []
  }

  function ChoiceParam(v: Value): seq<Value> {
    if Chosen(v) then [v] else []
  }

  function SearchFilters(search: Value): seq<(string, Value)> {
    if Truthy(search) then [("fname", Like(search)), ("lname", Like(search))] else []
  }

  function ChoiceFilter(column: string, v: Value): seq<(string, Value)> {
    if Chosen(v) then [(column, v)] else []
  }

  /**
   * The comparisons the listing should perform for the given query string:
   * the status, then the name search on both name columns, then the category, then the
   * province, each only when given.
   */
  function ListingFilters(search: Value, category: Value, province: Value): seq<(string, Value)> {
    [StatusFilter] + SearchFilters(search) + ChoiceFilter("category_name", category) + ChoiceFilter("province", province)
  }

  /**
   * The listing query, built as the handler builds it: a running
   * `paramCount` that names the next placeholder, and the parameter array
   * pushed in step.
   */
  method ListingQuery(search: Value, category: Value, province: Value) returns (q: Query)
    ensures LockStep(q)
    ensures Filters(q.text, q.params) == ListingFilters(search, category, province)
    ensures q.params == SearchParam(search) + ChoiceParam(category) + ChoiceParam(province)
  {
    q := ListingStart();
    var paramCount: nat := 1;
    ghost var before, countBefore := q, paramCount;

    if Truthy(search) {
      q := AddSearch(q, paramCount, Like(search));
      paramCount := paramCount + 1;
    }
    SearchStage(before, q, countBefore, paramCount, search);
    before, countBefore := q, paramCount;

    if Chosen(category) {
      q := AddEquals(q, "category_name", paramCount, category);
      paramCount := paramCount + 1;
    }
    ChoiceStage(before, q, countBefore, paramCount, SearchParam(search),
      [StatusFilter] + SearchFilters(search), "category_name", category);
    before, countBefore := q, paramCount;

    if Chosen(province) {
      q := AddEquals(q, "province", paramCount, province);
      paramCount := paramCount + 1;
    }
    ChoiceStage(before, q, countBefore, paramCount, SearchParam(search) + ChoiceParam(category),
      [StatusFilter] + SearchFilters(search) + ChoiceFilter("category_name", category), "province", province);
  }

  /** The optional search step of the listing, from the base query. */
  lemma SearchStage(q0: Query, q1: Query, count0: nat, count1: nat, search: Value)
    requires Stage(q0, count0, [], [StatusFilter])
    requires if Truthy(search) then q1 == AddSearch(q0, count0, Like(search)) && count1 == count0 + 1
             else q1 == q0 && count1 == count0
    ensures Stage(q1, count1, SearchParam(search), [StatusFilter] + SearchFilters(search))
  {
  }

  /** An optional equality step of the listing. */
  lemma ChoiceStage(q0: Query, q1: Query, count0: nat, count1: nat, ps: seq<Value>, fs: seq<(string, Value)>,
                    column: string, v: Value)
    requires Stage(q0, count0, ps, fs)
    requires if Chosen(v) then q1 == AddEquals(q0, column, count0, v) && count1 == count0 + 1
             else q1 == q0 && count1 == count0
    ensures Stage(q1, count1, ps + ChoiceParam(v), fs + ChoiceFilter(column, v))
  {
    if !Chosen(v) {
      assert ps + ChoiceParam(v) == ps;
      assert fs + ChoiceFilter(column, v) == fs;
    }
  }

  /**
   * What holds between the handler's steps: the placeholders and parameters
   * are in lock-step, `paramCount` names the next placeholder, and the
   * comparisons so far are `fs`.
   */
  predicate Stage(q: Query, paramCount: nat, ps: seq<Value>, fs: seq<(string, Value)>) {
    LockStep(q) && paramCount == |q.params| + 1 && q.params == ps
    && Filters(q.text, q.params) == fs
  }

  /** The listing's base query, which already filters on the status. */
  function ListingStart(): (q: Query)
    ensures q.params == [] && LockStep(q) && Filters(q.text, q.params) == [StatusFilter]
  {
    var e: seq<Piece> := [];
    var p2 := [Fixed(StatusFilter.0, StatusFilter.1)] + e;
    SlotSetCons(Fixed(StatusFilter.0, StatusFilter.1), e);
    FiltersCons(Fixed(StatusFilter.0, StatusFilter.1), e, []);
    SlotSetCons(Sql(ListingSelect), p2);
    FiltersCons(Sql(ListingSelect), p2, []);
    Query([Sql(ListingSelect)] + p2, [])
  }

  /** `queryText += ' AND (fname ILIKE $n OR lname ILIKE $n)'; queryParams.push(v)` */
  function AddSearch(q: Query, n: nat, v: Value): (r: Query)
    requires LockStep(q) && n == |q.params| + 1
    ensures LockStep(r)
    ensures r.params == q.params + [v]
    ensures |r.text| >= |q.text| && r.text[..|q.text|] == q.text
    ensures Filters(r.text, r.params) == Filters(q.text, q.params) + [("fname", v), ("lname", v)]
  {
    SearchPiecesSlots(n, q.params + [v]);
    AddCondition(q, SearchPieces(n), v);
    Query(q.text + SearchPieces(n), q.params + [v])
  }

  /** `queryText += ' AND <column> = $n'; queryParams.push(v)` */
  function AddEquals(q: Query, column: string, n: nat, v: Value): (r: Query)
    requires LockStep(q) && n == |q.params| + 1
    ensures LockStep(r)
    ensures r.params == q.params + [v]
    ensures |r.text| >= |q.text| && r.text[..|q.text|] == q.text
    ensures Filters(r.text, r.params) == Filters(q.text, q.params) + [(column, v)]
  {
    EqualsPiecesSlots(column, n, q.params + [v]);
    AddCondition(q, EqualsPieces(column, n), v);
    Query(q.text + EqualsPieces(column, n), q.params + [v])
  }

  // ---------------------------------------------------------------------
  // One-placeholder searches
  // ---------------------------------------------------------------------

  /** `col1 ILIKE $1 OR col2 ILIKE $1 OR ...` */
  function AnyLike(columns: seq<string>): seq<Piece>
    decreases |columns|
  {
    if |columns| == 0 then []
    else
      LikeHead(columns[0])
      + (if |columns| > 1 then [Sql(" OR ")] + AnyLike(columns[1..]) else [])
  }

  lemma {:induction false} AnyLikeSlots(columns: seq<string>, params: seq<Value>)
    requires |columns| >= 1
    ensures SlotSet(AnyLike(columns)) == {1}
    ensures Filters(AnyLike(columns), params) == seq(|columns|, i requires 0 <= i < |columns| => (columns[i], Bind(params, 1)))
    decreases |columns|
  {
    var tail: seq<Piece> := if |columns| > 1 then [Sql(" OR ")] + AnyLike(columns[1..]) else [];
    assert AnyLike(columns) == LikeHead(columns[0]) + tail;
    LikeHeadSlots(columns[0], tail, params);
    if |columns| > 1 {
      AnyLikeSlots(columns[1..], params);
      SlotSetCons(Sql(" OR "), AnyLike(columns[1..]));
      FiltersCons(Sql(" OR "), AnyLike(columns[1..]), params);
    }
  }

  /** `column ILIKE $1` */
  function LikeHead(column: string): seq<Piece> {
    [Sql(column + " ILIKE "), Param(column, 1)]
  }

  lemma LikeHeadSlots(column: string, tail: seq<Piece>, params: seq<Value>)
    ensures SlotSet(LikeHead(column) + tail) == {1} + SlotSet(tail)
    ensures Filters(LikeHead(column) + tail, params) == [(column, Bind(params, 1))] + Filters(tail, params)
  {
    var p2 := [Param(column, 1)] + tail;
    assert LikeHead(column) + tail == [Sql(column + " ILIKE ")] + p2;
    SlotSetCons(Param(column, 1), tail); FiltersCons(Param(column, 1), tail, params);
    SlotSetCons(Sql(column + " ILIKE "), p2); FiltersCons(Sql(column + " ILIKE "), p2, params);
  }

  /**
   * `base [WHERE c1 ILIKE $1 OR ...] order`: one parameter `%search%` when
   * a search term is given, none otherwise, and the ordering always last.
   */
  function SearchQuery(base: string, columns: seq<string>, order: string, search: Value): (q: Query)
    requires |columns| >= 1
    ensures LockStep(q)
    ensures |q.params| == (if Truthy(search) then 1 else 0)
    ensures Truthy(search) ==> q.params == [Like(search)]
    ensures |q.text| >= 2 && q.text[0] == Sql(base) && q.text[|q.text| - 1] == Sql(order)
    ensures Filters(q.text, q.params) ==
      if Truthy(search) then seq(|columns|, i requires 0 <= i < |columns| => (columns[i], Like(search))) else []
  {
    var cond := if Truthy(search) then [Sql(" WHERE ")] + AnyLike(columns) else [];
    var params := if Truthy(search) then [Like(search)] else [];
    var q := Query([Sql(base)] + cond + [Sql(order)], params);
    SearchQuerySlots(base, columns, order, search, cond, params);
    q
  }

  lemma SearchQuerySlots(base: string, columns: seq<string>, order: string, search: Value,
                         cond: seq<Piece>, params: seq<Value>)
    requires |columns| >= 1
    requires cond == if Truthy(search) then [Sql(" WHERE ")] + AnyLike(columns) else []
    requires params == if Truthy(search) then [Like(search)] else []
    ensures SlotSet([Sql(base)] + cond + [Sql(order)]) == Range(|params|)
    ensures Filters([Sql(base)] + cond + [Sql(order)], params) ==
      if Truthy(search) then seq(|columns|, i requires 0 <= i < |columns| => (columns[i], Like(search))) else []
  {
    Frame(base, cond, order, params);
    if Truthy(search) {
      WhereClause(columns, params);
      assert Bind(params, 1) == Like(search);
    }
  }

  /** A literal head and tail around a condition add no placeholder and no comparison. */
  lemma Frame(base: string, cond: seq<Piece>, order: string, params: seq<Value>)
    ensures SlotSet([Sql(base)] + cond + [Sql(order)]) == SlotSet(cond)
    ensures Filters([Sql(base)] + cond + [Sql(order)], params) == Filters(cond, params)
  {
    var z: seq<Piece> := [Sql(order)];
    var e: seq<Piece> := [];
    assert z == [Sql(order)] + e;
    SlotSetCons(Sql(order), e); FiltersCons(Sql(order), e, params);
    SlotSetAppend(cond, z);
    FiltersAppend(cond, z, params);
    SlotSetCons(Sql(base), cond + z); FiltersCons(Sql(base), cond + z, params);
    assert [Sql(base)] + cond + [Sql(order)] == [Sql(base)] + (cond + z);
  }

  lemma WhereClause(columns: seq<string>, params: seq<Value>)
    requires |columns| >= 1
    ensures SlotSet([Sql(" WHERE ")] + AnyLike(columns)) == {1}
    ensures Filters([Sql(" WHERE ")] + AnyLike(columns), params) ==
      seq(|columns|, i requires 0 <= i < |columns| => (columns[i], Bind(params, 1)))
  {
    AnyLikeSlots(columns, params);
    SlotSetCons(Sql(" WHERE "), AnyLike(columns));
    FiltersCons(Sql(" WHERE "), AnyLike(columns), params);
  }

  const ProductBase := "SELECT product.*, artisan.fname, artisan.lname FROM product JOIN artisan ON product.artisan_id = artisan.artisan_id"
  const ProductColumns: seq<string> := ["product.product_name", "product.description", "artisan.fname", "artisan.lname"]
  const ProductOrder := " ORDER BY product.product_id DESC"

  /** `GET /products` of app/routes/product.js. */
  function ProductSearch(search: Value): Query {
    SearchQuery(ProductBase, ProductColumns, ProductOrder, search)
  }

  const UserBase := "SELECT user_id, username, fname, lname, profile_img, phone_number, role FROM users"
  const UserColumns: seq<string> := ["fname", "lname", "username"]
  const UserOrder := " ORDER BY user_id DESC"

  /** `GET /users` of app/routes/admin.js. */
  function UserSearch(search: Value): Query {
    SearchQuery(UserBase, UserColumns, UserOrder, search)
  }

  const AdminArtisanBase := "SELECT artisan.artisan_id, artisan.fname, artisan.lname, artisan.province, category.category_name, artisan.profile_img, artisan.status, artisan.updated_at FROM artisan JOIN category ON artisan.category_id = category.category_id"
  const AdminArtisanColumns: seq<string> := ["artisan.fname", "artisan.lname", "category.category_name"]
  const AdminArtisanOrder := " ORDER BY artisan.artisan_id DESC"

  /** `GET /artisans-data` of app/routes/admin.js. */
  function AdminArtisanSearch(search: Value): Query {
    SearchQuery(AdminArtisanBase, AdminArtisanColumns, AdminArtisanOrder, search)
  }

  const SkillBase := "SELECT artisan_skill.*, category.category_name, artisan.fname, artisan.lname, artisan.nickname, artisan.address, artisan.phone FROM artisan_skill JOIN category ON artisan_skill.category_id = category.category_id JOIN artisan ON artisan_skill.artisan_id = artisan.artisan_id"
  const SkillColumns: seq<string> := ["artisan.fname", "artisan.lname", "category.category_name", "artisan_skill.specialty_detail", "artisan.address"]
  const SkillOrder := " ORDER BY artisan.artisan_id DESC"

  /** `GET /artisans-data` of app/routes/artisan.js. */
  function SkillSearch(search: Value): Query {
    SearchQuery(SkillBase, SkillColumns, SkillOrder, search)
  }

  /** The product search compares all four columns with `%search%`, or nothing without a term. */
  lemma ProductSearchFilters(search: Value)
    ensures var q := ProductSearch(search);
      LockStep(q) && q.text[|q.text| - 1] == Sql(ProductOrder)
      && (Truthy(search) ==> |Filters(q.text, q.params)| == 4 && forall f :: f in Filters(q.text, q.params) ==> f.1 == Like(search))
      && (!Truthy(search) ==> q.params == [] && Filters(q.text, q.params) == [])
  {
  }
}

=== FILE: session.dfy ===
/**
 * `authenticateToken` (app/middleware/authMiddleware.js): where the session
 * token is read from, and the three ways a guarded request can end.
 */
module Session {
  import opened Js
  import opened Http

  /** `req.cookies.token` */
  function CookieToken(req: Request): Value {
    if "token" in req.cookies then Str(req.cookies["token"]) else Undefined
  }

  /** `authorization && authorization.split(' ')[1]` */
  function BearerToken(req: Request): Value {
    var h := Header(req, "authorization");
    if !Truthy(h) then h
    else
      var parts := Split(h.s, ' ');
      if |parts| > 1 then Str(parts[1]) else Undefined
  }

  /** The token: the `token` cookie when it is non-empty, else the header's second word. */
  function TokenOf(req: Request): (t: Value)
    ensures Truthy(CookieToken(req)) ==> t == CookieToken(req)
    ensures !Truthy(CookieToken(req)) ==> t == BearerToken(req)
    ensures Truthy(t) ==> t.Str?
  {
    Or(CookieToken(req), BearerToken(req))
  }

  /** The cookie wins even when an `Authorization` header is also sent. */
  lemma CookieWins(req: Request, header: string)
    requires "token" in req.cookies && req.cookies["token"] != ""
    ensures TokenOf(req.(headers := req.headers["authorization" := header])) == Str(req.cookies["token"])
  {
  }

  /** Without a cookie, `Authorization: Bearer <t>` yields `t`. */
  lemma {:induction false} BearerHeaderYieldsToken(req: Request, t: string)
    requires "token" !in req.cookies
    requires t != "" && ' ' !in t
    requires "authorization" in req.headers && req.headers["authorization"] == "Bearer " + t
    ensures TokenOf(req) == Str(t)
  {
    var h := "Bearer " + t;
    assert h[..6] == "Bearer";
    assert IndexOf(h, ' ') == 6;
    assert h[7..] == t;
    assert Split(t, ' ') == [t];
    assert Split(h, ' ') == ["Bearer", t];
  }

  /**
   * How the middleware ends a request: the status it answers with (none when
   * it hands over), the cookies it clears, the identity it attaches to the
   * request, and how often it calls `next`.
   */
  datatype Gate = Gate(status: Option<int>, cleared: seq<string>, user: Option<Claims>, nextCalls: nat)

  /**
   * `authenticateToken`, with `jwt.verify` as `verify`: 401 without a token,
   * 403 and a cleared `token` cookie when verification fails, otherwise
   * `req.user` set and `next` called once.
   */
  function Authenticate(req: Request, verify: string -> Option<Claims>): (g: Gate)
    ensures g.nextCalls <= 1
    ensures g.nextCalls == 1 <==> Truthy(TokenOf(req)) && verify(TokenOf(req).s).Some?
    ensures g.nextCalls == 1 ==> g.status.None? && g.cleared == [] && g.user == verify(TokenOf(req).s)
    ensures !Truthy(TokenOf(req)) ==> g.status == Some(401) && g.cleared == [] && g.user.None?
    ensures Truthy(TokenOf(req)) && verify(TokenOf(req).s).None? ==>
      g.status == Some(403) && g.cleared == ["token"] && g.user.None?
  {
    var token := TokenOf(req);
    if !Truthy(token) then Gate(Some(401), [], None, 0)
    else match verify(token.s)
      case None => Gate(Some(403), ["token"], None, 0)
      case Some(user) => Gate(None, [], Some(user), 1)
  }

  /** The browser's cookie jar after the response clears `names`. */
  function ClearCookies(jar: map<string, string>, names: seq<string>): (r: map<string, string>)
    ensures forall n :: n in names ==> n !in r
    ensures forall n :: n in jar && n !in names ==> n in r && r[n] == jar[n]
  {
    map n | n in jar && n !in names :: jar[n]
  }

  /**
   * After a 403 the browser drops the bad cookie, so the next request with no
   * `Authorization` header ends with 401 instead of looping on 403.
   */
  lemma RejectedCookieIsNotResent(req: Request, verify: string -> Option<Claims>)
    requires "authorization" !in req.headers
    requires Authenticate(req, verify).status == Some(403)
    ensures var next := req.(cookies := ClearCookies(req.cookies, Authenticate(req, verify).cleared));
      Authenticate(next, verify).status == Some(401)
  {
    var next := req.(cookies := ClearCookies(req.cookies, ["token"]));
    assert "token" !in next.cookies;
  }
}

=== FILE: store.dfy ===
/**
 * The PostgreSQL tables as abstract state: a table keyed by its serial id,
 * and the ordered result of a filtered `SELECT`, whose `rows[0]` is what the
 * handlers read.
 */
module Store {
  import opened Js

  /** A row as `pg` returns it: column name to value. */
  type Row = map<string, Value>

  /** `pg` sends an `undefined` query parameter as NULL and every other value as it is. */
  function AsParam(v: Value): (p: Value)
    ensures p != Undefined
    ensures v != Undefined ==> p == v
  {
    if v == Undefined then Null else v
  }

  /** A table keyed by its serial id; `nextId` is the next value of the id sequence. */
  datatype Table = Table(rows: map<int, Row>, nextId: int)

  /** Every stored id was issued before the sequence's next value. */
  predicate Valid(t: Table) {
    forall k :: k in t.rows ==> k < t.nextId
  }

  /** `INSERT ... RETURNING id`: the new row under a fresh id. */
  function Insert(t: Table, row: Row): (r: (Table, int))
    requires Valid(t)
    ensures Valid(r.0)
    ensures r.1 !in t.rows
    ensures r.0.rows == t.rows[r.1 := row]
  {
    (Table(t.rows[t.nextId := row], t.nextId + 1), t.nextId)
  }

  /** `DELETE ... WHERE id = $1` and the `rowCount` it reports. */
  function Delete(t: Table, id: int): (r: (Table, nat))
    ensures r.1 <= 1 && (r.1 == 1 <==> id in t.rows)
    ensures r.0.rows == t.rows - {id} && r.0.nextId == t.nextId
    ensures Valid(t) ==> Valid(r.0)
  {
    if id in t.rows then (Table(t.rows - {id}, t.nextId), 1) else (t, 0)
  }

  /** `UPDATE ... SET <cols> WHERE id = $1`: the named columns change and nothing else does. */
  function Update(t: Table, id: int, cols: Row): (r: (Table, nat))
    ensures r.1 <= 1 && (r.1 == 1 <==> id in t.rows)
    ensures r.0.nextId == t.nextId && r.0.rows.Keys == t.rows.Keys
    ensures forall k :: k in t.rows && k != id ==> r.0.rows[k] == t.rows[k]
    ensures id in t.rows ==>
      (forall c :: c in cols ==> Get(r.0.rows[id], c) == cols[c])
      && (forall c :: c !in cols ==> Get(r.0.rows[id], c) == Get(t.rows[id], c))
    ensures Valid(t) ==> Valid(r.0)
  {
    if id in t.rows then (Table(t.rows[id := t.rows[id] + cols], t.nextId), 1) else (t, 0)
  }

  /**
   * A `DELETE ... WHERE id = $1` route's answer: 500 from the `catch` when
   * the statement fails, else 404 when `rowCount` is 0 and 200 with the row
   * gone.
   */
  function DeleteRow(t: Table, id: int, fails: bool): (r: (Table, int))
    ensures r.1 == 500 <==> fails
    ensures fails ==> r.0 == t
    ensures !fails ==> (r.1 == 404 <==> id !in t.rows) && (r.1 == 200 <==> id in t.rows)
    ensures !fails ==> r.0.rows == t.rows - {id} && r.0.nextId == t.nextId
  {
    if fails then (t, 500)
    else
      var (t1, count) := Delete(t, id);
      (t1, if count == 0 then 404 else 200)
  }

  /** A second delete of the same id finds nothing: it answers 404 and changes nothing. */
  lemma DeleteRowTwice(t: Table, id: int)
    ensures var (t1, _) := DeleteRow(t, id, false);
      DeleteRow(t1, id, false) == (t1, 404)
  {
    var (t1, _) := DeleteRow(t, id, false);
    assert id !in t1.rows;
  }

  // ---------------------------------------------------------------------
  // Transactions on a pooled client
  // ---------------------------------------------------------------------

  /** What a handler sends on a client from `pool.connect()`, and the client's release. */
  datatype TxEvent<S> = Begin | Run(statement: S) | Commit | Rollback | Release

  /** The client is released once, as the last event. */
  predicate ReleasedOnce<S>(events: seq<TxEvent<S>>) {
    |events| >= 1 && events[|events| - 1].Release?
    && forall i :: 0 <= i < |events| - 1 ==> !events[i].Release?
  }

  /**
   * `BEGIN`, the statements that ran, then `COMMIT` when all succeeded or
   * `ROLLBACK` from the `catch`, and the release in `finally`.
   */
  function Transaction<S(==,!new)>(statements: seq<S>, commit: bool): (events: seq<TxEvent<S>>)
    ensures ReleasedOnce(events) && events[0].Begin?
    ensures Commit in events <==> commit
    ensures Rollback in events <==> !commit
    ensures forall s :: Run(s) in events <==> s in statements
  {
    var runs := seq(|statements|, i requires 0 <= i < |statements| => Run(statements[i]));
    assert forall s :: Run(s) in runs <==> s in statements by {
      forall s ensures Run(s) in runs <==> s in statements {
        if s in statements {
          var i :| 0 <= i < |statements| && statements[i] == s;
          assert runs[i] == Run(s);
        }
      }
    }
    [Begin] + runs + [if commit then Commit else Rollback, Release]
  }

  /** Removing a key just added gives the map back. */
  lemma RemoveAfterAdd(rows: map<int, Row>, id: int, row: Row)
    requires id !in rows
    ensures rows[id := row] - {id} == rows
  {
  }

  /** Deleting the row an insert just added gives the table's rows back. */
  lemma DeleteUndoesInsert(t: Table, row: Row)
    requires Valid(t)
    ensures var (t1, id) := Insert(t, row); Delete(t1, id).0.rows == t.rows
  {
    var (t1, id) := Insert(t, row);
    assert id !in t.rows;
  }

  /**
   * `rows[0]` of `SELECT ... WHERE col = $1`: the position of the first row
   * whose column equals `v`.
   */
  function FindFirst(rows: seq<Row>, col: string, v: Value): (r: Option<nat>)
    ensures r.None? <==> forall i :: 0 <= i < |rows| ==> Get(rows[i], col) != v
    ensures r.Some? ==> r.value < |rows| && Get(rows[r.value], col) == v
    ensures r.Some? ==> forall i :: 0 <= i < r.value ==> Get(rows[i], col) != v
    decreases |rows|
  {
    if |rows| == 0 then None
    else if Get(rows[0], col) == v then Some(0)
    else match FindFirst(rows[1..], col, v)
      case None => None
      case Some(i) => Some(i + 1)
  }

  /**
   * `DELETE ... WHERE col = $1` on an ordered table, and the `rowCount` it
   * reports: every matching row goes, every other row stays, and the count
   * is the number removed.
   */
  function DeleteWhere(rows: seq<Row>, col: string, v: Value): (r: (seq<Row>, nat))
    ensures r.1 == |rows| - |r.0|
    ensures forall i :: 0 <= i < |r.0| ==> Get(r.0[i], col) != v
    ensures forall i :: 0 <= i < |r.0| ==> r.0[i] in rows
    ensures forall i :: 0 <= i < |rows| && Get(rows[i], col) != v ==> rows[i] in r.0
    decreases |rows|
  {
    if |rows| == 0 then ([], 0)
    else
      var (rest, n) := DeleteWhere(rows[1..], col, v);
      if Get(rows[0], col) == v then (rest, n + 1) else ([rows[0]] + rest, n)
  }

  /**
   * The filtered delete keeps every non-matching row exactly as often as it
   * occurred and drops every matching one.
   */
  lemma {:induction false} DeleteWhereKeepsMultiplicity(rows: seq<Row>, col: string, v: Value, x: Row)
    ensures multiset(DeleteWhere(rows, col, v).0)[x] == if Get(x, col) == v then 0 else multiset(rows)[x]
    decreases |rows|
  {
    if |rows| > 0 {
      var rest := DeleteWhere(rows[1..], col, v).0;
      DeleteWhereKeepsMultiplicity(rows[1..], col, v, x);
      assert multiset(rows) == multiset{rows[0]} + multiset(rows[1..]) by {
        assert rows == [rows[0]] + rows[1..];
      }
      if Get(rows[0], col) != v {
        assert DeleteWhere(rows, col, v).0 == [rows[0]] + rest;
        assert multiset([rows[0]] + rest) == multiset{rows[0]} + multiset(rest);
      }
    }
  }

  /** A delete reports no rows exactly when no row matched. */
  lemma DeleteCountsMatches(rows: seq<Row>, col: string, v: Value)
    ensures DeleteWhere(rows, col, v).1 == 0 <==> FindFirst(rows, col, v).None?
  {
    var (kept, n) := DeleteWhere(rows, col, v);
    if n == 0 {
      forall i | 0 <= i < |rows| ensures Get(rows[i], col) != v {
        DeleteKeepsAllWhenNoneRemoved(rows, col, v, i);
      }
    }
  }

  lemma {:induction false} DeleteKeepsAllWhenNoneRemoved(rows: seq<Row>, col: string, v: Value, i: nat)
    requires DeleteWhere(rows, col, v).1 == 0 && i < |rows|
    ensures Get(rows[i], col) != v
    decreases |rows|
  {
    if i > 0 {
      DeleteKeepsAllWhenNoneRemoved(rows[1..], col, v, i - 1);
    }
  }
}

=== FILE: uploads.dfy ===
/**
 * Uploaded files: the acceptance filters of the admin, gallery and award
 * routes, the names multer stores files under, where the admin `/upload`
 * puts a file and the path it reports back, and the best-effort `deleteFile`
 * helpers that map a stored reference to a file and remove it.
 *
 * The filesystem is the set of files present, named by their path relative
 * to the project root (`uploads/x.jpg`, `uploads/gallery/y.png`).
 */
module Uploads {
  import opened Js
  import opened Paths

  type Files = set<string>

  const UploadsDir := "uploads"
  const GalleryDir := "uploads/gallery"
  const AwardDir := "uploads/award"

  /** `path.join(dir, name)` for a name that is a single path segment. */
  function Location(dir: string, name: string): string {
    dir + "/" + name
  }

  // ---------------------------------------------------------------------
  // Acceptance filters
  // ---------------------------------------------------------------------

  /** `/jpeg|jpg|png|gif/.test(t)`: an unanchored match of any alternative. */
  predicate ImageWord(t: string) {
    Contains(t, "jpeg") || Contains(t, "jpg") || Contains(t, "png") || Contains(t, "gif")
  }

  /** `/jpeg|jpg|png|gif|webp/.test(t)` */
  predicate GalleryImageWord(t: string) {
    ImageWord(t) || Contains(t, "webp")
  }

  /** The admin filter: the lower-cased extension and the MIME type must both match. */
  predicate AdminAccepts(originalName: string, mimetype: string) {
    ImageWord(ToLower(Extname(originalName))) && ImageWord(mimetype)
  }

  /** The gallery filter: as the admin one, with `webp` also allowed. */
  predicate GalleryAccepts(originalName: string, mimetype: string) {
    GalleryImageWord(ToLower(Extname(originalName))) && GalleryImageWord(mimetype)
  }

  /** The award filter looks only at the MIME type: a PDF or any image. */
  predicate AwardAccepts(mimetype: string) {
    mimetype == "application/pdf" || StartsWith(mimetype, "image/")
  }

  /** Whatever the admin filter accepts, the gallery filter accepts too. */
  lemma GalleryAcceptsAdminUploads(originalName: string, mimetype: string)
    requires AdminAccepts(originalName, mimetype)
    ensures GalleryAccepts(originalName, mimetype)
  {
  }

  /** `s` holds `sub` at offset `k`. */
  lemma {:induction false} ContainsAt(s: string, sub: string, k: nat)
    requires k + |sub| <= |s| && s[k..k + |sub|] == sub
    ensures Contains(s, sub)
    decreases k
  {
    if k > 0 {
      assert s[1..][k - 1..k - 1 + |sub|] == sub;
      ContainsAt(s[1..], sub, k - 1);
    }
  }

  /** The match is a substring test, so a longer extension such as `.jpgx` passes. */
  lemma SubstringMatchAcceptsLongerExtension(stem: string)
    requires stem != "" && '.' !in stem && '/' !in stem
    ensures AdminAccepts(stem + ".jpgx", "image/jpeg")
  {
    var e := ".jpgx";
    assert '.' !in e[1..] && '/' !in e;
    ExtnameOfSuffix(stem, e);
    LongerExtensionMatches();
    JpegTypeMatches();
  }

  lemma LongerExtensionMatches()
    ensures ImageWord(ToLower(".jpgx"))
  {
    var e := ToLower(".jpgx");
    assert e == ".jpgx";
    ContainsAt(e, "jpg", 1);
  }

  lemma JpegTypeMatches()
    ensures ImageWord("image/jpeg")
  {
    ContainsAt("image/jpeg", "jpeg", 6);
  }

  // ---------------------------------------------------------------------
  // Stored names
  // ---------------------------------------------------------------------

  /**
   * The name multer stores a file under: a route prefix (`''`, `gallery-`,
   * `award-`), the time and a random number, and the original extension.
   */
  function StoredName(prefix: string, time: nat, random: nat, originalName: string): string {
    prefix + NatToString(time) + "-" + NatToString(random) + Extname(originalName)
  }

  predicate RoutePrefix(prefix: string) {
    prefix in {"", "gallery-", "award-"}
  }

  lemma StemHasNoDots(prefix: string, time: nat, random: nat)
    requires RoutePrefix(prefix)
    ensures var stem := prefix + NatToString(time) + "-" + NatToString(random);
      stem != "" && '.' !in stem && '/' !in stem
  {
    var a := NatToString(time);
    var b := NatToString(random);
    var stem := prefix + a + "-" + b;
    forall k | 0 <= k < |stem| ensures stem[k] != '.' && stem[k] != '/' {
      if k < |prefix| {
      } else if k < |prefix| + |a| {
        assert stem[k] == a[k - |prefix|];
      } else if k == |prefix| + |a| {
      } else {
        assert stem[k] == b[k - |prefix| - |a| - 1];
      }
    }
  }

  /** A stored file keeps the extension of the file that was uploaded. */
  lemma StoredNameKeepsExtension(prefix: string, time: nat, random: nat, originalName: string)
    requires RoutePrefix(prefix)
    ensures Extname(StoredName(prefix, time, random, originalName)) == Extname(originalName)
  {
    StemHasNoDots(prefix, time, random);
    var stem := prefix + NatToString(time) + "-" + NatToString(random);
    ExtnameOfStoredName(stem, originalName);
  }

  /** So a stored file still carries an image extension the filter accepted. */
  lemma AcceptedUploadKeepsImageExtension(time: nat, random: nat, originalName: string, mimetype: string)
    requires AdminAccepts(originalName, mimetype)
    ensures AdminAccepts(StoredName("", time, random, originalName), mimetype)
  {
    StoredNameKeepsExtension("", time, random, originalName);
  }

  // ---------------------------------------------------------------------
  // Admin /upload
  // ---------------------------------------------------------------------

  /** `isGallery === true || isGallery === 'true'` */
  predicate GalleryFlag(flag: Value) {
    flag == Bool(true) || flag == Str("true")
  }

  /**
   * multer's destination: the gallery directory for a gallery flag or a
   * gallery route. multer calls it when the file part arrives, so `early` is
   * the `isGallery` of the fields the client sent before the file, or
   * `undefined` when it sent none.
   */
  function Destination(early: Value, routePath: string): (dir: string)
    ensures dir == GalleryDir <==> GalleryFlag(early) || Contains(routePath, "gallery")
    ensures dir == UploadsDir <==> !(GalleryFlag(early) || Contains(routePath, "gallery"))
  {
    if GalleryFlag(early) || Contains(routePath, "gallery") then GalleryDir else UploadsDir
  }

  /** The `relativePath` the handler reports, from the flag of the complete body. */
  function RelativePath(flag: Value, filename: string): (p: string)
    ensures GalleryFlag(flag) ==> p == "/uploads/gallery/" + filename
    ensures !GalleryFlag(flag) ==> p == "/uploads/" + filename
  {
    if GalleryFlag(flag) then "/uploads/gallery/" + filename else "/uploads/" + filename
  }

  lemma {:induction false} ShorterDoesNotContain(s: string, sub: string)
    requires |s| < |sub|
    ensures !Contains(s, sub)
    decreases |s|
  {
    if |s| > 0 {
      ShorterDoesNotContain(s[1..], sub);
    }
  }

  /** The `/upload` route's path does not mention the gallery. */
  lemma UploadRouteIsPlain()
    ensures !Contains("/upload", "gallery")
  {
    assert "/upload"[..7][0] == '/';
    ShorterDoesNotContain("/upload"[1..], "gallery");
  }

  /**
   * On `/upload` the reported relative path is the directory the file was
   * written to, followed by its name, exactly when the flag multer saw and
   * the flag of the complete body agree.
   */
  lemma RelativePathNamesDestination(early: Value, flag: Value, filename: string)
    ensures RelativePath(flag, filename) == "/" + Location(Destination(early, "/upload"), filename)
      <==> GalleryFlag(early) == GalleryFlag(flag)
  {
    UploadDestination(early);
    SlashedLocation(GalleryFlag(early), GalleryFlag(flag), filename);
  }

  /** On `/upload` only the early flag chooses the directory. */
  lemma UploadDestination(early: Value)
    ensures Destination(early, "/upload") == if GalleryFlag(early) then GalleryDir else UploadsDir
  {
    UploadRouteIsPlain();
  }

  lemma SlashedLocation(inGallery: bool, reported: bool, filename: string)
    ensures var dir := if inGallery then GalleryDir else UploadsDir;
      var rel := if reported then "/uploads/gallery/" + filename else "/uploads/" + filename;
      rel == "/" + Location(dir, filename) <==> inGallery == reported
  {
    var dir := if inGallery then GalleryDir else UploadsDir;
    assert "/" + Location(dir, filename) == ("/" + dir + "/") + filename;
    assert "/" + GalleryDir + "/" == "/uploads/gallery/";
    assert "/" + UploadsDir + "/" == "/uploads/";
  }

  datatype UploadReply = UploadReply(path: string, filename: string, relativePath: string)

  /** A file as the client sent it, and the name multer would store it under. */
  datatype Offer = Offer(originalName: string, mimetype: string, filename: string)

  /**
   * `POST /upload`: 400 without a file, else the file's full URL and
   * relative path. The second result is the path multer wrote the file to.
   * A file the admin filter refuses is never written: multer hands the
   * filter's error to the error middleware of index.js, which answers 500
   * before the handler runs.
   */
  function Upload(file: Option<Offer>, early: Value, flag: Value, protocol: string, host: string)
    : (r: (int, Option<UploadReply>, Option<string>))
    ensures r.0 in {200, 400, 500}
    ensures r.0 == 400 <==> file.None?
    ensures r.0 == 500 <==> file.Some? && !AdminAccepts(file.value.originalName, file.value.mimetype)
    ensures r.0 == 200 <==> r.1.Some?
    ensures r.2.Some? <==> r.0 == 200
    ensures r.1.Some? ==>
      r.1.value.filename == file.value.filename
      && r.1.value.path == protocol + "://" + host + r.1.value.relativePath
      && r.1.value.relativePath == RelativePath(flag, file.value.filename)
      && r.2 == Some(Location(Destination(early, "/upload"), file.value.filename))
  {
    match file
    case None => (400, None, None)
    case Some(offer) =>
      if !AdminAccepts(offer.originalName, offer.mimetype) then (500, None, None)
      else
        var f := offer.filename;
        var rel := RelativePath(flag, f);
        (200, Some(UploadReply(protocol + "://" + host + rel, f, rel)), Some(Location(Destination(early, "/upload"), f)))
  }

  /**
   * A client that sends `isGallery: 'true'` after the file gets the file
   * written to `uploads` while the reply names `/uploads/gallery/<file>`.
   */
  lemma LateFlagMisreportsDirectory(offer: Offer, protocol: string, host: string)
    requires AdminAccepts(offer.originalName, offer.mimetype)
    ensures var filename := offer.filename;
      var (status, reply, written) := Upload(Some(offer), Undefined, Str("true"), protocol, host);
      status == 200 && written == Some(Location(UploadsDir, filename))
      && reply.value.relativePath == "/uploads/gallery/" + filename
      && reply.value.relativePath != "/" + written.value
  {
    var r := Upload(Some(offer), Undefined, Str("true"), protocol, host);
    assert r.0 == 200;
    UploadDestination(Undefined);
    assert r.2 == Some(Location(UploadsDir, offer.filename));
    RelativePathNamesDestination(Undefined, Str("true"), offer.filename);
  }

  // ---------------------------------------------------------------------
  // deleteFile
  // ---------------------------------------------------------------------

  /**
   * The subdirectories of `uploads` the upload handlers create: the gallery
   * and admin routes write to `uploads/gallery`, app/routes/auth.js to
   * `uploads/profile` and app/routes/award.js to `uploads/award`.
   */
  predicate Subdirectory(name: string) {
    name == "gallery" || name == "profile" || name == "award"
  }

  /**
   * A name whose first probe, `uploads/<name>`, can be a file. For `''`,
   * `.` and `..` the join names a directory, and so it does for the
   * subdirectories: `existsSync` is true, `unlinkSync` throws, the helper
   * swallows the error and never reaches its second probe.
   */
  predicate FileName(name: string) {
    name != "" && name != "." && name != ".." && !Subdirectory(name)
  }

  /** Probe `uploads`, then `uploads/gallery`, and remove the first file found. */
  function Probe(fs: Files, name: string): (r: Files)
    ensures r <= fs && |fs - r| <= 1
    ensures fs - r <= {Location(UploadsDir, name), Location(GalleryDir, name)}
    ensures FileName(name) && Location(UploadsDir, name) in fs ==> r == fs - {Location(UploadsDir, name)}
    ensures FileName(name) && Location(UploadsDir, name) !in fs && Location(GalleryDir, name) in fs ==>
      r == fs - {Location(GalleryDir, name)}
    ensures !FileName(name) || (Location(UploadsDir, name) !in fs && Location(GalleryDir, name) !in fs) ==> r == fs
  {
    if !FileName(name) then fs
    else if Location(UploadsDir, name) in fs then fs - {Location(UploadsDir, name)}
    else if Location(GalleryDir, name) in fs then fs - {Location(GalleryDir, name)}
    else fs
  }

  /**
   * The admin helper's name for a reference: the basename of the URL's
   * pathname when the reference parses as a URL, else its own basename.
   * Falsy references and values that are not strings name nothing.
   */
  function AdminTarget(ref: Value): (r: Option<string>)
    ensures !Truthy(ref) || !ref.Str? ==> r.None?
    ensures Truthy(ref) && ref.Str? && UrlPathname(ref.s).Some? ==> r == Some(Basename(UrlPathname(ref.s).value))
    ensures Truthy(ref) && ref.Str? && UrlPathname(ref.s).None? ==> r == Some(Basename(ref.s))
    ensures r.Some? ==> '/' !in r.value
  {
    match ref
    case Str(s) =>
      if s == "" then None
      else
        (match UrlPathname(s)
         case Some(p) => Some(Basename(p))
         case None => Some(Basename(s)))
    case _ => None
  }

  /** The gallery helper's name: a URL only when the reference contains `://`. */
  function GalleryTarget(ref: Value): (r: Option<string>)
    ensures !Truthy(ref) || !ref.Str? ==> r.None?
    ensures Truthy(ref) && ref.Str? && !Contains(ref.s, "://") ==> r == Some(Basename(ref.s))
    ensures Truthy(ref) && ref.Str? && Contains(ref.s, "://") && UrlPathname(ref.s).Some? ==>
      r == Some(Basename(UrlPathname(ref.s).value))
    ensures Truthy(ref) && ref.Str? && Contains(ref.s, "://") && UrlPathname(ref.s).None? ==> r.None?
    ensures r.Some? ==> '/' !in r.value
  {
    if ref.Str? && ref.s != "" then GalleryName(ref.s) else None
  }

  function GalleryName(s: string): (r: Option<string>)
    ensures !Contains(s, "://") ==> r == Some(Basename(s))
    ensures Contains(s, "://") ==> r == UrlName(s)
    ensures r.Some? ==> '/' !in r.value
  {
    if Contains(s, "://") then UrlName(s) else Some(Basename(s))
  }

  /** `path.basename(new URL(s).pathname)`, or nothing where the constructor throws. */
  function UrlName(s: string): (r: Option<string>)
    ensures r.Some? <==> UrlPathname(s).Some?
    ensures r.Some? ==> r.value == Basename(UrlPathname(s).value)
    ensures r.Some? ==> '/' !in r.value
  {
    match UrlPathname(s)
    case Some(p) => Some(Basename(p))
    case None => None
  }

  function Remove(fs: Files, target: Option<string>): Files {
    match target
    case None => fs
    case Some(name) => Probe(fs, name)
  }

  /** `deleteFile` of app/routes/admin.js: never throws, removes at most one file. */
  function DeleteFile(fs: Files, ref: Value): (r: Files)
    ensures r <= fs && |fs - r| <= 1
    ensures AdminTarget(ref).None? ==> r == fs
    ensures AdminTarget(ref).Some? ==> r == Probe(fs, AdminTarget(ref).value)
    ensures AdminTarget(ref).Some? ==>
      fs - r <= {Location(UploadsDir, AdminTarget(ref).value), Location(GalleryDir, AdminTarget(ref).value)}
  {
    Remove(fs, AdminTarget(ref))
  }

  /** `deleteFile` of app/routes/gallery.js. */
  function GalleryDeleteFile(fs: Files, ref: Value): (r: Files)
    ensures r <= fs && |fs - r| <= 1
    ensures GalleryTarget(ref).None? ==> r == fs
    ensures GalleryTarget(ref).Some? ==> r == Probe(fs, GalleryTarget(ref).value)
    ensures GalleryTarget(ref).Some? ==>
      fs - r <= {Location(UploadsDir, GalleryTarget(ref).value), Location(GalleryDir, GalleryTarget(ref).value)}
  {
    Remove(fs, GalleryTarget(ref))
  }

  /** A second probe for the same name is a no-op unless the name exists in both directories. */
  lemma ProbeTwice(fs: Files, name: string)
    requires !(Location(UploadsDir, name) in fs && Location(GalleryDir, name) in fs)
    ensures Probe(Probe(fs, name), name) == Probe(fs, name)
  {
  }

  /** Deleting the same reference twice deletes no more than once, unless its name is in both directories. */
  lemma DeleteFileTwice(fs: Files, ref: Value)
    requires AdminTarget(ref).Some? ==>
      !(Location(UploadsDir, AdminTarget(ref).value) in fs && Location(GalleryDir, AdminTarget(ref).value) in fs)
    ensures DeleteFile(DeleteFile(fs, ref), ref) == DeleteFile(fs, ref)
  {
    if AdminTarget(ref).Some? {
      ProbeTwice(fs, AdminTarget(ref).value);
    }
  }

  /** A name present in both directories: the second call removes the gallery copy too. */
  lemma DeleteFileTwiceReachesGallery(name: string)
    requires FileName(name) && '/' !in name && ':' !in name
    ensures var fs := {Location(UploadsDir, name), Location(GalleryDir, name)};
      DeleteFile(fs, Str(name)) == {Location(GalleryDir, name)}
      && DeleteFile(DeleteFile(fs, Str(name)), Str(name)) == {}
  {
    BasenameOfName(name);
    assert AdminTarget(Str(name)) == Some(name);
    var upload, gallery := Location(UploadsDir, name), Location(GalleryDir, name);
    assert |upload| < |gallery|;
    assert {upload, gallery} - {upload} == {gallery};
  }

  /**
   * A character the URL parser keeps as it is inside the path of an `http`
   * URL: printable ASCII without the space and outside the path
   * percent-encode set of the WHATWG URL Standard (`"`, `#`, `<`, `>`, `?`,
   * `` ` ``, `{`, `}`), and none of `/` and `\`, which end a segment, or
   * `%`, with which `%2e` reads as a dot.
   */
  predicate UrlPathChar(c: char) {
    '!' <= c <= '~' && c !in {'"', '#', '<', '>', '?', '`', '{', '}', '/', '\\', '%'}
  }

  /** A name that `new URL` leaves intact inside a path. */
  predicate UrlSafeName(name: string) {
    FileName(name) && forall k :: 0 <= k < |name| ==> UrlPathChar(name[k])
  }

  /** The literal prefixes of the relative paths are the upload directories. */
  lemma DirectoryPrefixes()
    ensures "/uploads/gallery/" == ("/" + GalleryDir) + "/"
    ensures "/uploads/" == ("/" + UploadsDir) + "/"
  {
  }

  lemma RelativePathShape(flag: Value, filename: string)
    requires UrlSafeName(filename)
    ensures var rel := RelativePath(flag, filename);
      var dir := if GalleryFlag(flag) then GalleryDir else UploadsDir;
      rel == ("/" + dir) + "/" + filename
      && rel[0] == '/' && '?' !in rel && '#' !in rel
      && Basename(rel) == filename
  {
    SafeNameDelimiters(filename);
    PlainRelativePathShape(flag, filename);
  }

  /** A safe name holds no `/`, which ends a segment, and no `?` or `#`, which end the path. */
  lemma SafeNameDelimiters(name: string)
    requires UrlSafeName(name)
    ensures FileName(name) && '/' !in name && '?' !in name && '#' !in name
  {
    forall k | 0 <= k < |name|
      ensures name[k] != '/' && name[k] != '?' && name[k] != '#'
    {
      assert UrlPathChar(name[k]);
    }
  }

  /** The relative path for a name without delimiters: the directory, a slash, the name. */
  lemma PlainRelativePathShape(flag: Value, filename: string)
    requires FileName(filename) && '/' !in filename && '?' !in filename && '#' !in filename
    ensures var rel := RelativePath(flag, filename);
      var dir := if GalleryFlag(flag) then GalleryDir else UploadsDir;
      rel == ("/" + dir) + "/" + filename
      && rel[0] == '/' && '?' !in rel && '#' !in rel
      && Basename(rel) == filename
  {
    var dir := if GalleryFlag(flag) then GalleryDir else UploadsDir;
    DirectoryPrefixes();
    BasenameOfJoin("/" + dir, filename);
  }

  /**
   * The full URL `/upload` reports, handed back to `deleteFile`, removes the
   * file multer wrote, whichever directory the reply names, provided no file
   * of the same name sits in `uploads` when the upload went to the gallery.
   */
  lemma UploadedUrlDeletesUpload(fs: Files, early: Value, flag: Value, offer: Offer, protocol: string, host: string)
    requires AdminAccepts(offer.originalName, offer.mimetype)
    requires UrlSafeName(offer.filename)
    requires ValidScheme(protocol)
    requires forall k :: 0 <= k < |host| ==> host[k] !in {'/', '?', '#'}
    requires Location(Destination(early, "/upload"), offer.filename) in fs
    requires GalleryFlag(early) ==> Location(UploadsDir, offer.filename) !in fs
    ensures var (_, reply, written) := Upload(Some(offer), early, flag, protocol, host);
      DeleteFile(fs, Str(reply.value.path)) == fs - {written.value}
  {
    var r := Upload(Some(offer), early, flag, protocol, host);
    assert r.0 == 200;
    assert r.1.value.path == protocol + "://" + host + RelativePath(flag, offer.filename);
    assert r.2.value == Location(Destination(early, "/upload"), offer.filename);
    ReportedUrlDeletesFile(fs, early, flag, offer.filename, protocol, host);
  }

  /** The URL built from the reported relative path names the written file. */
  lemma ReportedUrlDeletesFile(fs: Files, early: Value, flag: Value, filename: string, protocol: string, host: string)
    requires UrlSafeName(filename)
    requires ValidScheme(protocol)
    requires forall k :: 0 <= k < |host| ==> host[k] !in {'/', '?', '#'}
    requires Location(Destination(early, "/upload"), filename) in fs
    requires GalleryFlag(early) ==> Location(UploadsDir, filename) !in fs
    ensures DeleteFile(fs, Str(protocol + "://" + host + RelativePath(flag, filename)))
         == fs - {Location(Destination(early, "/upload"), filename)}
  {
    var rel := RelativePath(flag, filename);
    RelativePathShape(flag, filename);
    UploadRouteIsPlain();
    UrlPathnameOfAbsolute(protocol, host, rel);
    assert AdminTarget(Str(protocol + "://" + host + rel)) == Some(filename);
  }

  lemma {:induction false} NoColonNoScheme(s: string)
    requires ':' !in s
    ensures !Contains(s, "://")
    decreases |s|
  {
    assert !StartsWith(s, "://") by {
      if |s| >= 3 {
        assert s[0] != ':';
      }
    }
    if |s| > 0 {
      NoColonNoScheme(s[1..]);
    }
  }

  /** On a plain path with no `:` the two helpers remove the same file. */
  lemma HelpersAgreeOnPaths(fs: Files, s: string)
    requires ':' !in s
    ensures GalleryDeleteFile(fs, Str(s)) == DeleteFile(fs, Str(s))
  {
    NoColonNoScheme(s);
  }

  /** On a `scheme://host/path` URL the two helpers remove the same file. */
  lemma HelpersAgreeOnUrls(fs: Files, scheme: string, host: string, path: string)
    requires ValidScheme(scheme)
    requires forall k :: 0 <= k < |host| ==> host[k] !in {'/', '?', '#'}
    requires path == "" || path[0] == '/'
    requires '?' !in path && '#' !in path
    ensures var s := scheme + "://" + host + path;
      GalleryDeleteFile(fs, Str(s)) == DeleteFile(fs, Str(s))
  {
    var s := scheme + "://" + host + path;
    assert s[|scheme|..|scheme| + 3] == "://";
    ContainsAt(s, "://", |scheme|);
    UrlPathnameOfAbsolute(scheme, host, path);
  }
}
